=== FILE: README.md ===
# pyemtmad: reply validation and entity mapping, modelled in Dafny

pyemtmad is a Python client for the open-data API of EMT Madrid (the
Madrid municipal bus company). The API has three backends: the OpenBus
`bus` and `geo` services and the parking service. They use three
different conventions to signal success:

- a `resultCode` of zero;
- a `code` of zero;
- the plain presence of the result key.

This project models the part of the client that does real work:

- the reply helpers of `util.py`: the success check, the "maybe a list"
  normalisation, and the date, date-time, integer-list, language and
  direction formats;
- the code tables and entity constructors of `types.py`;
- the endpoint operations of `api/bus.py`, `api/geo.py` and
  `api/parking.py`. Each operation builds its parameters from the caller's
  keyword arguments, sends them through the gateway, validates the reply,
  normalises the result field and maps every item to an entity.

Modules, one per concern:

| module | file | contents |
|---|---|---|
| `Wrappers` | wrappers.dfy | `Option`, `Result`, the Python exceptions the code can raise (`PyError`), and `MapAll`, a left-to-right map that stops at the first error |
| `Text` | text.dfy | `str.strip`, removal of backslashes, decimal rendering and parsing, `split` and `join` |
| `Json` | json.dfy | decoded JSON values and the Python coercions the constructors apply: `dict.get`, truthiness, `==` against an integer, hashability, `int()`, `float()` |
| `Util` | util.dfy | `util.py` |
| `CodeTables` | codetables.dfy | the five tables of `types.py` and their `.get(code, default)` lookups |
| `Types` | types.dfy | one datatype per entity of `types.py`, each with a mapper `XxxFrom` that models its `__init__(**kwargs)`, including the loop of `NodeLinesItem` as a method |
| `Pipeline` | pipeline.dfy | the three reply pipelines the operations share, each with a declarative contract |
| `Params` | params.dfy | the parameter values the operations build, and what each one reads back as |
| `BusApi`, `GeoApi`, `ParkingApi` | bus.dfy, geo.dfy, parking.dfy | one request function and one operation per endpoint |

## Conventions of the model

- **The gateway is a parameter.** `make_request` (in `wrapper.py`) is
  replaced by an arbitrary function `gateway: Request -> Json`. Every
  operation is proved for every gateway. Its contract says what it does
  with the reply the gateway returns for the request that operation builds.
- **Outcomes.** An operation ends with one of three outcomes:
  - `Success(entities)` for the Python `(True, [...])`;
  - `Failure(message)` for `(False, message)`;
  - `Raised(error)` for an exception that escapes the operation. Examples:
    `int(None)` is a `TypeError`; calling `.get` on a reply that is not a
    dictionary is an `AttributeError`; a short `poi_info` tuple is an
    `IndexError`.
- **Missing keys.** A missing key and an explicit JSON `null` are the same
  to `kwargs.get`. Both read as `JNull` through `Json.Get`.
- **Caller options.** Keyword arguments are a datatype of `Option` fields
  per API class, with `None` for an argument left out. Values the client
  passes on untouched are raw `Json` values: stop numbers, radii,
  coordinates, street data, the parking `id` and `family`.
- **Float coercions.** `float()` keeps its argument (`PyFloat.source`);
  the number it denotes is not modelled.

### Behaviour of the code that the model keeps

- **Language default.** The `language_code` docstring calls `EN` the
  default (`pyemtmad/util.py:141`). The code returns `ES` for a missing or
  empty code and for `es`, and `EN` only for anything else. The model
  follows the code: `Util.LanguageCode` and `Params.LanguageFor` state
  this behaviour.
- **Status fields.** `check_result` looks at `resultCode` before `code`. A
  present `resultCode` decides alone, even next to `code: 0`
  (`Util.ResultCodeTakesPrecedence`).
- **Strike flag.** `CalendarItem` defaults the `strike` marker to `N`, so
  an absent marker gives `false`. Only a marker other than `Y` or `N`
  leaves the flag unset (`Types.CalendarItemFrom`).
- **Missing fields.** Several constructors call `int()`, `.strip()` or
  `.replace()` on a value that may be missing, and then raise. The mapper
  contracts state exactly when:
  - `BusGroupItem` without `groupId`;
  - `LineInfo` without `name`;
  - `Stop` without `stopId`;
  - `NodeLinesItem` without `lines`;
  - `TimesLinesItem` without one of its four times.
- **Preserved quirks.** These are kept as written:
  - `Arrival.is_head` is true unless the field is the text `False`;
  - `Stop.lines` is unset, not empty, when `line` is absent;
  - `list_parking` sends its language as URL argument `lang`, where the
    other parking endpoints use `language`;
  - `get_poi_types` does no validation at all.
- **Dates left out.** The dated bus and geo operations raise `TypeError`
  before any request when a day, month or year is left out
  (`Params.DateArg`); see "Findings". `Params.DateParam` is the date
  with the integer defaults that the parking operations use.

## Model

| member | source | states |
|---|---|---|
| Util.CheckResult | pyemtmad/util.py:39-69 | Only a JSON object can pass. A non-empty key passes iff it is present. Otherwise `resultCode` is consulted first (passes iff it equals 0), then `code`, and a reply with neither fails |
| Util.ResultCodeTakesPrecedence | pyemtmad/util.py:61-67 | A non-zero `resultCode` fails the reply even when `code: 0` is added beside it |
| Util.ListOf | pyemtmad/util.py:170-174 | A list is kept as it is; any other value becomes a one-element list |
| Util.ResponseList | pyemtmad/util.py:154-174 | `None` iff the key is absent; otherwise the value as a list, a bare item wrapped in a list |
| Util.ResponseListIdempotent | pyemtmad/util.py:154-174 | Normalising a field that already holds its normalised list gives the same list |
| Util.Pad2 | pyemtmad/util.py:85 | `%02d` has at least two characters, exactly two for 0..99, and parses back to the number |
| Util.DateString | pyemtmad/util.py:71-85 | `DD/MM/YYYY` splits on `/` into exactly the padded day, the padded month and the year |
| Util.DateStringRoundTrip | pyemtmad/util.py:71-85 | Parsing the three fields of a formatted date gives back day, month and year |
| Util.ClampHour | pyemtmad/util.py:104 | An hour outside 0..23 becomes 0; one inside is kept |
| Util.ClampMinute | pyemtmad/util.py:105 | A minute outside 0..60 becomes 0 (60 is let through); one inside is kept |
| Util.TimeTail | pyemtmad/util.py:107 | `Thh:mm:00`: nine characters, with the padded hour and minute in fixed positions |
| Util.DatetimeString | pyemtmad/util.py:87-107 | The date-time ends in `T`, the padded clamped hour, `:`, the padded clamped minute and `:00`, after the year, padded month and padded day joined by `-` |
| Util.DatetimeStringShape | pyemtmad/util.py:87-107 | The hour and minute fields of the date-time parse back to the clamped hour and minute |
| Util.DatetimeDateRoundTrip | pyemtmad/util.py:87-107 | For non-negative fields, the date part splits on `-` into fields that parse back to year, month and day |
| Util.Renderings | pyemtmad/util.py:136 | One decimal rendering per integer, in order |
| Util.IntsToString | pyemtmad/util.py:123-136 | The empty list gives the empty text, and a single integer parses back to itself |
| Util.IntsToStringRoundTrip | pyemtmad/util.py:123-136 | A non-empty list of integers joined by vertical bars splits into as many pieces as integers, each parsing back to its integer |
| Util.LanguageCode | pyemtmad/util.py:138-152 | The code is `ES` or `EN`. It is `ES` exactly for a missing or empty code and for `es` |
| Util.DirectionCode | pyemtmad/util.py:109-121 | The code is 1 or 2. It is 2 exactly for `backward` |
| CodeTables.LookupText | pyemtmad/types.py:23-48 | `.get` on a text-keyed table fails only for an unhashable code (`TypeError`). A key that is present gives its label; any other code gives the default |
| CodeTables.LookupNumber | pyemtmad/types.py:43-68 | `.get` on an integer-keyed table matches every code equal to a key (integers, booleans, integral floats). It fails only for an unhashable code and gives the default otherwise |
| CodeTables.DayTypeOf | pyemtmad/types.py:33-41 | The day type is one of Labour, Friday, Saturday, Festive. It differs from Labour exactly for `V`, `SA`, `FE`, `SABADO`, `FESTIVO` |
| CodeTables.WeekDayOf | pyemtmad/types.py:23-31 | The weekday differs from Monday exactly for `M`, `X`, `J`, `V`, `S`, `D` |
| CodeTables.NodeTypeOf | pyemtmad/types.py:43-48 | The node type is one of the four kinds. It is forward_stop unless the code equals 19, 20 or 29 |
| CodeTables.PoiTypeOf | pyemtmad/types.py:50-68 | The label is empty exactly when the code equals none of 1..17 |
| CodeTables.ParkingPoiKindOf | pyemtmad/types.py:70-74 | The kind is one of zone, poi, parking. It is zone unless the code is `Poi` or `Parking` |
| CodeTables.LookupsTotalWithDefaults | pyemtmad/types.py:23-74 | Every lookup succeeds on a hashable code. Each table gives its own default (Labour, Monday, forward_stop, empty, zone) for a code that matches none of its keys |
| Json.GetOr | pyemtmad/types.py:100 | `dict.get(key, default)`: the value if present, else the default |
| Json.IntKey | pyemtmad/types.py:950 | The integer a value compares equal to, if any, and only that one |
| Json.Truncate | pyemtmad/types.py:127 | `int()` of a float rounds toward zero: the result is at most the value when it is non-negative and at least the value when it is negative, less than one away |
| Json.ToInt | pyemtmad/types.py:127 | `int(v)` succeeds exactly for booleans, numbers and decimal texts. A bad text raises `ValueError`, anything else `TypeError`. A boolean gives 1 or 0, a float its truncation toward zero, and an integer or the rendering of an integer that integer |
| Json.IntOr | pyemtmad/types.py:100 | `int(kwargs.get(key, default))`: the default when absent, the coercion of the value otherwise |
| Json.ToFloat | pyemtmad/types.py:316-317 | `float(v)` fails with `TypeError` exactly for `None`, lists and objects |
| Json.CoordinateOf | pyemtmad/types.py:316-317 | `float(kwargs.get(key, '0.0'))` |
| Json.CleanText | pyemtmad/types.py:156 | `.replace('\\', '').strip()` works only on text (otherwise `AttributeError`) and gives the cleaned text |
| Json.CleanOr | pyemtmad/types.py:156 | The same over `kwargs.get(key, '')`: the empty text when absent |
| Json.StripText | pyemtmad/types.py:128 | `.strip()` works only on text |
| Json.SubObject | pyemtmad/types.py:759-760 | `kwargs.get(key, {})`, read as a dictionary: empty when absent, and usable only when it is an object |
| Json.Unpack | pyemtmad/api/bus.py:81 | `Entity(**a)` needs an object (otherwise `TypeError`) and passes its fields |
| Text.Strip | pyemtmad/types.py:128 | The result of `str.strip` is no longer than the input and neither starts nor ends with whitespace |
| Text.StripSlice | pyemtmad/types.py:128 | The stripped text is the contiguous middle slice of the input that starts after the leading whitespace |
| Text.StripCutsSpaces | pyemtmad/types.py:128 | What `str.strip` leaves out before and after the kept text is all whitespace |
| Text.StripIdempotent | pyemtmad/types.py:128 | Stripping twice is stripping once |
| Text.Clean | pyemtmad/types.py:156 | The cleaned text has no backslash and no surrounding whitespace |
| Text.CleanIdempotent | pyemtmad/types.py:156 | Cleaning twice is cleaning once |
| Text.IntToString | pyemtmad/util.py:85 | `str(n)` parses back to `n` |
| Text.SplitJoin | pyemtmad/util.py:136 | Joining pieces without the separator, then splitting, gives the pieces back |
| Wrappers.MapAll | pyemtmad/api/bus.py:81 | A list comprehension whose items may raise: success iff every item maps, one result per item in order; otherwise the error of the first item that raises |
| Wrappers.MapAllExtend | pyemtmad/api/parking.py:183-190 | One more successful iteration appends its result |
| Wrappers.MapAllStops | pyemtmad/api/parking.py:183-190 | An iteration that raises after successful ones decides the outcome |
| Types.MapItems | pyemtmad/api/geo.py:65 | `[f(**a) for a in items]`, with the contract of `MapAll` |
| Types.MapIterable | pyemtmad/api/geo.py:227-228 | Iterating a value that may not be a list: a list is mapped item by item; the empty text and the empty object give nothing; anything else raises `TypeError` |
| Types.ArrivalFrom | pyemtmad/types.py:95-114 | Only `busId` can raise; it is `int()` of the field, -1 when absent. `is_head` is false exactly for the text `False`. The position type is real for 0, estimate for 1, unset otherwise |
| Types.BusGroupItemFrom | pyemtmad/types.py:126-130 | Succeeds iff `groupId` converts and `groupDescription` is text. A missing id raises `TypeError`. The description is stripped |
| Types.CalendarItemFrom | pyemtmad/types.py:155-176 | The date is the cleaned `date` field (empty when absent, no backslash). Strike is true exactly for `Y` and false exactly for `N` or an absent marker. Day type and weekday are the DAY_TYPES and WEEK_DAYS lookups of `typeDay` and `dayOfWeek` |
| Types.DirectionFrom | pyemtmad/types.py:214-222 | Raises only for a non-text frequency description. The description is the cleaned field, empty when absent |
| Types.DayTypeFrom | pyemtmad/types.py:193-198 | Both directions must be objects and the day type hashable. The day type is the DAY_TYPES lookup of `dayTypeId`. Each direction is `Direction(**…)` of its object and keeps its fields |
| Types.LineFrom | pyemtmad/types.py:335-354 | Succeeds exactly when the date converts and every day type maps. `date` wins over `string`: a numeric `date` becomes a timestamp and a non-numeric one raises `TypeError`. Without `date`, a text `string` is cleaned and anything else raises `AttributeError`. Neither present leaves the date unset. An absent `dayType` gives no day types |
| Types.LineInfoFrom | pyemtmad/types.py:378-396 | `name` is required and gives the line number via `int()`. Frequencies are `int()` of their fields, -1 by default. The day type is the DAY_TYPES lookup of `typeDay`. Direction is forward for `A` or an absent field, backward for `B`, unset otherwise |
| Types.ListLineInfoFrom | pyemtmad/types.py:413-422 | Group and line are `int()` of their fields, 0 by default. Both dates are their cleaned fields, empty when absent, and carry no backslash |
| Types.NodeLineEntry | pyemtmad/types.py:448-453 | A falsy entry is skipped. A truthy non-text raises `AttributeError`. For a text: no `/` raises `IndexError`, a first field that is not a number raises `ValueError`, otherwise it gives the line number and forward exactly when its second field is `1` |
| Types.WalkFirstError | pyemtmad/types.py:447-453 | The first entry that raises decides the loop's error |
| Types.WalkAppend | pyemtmad/types.py:447-453 | An entry that does not raise, added at the end, adds what it finds at the end |
| Types.WalkOrder | pyemtmad/types.py:447-453 | When no entry raises, exactly one line per truthy entry, in order |
| Types.TruthyEntries | pyemtmad/types.py:448 | Exactly the truthy entries, a subsequence of the entries, all of them when every entry is truthy |
| Types.TruthyEntriesAppend | pyemtmad/types.py:448 | A new last entry is kept exactly when it is truthy |
| Types.NodeLinesOrder | pyemtmad/types.py:447-453 | One line per non-empty entry, in order, from that entry |
| Types.CollectNodeLines | pyemtmad/types.py:447-453 | The loop computes `NodeLines`: the lines of the truthy entries in order, or the first error |
| Types.LoopEntries | pyemtmad/types.py:447 | A `for` loop visits the items of a list in order and the characters of a text one by one; an empty object gives nothing; it raises `TypeError` for `None`, a boolean or a number |
| Types.NodeLinesItemFrom | pyemtmad/types.py:438-455 | A missing `lines` raises `TypeError`. A list of entries gives the lines of the loop |
| Types.RouteLinesItemFrom | pyemtmad/types.py:891-903 | The node type comes from `secDetail` and is forward_stop when absent |
| Types.TimesLinesItemFrom | pyemtmad/types.py:1037-1048 | All four times are required, and each is its cleaned field. Both dates are their cleaned fields, empty when absent. The line is `int()` of its field, 0 when absent. The day type is the DAY_TYPES lookup of `typeId` |
| Types.TimetableLinesItemFrom | pyemtmad/types.py:1069-1084 | Raises exactly when a field conversion fails. `direction` is required: 1 is forward, 2 is backward, anything else unset. The date and both times are their cleaned fields. The line is `int()` of its field, 0 when absent. The day type is the DAY_TYPES lookup of `typeDay` |
| Types.GeoGroupItemFrom | pyemtmad/types.py:237-244 | Never raises and keeps the reply fields |
| Types.PoiFrom | pyemtmad/types.py:758-769 | Every field is read from `attributes`, which must be an object when present. The type comes from `POI_TYPES` with code -1 by default |
| Types.PoiTypeFrom | pyemtmad/types.py:863-869 | Read from `attributes`, which must be an object when present |
| Types.UnknownPoiType | pyemtmad/types.py:950 | The default code -1 has the empty label |
| Types.SiteFrom | pyemtmad/types.py:931-956 | The id is `int(siteId)`, 0 when absent. Street number, zip code and POI number are `int()` of their fields, -1 when absent. The POI type is the POI_TYPES label of `int(poiType)`, empty when absent. `C` is a street, `P` a POI, anything else unset |
| Types.StopFrom | pyemtmad/types.py:972-988 | Succeeds exactly when `int(stopId)` does and the `line` entries map; without `stopId` it raises `TypeError`. Lines are unset exactly when `line` is absent. A list gives one line per item, a single object one line |
| Types.StreetFrom | pyemtmad/types.py:1003-1011 | Read from `attributes`. The number is `int()` of its `number`, -1 when `attributes` or `number` is absent |
| Types.IconDescriptionFrom | pyemtmad/types.py:259-266 | Never raises and keeps the reply fields |
| Types.InfoParkingPoiFrom | pyemtmad/types.py:297-319 | Raises only for the postal code or the coordinates. The postal code is `int(areaCode)`, -1 when absent. Each coordinate is `float()` of its field, `0.0` when absent |
| Types.ParkingFrom | pyemtmad/types.py:481-498 | Raises only for the postal code or the coordinates. The postal code is `int(areaCode)`, -1 when absent. Each coordinate is `float()` of its field, `0.0` when absent |
| Types.ParkingAccessFrom | pyemtmad/types.py:514-522 | Raises only for the coordinates. Each coordinate is `float()` of its field, `0.0` when absent |
| Types.ParkingFeatureFrom | pyemtmad/types.py:603-611 | Never raises and keeps the reply fields |
| Types.ParkingOccupationFrom | pyemtmad/types.py:626-633 | Never raises and keeps the reply fields |
| Types.ParkingRateFrom | pyemtmad/types.py:731-740 | Never raises and keeps the reply fields |
| Types.ParkingDetailsFrom | pyemtmad/types.py:554-586 | Succeeds exactly when `general` is an object (empty by default), its coordinates convert and all four lists map. Latitude and longitude are `float()` of the fields of `general`, `0.0` when absent. Absent lists give no accesses, features, occupation or rates. A present list maps item by item, in order |
| Types.ParkingPoiFrom | pyemtmad/types.py:667-689 | The kind is the PARKING_POI_TYPES lookup of `type`: zone, poi or parking, zone when absent. The postal code is `int(areaCode)`, -1 when absent. Each coordinate is `float()` of its field |
| Types.ParkingPoiTypeFrom | pyemtmad/types.py:705-714 | Never raises and keeps the reply fields |
| Types.PoiImageFrom | pyemtmad/types.py:847-851 | Never raises and keeps the reply fields |
| Types.PoiDetailsFrom | pyemtmad/types.py:805-835 | Read from `poiDetailInfo`, which must be an object when present. The images are one per item of `poiDetailImages`, none when absent |
| Pipeline.Finish | pyemtmad/api/bus.py:80-81 | A mapping that succeeds is a success with its entities; one that raises is the raised error |
| Pipeline.FinishMapsInOrder | pyemtmad/api/bus.py:80-81 | Mapping a list and finishing maps it in order, as `MappedInOrder` defines |
| Pipeline.StatusReply | pyemtmad/api/bus.py:76-81 | A non-object raises `AttributeError`. A failed status gives the message field or `UNKNOWN ERROR`. A missing result field raises `TypeError`. Otherwise the normalised list is mapped in order |
| Pipeline.KeyReply | pyemtmad/api/geo.py:60-65 | Fails with `UNKNOWN ERROR` exactly when the key check fails; otherwise maps the normalised list in order |
| Pipeline.UncheckedReply | pyemtmad/api/geo.py:224-228 | Never a failure message. A missing key gives no entities. A list is mapped without normalisation; any other value is iterated as Python would iterate it |
| Pipeline.StatusFailsIffCheckFails | pyemtmad/util.py:61-67 | For an object reply, the status pipeline fails exactly when `check_result` does, and a non-zero `resultCode` fails it even with `code: 0` |
| Params.DateParam | pyemtmad/api/parking.py:60-66 | The intended date: it reads back as the caller's day, month and year, with 1 January 1970 for the fields left out, and is `01/01/1970` with all three left out |
| Params.DateArg | pyemtmad/api/bus.py:123-127 | As written: raises `TypeError` exactly when a date field is left out; otherwise the date reads back as the caller's day, month and year |
| Params.DateDefaultsRaise | pyemtmad/util.py:85 | With every date field left out, the date as written raises `TypeError` while the intended one is `01/01/1970` |
| Params.DefaultDate | pyemtmad/util.py:85 | The intended default date 1, 1, 1970 formats as `01/01/1970` |
| Params.DefaultDatetime | pyemtmad/api/parking.py:174-180 | Day 1, month 1, year 1970, hour 0 and minute 0 format as `1970-01-01T00:00:00` |
| Params.DatetimeParamReadsBack | pyemtmad/api/parking.py:174-180 | The date-time parameter reads back as the caller's fields, with 1 January 1970, 00:00 in place of those left out |
| Params.DatetimeParamDefault | pyemtmad/api/parking.py:174-180 | With all fields left out the parameter is `1970-01-01T00:00:00` |
| Params.IntsParam | pyemtmad/api/bus.py:156 | The integer-list parameter reads back as the caller's value or the default |
| Params.LanguageParam | pyemtmad/api/bus.py:94 | The language parameter is `ES` or `EN`, `ES` exactly for a missing or empty `lang` and for `es` |
| BusApi.BusReply | pyemtmad/api/bus.py:76-81 | The status pipeline with message `resultDescription` and items `resultValues` |
| BusApi.LinesRequest | pyemtmad/api/bus.py:122-135 | Raises `TypeError` exactly when a date field is left out. Otherwise a bus request to the endpoint with exactly `SelectDate` and `Lines`, reading back as the date and lines (all lines by default) |
| BusApi.BusReplyTo | pyemtmad/api/bus.py:122-142 | A request that raised is that error. Otherwise the status pipeline over the reply to the request |
| BusApi.CalendarRequest | pyemtmad/api/bus.py:58-74 | Raises `TypeError` exactly when a start or end date field is left out. Otherwise bus service, `get_calendar`, with exactly `SelectDateBegin` and `SelectDateEnd`, each reading back as the start and end date |
| BusApi.GetCalendar | pyemtmad/api/bus.py:58-81 | `TypeError` before any request when a date field is left out. Otherwise the status pipeline over the reply to that request, mapping calendar items |
| BusApi.GroupsRequest | pyemtmad/api/bus.py:93-97 | Bus service, `get_groups`. Exactly `cultureInfo`, from the caller's language |
| BusApi.GetGroups | pyemtmad/api/bus.py:93-104 | Status pipeline, mapping bus groups |
| BusApi.ListLinesRequest | pyemtmad/api/bus.py:122-135 | `get_list_lines`. Raises `TypeError` exactly when a date field is left out. Otherwise exactly `SelectDate` and `Lines`, reading back as the date and lines (all lines by default) |
| BusApi.GetListLines | pyemtmad/api/bus.py:122-142 | `TypeError` when a date field is left out. Otherwise the status pipeline, mapping line list entries |
| BusApi.NodesLinesRequest | pyemtmad/api/bus.py:155-159 | `get_nodes_lines`. Exactly `Nodes`, reading back as the nodes (all by default) |
| BusApi.GetNodesLines | pyemtmad/api/bus.py:155-166 | Status pipeline, mapping node line items |
| BusApi.RouteLinesRequest | pyemtmad/api/bus.py:184-196 | `get_route_lines`. `TypeError` when a date field is left out, otherwise the date and lines |
| BusApi.GetRouteLines | pyemtmad/api/bus.py:184-203 | `TypeError` when a date field is left out. Otherwise the status pipeline, mapping route items |
| BusApi.RouteLinesRouteRequest | pyemtmad/api/bus.py:223-235 | `get_route_lines_route`. `TypeError` when a date field is left out, otherwise the date and lines |
| BusApi.GetRouteLinesRoute | pyemtmad/api/bus.py:223-242 | `TypeError` when a date field is left out. Otherwise the status pipeline, mapping route items |
| BusApi.RouteLinesTwins | pyemtmad/api/bus.py:184-242 | The two route endpoints raise for the same options. Otherwise they send the same parameters to different endpoints, and equal replies give equal outcomes |
| BusApi.TimesLinesRequest | pyemtmad/api/bus.py:260-272 | `get_times_lines`. `TypeError` when a date field is left out, otherwise the date and lines |
| BusApi.GetTimesLines | pyemtmad/api/bus.py:260-279 | `TypeError` when a date field is left out. Otherwise the status pipeline, mapping first and last bus times |
| BusApi.TimetableLinesRequest | pyemtmad/api/bus.py:297-308 | `get_timetable_lines`. `TypeError` when a date field is left out, otherwise the date and lines |
| BusApi.GetTimetableLines | pyemtmad/api/bus.py:297-315 | `TypeError` when a date field is left out. Otherwise the status pipeline, mapping timetable items |
| BusApi.ListLinesDefaults | pyemtmad/api/bus.py:123-132 | With a full date and no `lines` option, the line list asks for the empty line list |
| BusApi.ListLinesWithoutDate | pyemtmad/api/bus.py:123-127 | With no date options, `get_list_lines` raises `TypeError`, where the intended date is `01/01/1970` |
| GeoApi.ArriveStopRequest | pyemtmad/api/geo.py:51-57 | Geo service, `get_arrive_stop`. Exactly `idStop` (the stop number as given) and `cultureInfo` |
| GeoApi.GetArriveStop | pyemtmad/api/geo.py:51-65 | Key pipeline on `arrives`, mapping arrivals |
| GeoApi.GroupsRequest | pyemtmad/api/geo.py:78-83 | `get_groups`. Exactly `cultureInfo` |
| GeoApi.GetGroups | pyemtmad/api/geo.py:78-90 | Status pipeline, mapping geo groups |
| GeoApi.InfoRequest | pyemtmad/api/geo.py:110-123 | `TypeError` exactly when a date field is left out. Otherwise a geo request to the endpoint with exactly `fecha`, `line` and `cultureInfo`, the date and lines reading back |
| GeoApi.InfoLineRequest | pyemtmad/api/geo.py:110-123 | `get_info_line`. `TypeError` exactly when a date field is left out. Otherwise exactly `fecha`, `line` and `cultureInfo`, with the date and lines reading back |
| GeoApi.GetInfoLine | pyemtmad/api/geo.py:110-131 | `TypeError` when a date field is left out. Otherwise the key pipeline on `Line`, mapping lines |
| GeoApi.InfoLineExtendedRequest | pyemtmad/api/geo.py:151-164 | `get_info_line_extended`. `TypeError` exactly when a date field is left out, otherwise the same parameters |
| GeoApi.GetInfoLineExtended | pyemtmad/api/geo.py:151-172 | `TypeError` when a date field is left out. Otherwise the key pipeline on `Line`, mapping lines |
| GeoApi.InfoLineTwins | pyemtmad/api/geo.py:110-172 | The two line information endpoints raise for the same options. Otherwise they send the same parameters to different endpoints, and equal replies give equal outcomes |
| GeoApi.PoiRequest | pyemtmad/api/geo.py:189-198 | `get_poi`. Longitude as `coordinateX`, latitude as `coordinateY`, `Radius`, and `tipos` reading back as the types (text `None` when left out) |
| GeoApi.GetPoi | pyemtmad/api/geo.py:189-206 | Key pipeline on `poiList`, mapping POIs |
| GeoApi.PoiTypesRequest | pyemtmad/api/geo.py:219-224 | `get_poi_types`. Exactly `cultureInfo` |
| GeoApi.GetPoiTypes | pyemtmad/api/geo.py:219-228 | Unchecked pipeline on `types`, mapping POI types |
| GeoApi.RouteLinesRouteRequest | pyemtmad/api/geo.py:247-259 | Geo `get_route_lines_route`. `TypeError` exactly when a date field is left out. Otherwise exactly `SelectDate` and `Lines`, reading back |
| GeoApi.GetRouteLinesRoute | pyemtmad/api/geo.py:247-266 | `TypeError` when a date field is left out. Otherwise the status pipeline, mapping route items |
| GeoApi.RouteLinesRouteMatchesBus | pyemtmad/api/geo.py:247-266 | The geo and bus versions raise for the same date. Otherwise they send the same parameters to the same endpoint of different services. Equal replies give equal outcomes |
| GeoApi.StopsFromStopRequest | pyemtmad/api/geo.py:281-288 | `get_stops_from_stop`. `idStop`, `Radius`, `cultureInfo` |
| GeoApi.GetStopsFromStop | pyemtmad/api/geo.py:281-296 | Key pipeline on `stops`, mapping stops |
| GeoApi.StopsFromXyRequest | pyemtmad/api/geo.py:312-320 | `get_stops_from_xy`. `latitude`, `longitude`, `Radius`, `cultureInfo` |
| GeoApi.GetStopsFromXy | pyemtmad/api/geo.py:312-329 | Key pipeline on `stop`, mapping stops |
| GeoApi.StopsLineRequest | pyemtmad/api/geo.py:345-352 | `get_stops_line`. `line` reads back as the lines. `direction` is 1 or 2, 2 exactly for `backward` |
| GeoApi.GetStopsLine | pyemtmad/api/geo.py:345-361 | Key pipeline on `stop`, mapping stops |
| GeoApi.StreetRequest | pyemtmad/api/geo.py:380-389 | `get_street`. `description`, `streetNumber`, `Radius`, `Stops`, `cultureInfo`, passed as given |
| GeoApi.GetStreet | pyemtmad/api/geo.py:380-397 | Key pipeline on `site`, mapping sites |
| GeoApi.StreetFromXyRequest | pyemtmad/api/geo.py:413-421 | `get_street_from_xy`. Longitude as `coordinateX`, latitude as `coordinateY`, `Radius`, `cultureInfo` |
| GeoApi.GetStreetFromXy | pyemtmad/api/geo.py:413-429 | Key pipeline on `site`, mapping streets |
| ParkingApi.ParkingReply | pyemtmad/api/parking.py:80-85 | The status pipeline with message `message` and items `Data` |
| ParkingApi.DetailParkingRequest | pyemtmad/api/parking.py:60-78 | `detail_parking` with no URL arguments. Exactly `language`, `publicData` (true), `date`, `id` (the parking) and `family` |
| ParkingApi.DetailParkingDate | pyemtmad/api/parking.py:61-67 | Its `date` reads back as the caller's date-time fields (1 January 1970, 00:00 by default) and is `1970-01-01T00:00:00` with all left out |
| ParkingApi.DetailParking | pyemtmad/api/parking.py:60-85 | Status pipeline, mapping parking details |
| ParkingApi.DetailPoiRequest | pyemtmad/api/parking.py:101-110 | `detail_poi`. `language` and `family`, plus `id` exactly when the caller's id is truthy |
| ParkingApi.BuildDetailPoiRequest | pyemtmad/api/parking.py:101-107 | The conditional insert of `id` builds exactly that request |
| ParkingApi.DetailPoi | pyemtmad/api/parking.py:101-117 | Status pipeline, mapping POI details |
| ParkingApi.IconDescriptionRequest | pyemtmad/api/parking.py:130-133 | `icon_description`. Exactly `language` |
| ParkingApi.IconDescriptions | pyemtmad/api/parking.py:130-140 | Status pipeline, mapping icon descriptions |
| ParkingApi.ListFeaturesRequest | pyemtmad/api/parking.py:241-247 | `list_features`. Exactly `language` and `publicData` (true) |
| ParkingApi.ListFeatures | pyemtmad/api/parking.py:241-254 | Status pipeline, mapping features |
| ParkingApi.FamilyCategory | pyemtmad/api/parking.py:183-190 | One `poi_info` element succeeds exactly when it has at least three fields (otherwise `IndexError`) and gives the nested category object of its first three fields |
| ParkingApi.FieldCode | pyemtmad/api/parking.py:193-199 | One `field_codes` element succeeds exactly when it has at least two fields and gives the nested codes object |
| ParkingApi.TuplesLongEnough | pyemtmad/api/parking.py:182-199 | Each of the two loops succeeds exactly when all its elements are long enough, and otherwise raises `IndexError` |
| ParkingApi.InfoParkingPoiWith | pyemtmad/api/parking.py:201-218 | The `info_parking_poi` request holds the built lists, the coordinates as given (`0.0` by default), the date, the language, `min_free` (empty list by default) and the radius (0 by default) |
| ParkingApi.InfoParkingPoiWithCarries | pyemtmad/api/parking.py:174-218 | The request built from the loops' results carries one category per `poi_info` element and one code per `field_codes` element, in order, and the date-time reads back |
| ParkingApi.InfoParkingPoiRequest | pyemtmad/api/parking.py:172-221 | Succeeds exactly when every `poi_info` element has three fields and every `field_codes` element two. Otherwise raises `IndexError`. On success the request carries every element in order |
| ParkingApi.CollectFamilyCategories | pyemtmad/api/parking.py:182-190 | The loop builds exactly the categories of `MapAll`, stopping at the first short element |
| ParkingApi.CollectFieldCodes | pyemtmad/api/parking.py:192-199 | The loop builds exactly the field codes of `MapAll` |
| ParkingApi.BuildInfoParkingPoiRequest | pyemtmad/api/parking.py:172-221 | The two loops and the parameter mapping build exactly `InfoParkingPoiRequest` |
| ParkingApi.InfoParkingPois | pyemtmad/api/parking.py:172-228 | A short element raises `IndexError` before any call; otherwise the status pipeline, mapping parkings and POIs |
| ParkingApi.ListParkingRequest | pyemtmad/api/parking.py:267-270 | `list_parking` with no parameters and URL argument `lang` only |
| ParkingApi.ListParking | pyemtmad/api/parking.py:267-277 | Status pipeline, mapping parkings |
| ParkingApi.ListStreetPoiParkingRequest | pyemtmad/api/parking.py:293-299 | `list_street_poi_parking`. URL arguments `language` and `address` (empty text by default) |
| ParkingApi.ListStreetPoiParking | pyemtmad/api/parking.py:293-306 | Status pipeline, mapping parking POIs |
| ParkingApi.ListTypesPoiRequest | pyemtmad/api/parking.py:319-322 | `list_poi_types`. URL argument `language` only |
| ParkingApi.ListTypesPoi | pyemtmad/api/parking.py:319-329 | Status pipeline, mapping parking POI types |

## Left out

- Transport. `wrapper.py` (`make_request`, credentials, URLs, HTTP, TLS) is not part of this model. The gateway is an arbitrary function parameter, so network errors are not modelled.
- `ParkingAdapter` (TLS version selection) and `setup.py` are not part of this model.
- Floating point. `float()` keeps its argument. The number it denotes, and `float()` of an unparsable text (a `ValueError` in Python), are not modelled; the coercion fails only for `None`, lists and objects.
- `Line.date` from a timestamp. `datetime.fromtimestamp` depends on the local clock and zone; the model keeps the raw value (`Timestamp`).
- `print(elements)` in `NodeLinesItem` is output only and is left out.
- Types.NodeLineEntry: `int()` of the line number accepts surrounding whitespace and underscores; `ParseInt` does not, so such an entry raises `ValueError` in the model only.
- `Json.ToInt`: accepts only decimal texts with an optional `-` or `+` sign. It does not accept Python's surrounding whitespace or underscores.
- Text defaults. The `'0'` radius and `'0.0'` coordinates that the parking endpoint passes to `str()` are modelled as the integer 0 and the text `0.0`.
- `ParkingApi.InfoParkingPoiWith`: the caller's latitude and longitude are taken as the texts `str()` would produce; `str()` of other values is not modelled. `six.u` is the identity.
- `ParkingApi.InfoParkingPoiRequest`: `poi_info` and `field_codes` elements are modelled as sequences (tuples or lists). Iterating a text or dictionary element is not modelled. Other iterables passed as keyword arguments are not modelled either.
- `Types.LoopEntries`: iterating a dictionary gives its keys in insertion order, which the model does not keep; that case is `Unmodelled`.
- Integer lists. `IntsArg` covers a list of integers, a single integer and a missing value. `str()` of other values passed as `lines`, `nodes` or `types` is not modelled.

## Findings

| source | as written | input that shows it | evidently intended | confidence | as-written member | corrected member |
|---|---|---|---|---|---|---|
| pyemtmad/api/bus.py:123-127 | The date fields default to the texts `'01'`, `'01'` and `'1970'`, which are formatted with `'%02d/%02d/%d'`. `%d` of a text raises `TypeError`, so the nine dated bus and geo operations (also bus.py:59-69, 185-189, 224-228, 261-265, 298-302 and geo.py:110-114, 151-155, 247-251) raise whenever a date field is left out | `get_list_lines()` with no `day`, `month` or `year` | The integer defaults 1, 1 and 1970 that the parking operations use (parking.py:63-65), giving `01/01/1970` | not executed | Params.DateArg, with counterexample BusApi.ListLinesWithoutDate | Params.DateParam |

=== FILE: bus.dfy ===
/** The bus service of OpenBus: for each endpoint, the request built from
    the caller's options and the reply pipeline (status-code convention,
    message in `resultDescription`, items in `resultValues`). The gateway
    that carries the request is a parameter: any function from requests to
    replies. */
module BusApi {
  import opened Wrappers
  import opened Json
  import opened Util
  import opened Types
  import opened Pipeline
  import opened Params

  /** The keyword arguments the bus endpoints read; `None` is an argument
      left out. */
  datatype BusOptions = BusOptions(
    day: Option<int>, month: Option<int>, year: Option<int>,
    startDay: Option<int>, startMonth: Option<int>, startYear: Option<int>,
    endDay: Option<int>, endMonth: Option<int>, endYear: Option<int>,
    lines: Option<IntsArg>, nodes: Option<IntsArg>, lang: Option<string>)

  /** A bus service request to `endpoint`. */
  ghost predicate BusCall(req: Request, endpoint: string) {
    req.OpenBus? && req.service == "bus" && req.endpoint == endpoint
  }

  /** The `SelectDate` and `Lines` parameters shared by the line endpoints:
      the caller's date and the `|`-joined lines (all lines, the empty text,
      by default), each reading back as given. */
  ghost predicate SelectsDateAndLines(params: map<string, Json>, o: BusOptions) {
    && params.Keys == {"SelectDate", "Lines"}
    && DateGiven(o.day, o.month, o.year)
    && DateReadsBack(params["SelectDate"], o.day.value, o.month.value, o.year.value)
    && IntsReadBack(params["Lines"], o.lines.GetOr(IntList([])))
  }

  /** A line endpoint request: the date raises `TypeError` unless the
      caller gives day, month and year (`DateArg`); otherwise the request
      goes to `endpoint` with the date and lines. */
  function LinesRequest(o: BusOptions, endpoint: string): (r: Result<Request>)
    ensures r.Err? <==> !DateGiven(o.day, o.month, o.year)
    ensures r.Err? ==> r.error == TypeError
    ensures r.Ok? ==> BusCall(r.value, endpoint) && SelectsDateAndLines(r.value.params, o)
  {
    var date :- DateArg(o.day, o.month, o.year);
    Ok(OpenBus("bus", endpoint, map["SelectDate" := date, "Lines" := IntsParam(o.lines, IntList([]))]))
  }

  /** The outcome of an operation whose request may raise: the request's
      exception, or the status pipeline on the reply to it. */
  function BusReplyTo<T>(req: Result<Request>, gateway: Request -> Json, mapper: Fields -> Result<T>): (r: Outcome<T>)
    ensures req.Err? ==> r == Raised(req.error)
    ensures req.Ok? ==> StatusContract(gateway(req.value), "resultDescription", "resultValues", mapper, r)
  {
    match req
    case Err(e) => Raised(e)
    case Ok(call) => BusReply(gateway(call), mapper)
  }

  /** The status-code pipeline of the bus service. */
  function BusReply<T>(reply: Json, mapper: Fields -> Result<T>): (r: Outcome<T>)
    ensures StatusContract(reply, "resultDescription", "resultValues", mapper, r)
  {
    StatusReply(reply, "resultDescription", "resultValues", mapper)
  }

  // ---------------------------------------------------------------------
  // get_calendar
  // ---------------------------------------------------------------------

  /** Both ends of the range must be given in full, or building them
      raises `TypeError`. */
  function CalendarRequest(o: BusOptions): (r: Result<Request>)
    ensures r.Err? <==> !DateGiven(o.startDay, o.startMonth, o.startYear) || !DateGiven(o.endDay, o.endMonth, o.endYear)
    ensures r.Err? ==> r.error == TypeError
    ensures r.Ok? ==> BusCall(r.value, "get_calendar") && r.value.params.Keys == {"SelectDateBegin", "SelectDateEnd"}
    ensures r.Ok? ==> DateReadsBack(r.value.params["SelectDateBegin"], o.startDay.value, o.startMonth.value, o.startYear.value)
    ensures r.Ok? ==> DateReadsBack(r.value.params["SelectDateEnd"], o.endDay.value, o.endMonth.value, o.endYear.value)
  {
    var begin :- DateArg(o.startDay, o.startMonth, o.startYear);
    var end :- DateArg(o.endDay, o.endMonth, o.endYear);
    Ok(OpenBus("bus", "get_calendar", map["SelectDateBegin" := begin, "SelectDateEnd" := end]))
  }

  /** `get_calendar`: calendar items for a range of dates; `TypeError`
      before any request when a date field is left out. */
  function GetCalendar(o: BusOptions, gateway: Request -> Json): (r: Outcome<CalendarItem>)
    ensures !DateGiven(o.startDay, o.startMonth, o.startYear) || !DateGiven(o.endDay, o.endMonth, o.endYear) ==>
              r == Raised(TypeError)
    ensures CalendarRequest(o).Ok? ==>
              StatusContract(gateway(CalendarRequest(o).value), "resultDescription", "resultValues", CalendarItemFrom, r)
  {
    BusReplyTo(CalendarRequest(o), gateway, CalendarItemFrom)
  }

  // ---------------------------------------------------------------------
  // get_groups
  // ---------------------------------------------------------------------

  function GroupsRequest(o: BusOptions): (req: Request)
    ensures BusCall(req, "get_groups")
    ensures req.params.Keys == {"cultureInfo"}
    ensures LanguageFor(req.params["cultureInfo"], o.lang)
  {
    OpenBus("bus", "get_groups", map["cultureInfo" := LanguageParam(o.lang)])
  }

  /** `get_groups`: line groups. */
  function GetGroups(o: BusOptions, gateway: Request -> Json): (r: Outcome<BusGroupItem>)
    ensures StatusContract(gateway(GroupsRequest(o)), "resultDescription", "resultValues", BusGroupItemFrom, r)
  {
    BusReply(gateway(GroupsRequest(o)), BusGroupItemFrom)
  }

  // ---------------------------------------------------------------------
  // get_list_lines
  // ---------------------------------------------------------------------

  function ListLinesRequest(o: BusOptions): (r: Result<Request>)
    ensures r.Err? <==> !DateGiven(o.day, o.month, o.year)
    ensures r.Err? ==> r.error == TypeError
    ensures r.Ok? ==> BusCall(r.value, "get_list_lines") && SelectsDateAndLines(r.value.params, o)
  {
    LinesRequest(o, "get_list_lines")
  }

  /** `get_list_lines`: lines with their group and dates; `TypeError` before any request when a date field is
      left out. */
  function GetListLines(o: BusOptions, gateway: Request -> Json): (r: Outcome<ListLineInfo>)
    ensures !DateGiven(o.day, o.month, o.year) ==> r == Raised(TypeError)
    ensures DateGiven(o.day, o.month, o.year) ==>
              StatusContract(gateway(ListLinesRequest(o).value), "resultDescription", "resultValues", ListLineInfoFrom, r)
  {
    BusReplyTo(ListLinesRequest(o), gateway, ListLineInfoFrom)
  }

  // ---------------------------------------------------------------------
  // get_nodes_lines
  // ---------------------------------------------------------------------

  function NodesLinesRequest(o: BusOptions): (req: Request)
    ensures BusCall(req, "get_nodes_lines")
    ensures req.params.Keys == {"Nodes"}
    ensures IntsReadBack(req.params["Nodes"], o.nodes.GetOr(IntList([])))
  {
    OpenBus("bus", "get_nodes_lines", map["Nodes" := IntsParam(o.nodes, IntList([]))])
  }

  /** `get_nodes_lines`: stops with their coordinates and lines. */
  function GetNodesLines(o: BusOptions, gateway: Request -> Json): (r: Outcome<NodeLinesItem>)
    ensures StatusContract(gateway(NodesLinesRequest(o)), "resultDescription", "resultValues", NodeLinesItemFrom, r)
  {
    BusReply(gateway(NodesLinesRequest(o)), NodeLinesItemFrom)
  }

  // ---------------------------------------------------------------------
  // get_route_lines and get_route_lines_route
  // ---------------------------------------------------------------------

  function RouteLinesRequest(o: BusOptions): (r: Result<Request>)
    ensures r.Err? <==> !DateGiven(o.day, o.month, o.year)
    ensures r.Err? ==> r.error == TypeError
    ensures r.Ok? ==> BusCall(r.value, "get_route_lines") && SelectsDateAndLines(r.value.params, o)
  {
    LinesRequest(o, "get_route_lines")
  }

  /** `get_route_lines`: the itinerary of the lines on a date; `TypeError` before any request when a date field is
      left out. */
  function GetRouteLines(o: BusOptions, gateway: Request -> Json): (r: Outcome<RouteLinesItem>)
    ensures !DateGiven(o.day, o.month, o.year) ==> r == Raised(TypeError)
    ensures DateGiven(o.day, o.month, o.year) ==>
              StatusContract(gateway(RouteLinesRequest(o).value), "resultDescription", "resultValues", RouteLinesItemFrom, r)
  {
    BusReplyTo(RouteLinesRequest(o), gateway, RouteLinesItemFrom)
  }

  function RouteLinesRouteRequest(o: BusOptions): (r: Result<Request>)
    ensures r.Err? <==> !DateGiven(o.day, o.month, o.year)
    ensures r.Err? ==> r.error == TypeError
    ensures r.Ok? ==> BusCall(r.value, "get_route_lines_route") && SelectsDateAndLines(r.value.params, o)
  {
    LinesRequest(o, "get_route_lines_route")
  }

  /** `get_route_lines_route`: the itinerary again, from another endpoint; `TypeError` before any request when a date field is
      left out. */
  function GetRouteLinesRoute(o: BusOptions, gateway: Request -> Json): (r: Outcome<RouteLinesItem>)
    ensures !DateGiven(o.day, o.month, o.year) ==> r == Raised(TypeError)
    ensures DateGiven(o.day, o.month, o.year) ==>
              StatusContract(gateway(RouteLinesRouteRequest(o).value), "resultDescription", "resultValues", RouteLinesItemFrom, r)
  {
    BusReplyTo(RouteLinesRouteRequest(o), gateway, RouteLinesItemFrom)
  }

  /** The two itinerary operations send the same parameters to different
      endpoints, and a gateway that answers both alike gets the same
      outcome from both. */
  lemma RouteLinesTwins(o: BusOptions, gateway: Request -> Json)
    ensures RouteLinesRequest(o).Ok? <==> RouteLinesRouteRequest(o).Ok?
    ensures RouteLinesRequest(o).Ok? ==>
              && RouteLinesRequest(o).value.params == RouteLinesRouteRequest(o).value.params
              && RouteLinesRequest(o).value.endpoint != RouteLinesRouteRequest(o).value.endpoint
    ensures RouteLinesRequest(o).Ok? && gateway(RouteLinesRequest(o).value) == gateway(RouteLinesRouteRequest(o).value) ==>
              GetRouteLines(o, gateway) == GetRouteLinesRoute(o, gateway)
    ensures RouteLinesRequest(o).Err? ==> GetRouteLines(o, gateway) == GetRouteLinesRoute(o, gateway)
  {
  }

  // ---------------------------------------------------------------------
  // get_times_lines and get_timetable_lines
  // ---------------------------------------------------------------------

  function TimesLinesRequest(o: BusOptions): (r: Result<Request>)
    ensures r.Err? <==> !DateGiven(o.day, o.month, o.year)
    ensures r.Err? ==> r.error == TypeError
    ensures r.Ok? ==> BusCall(r.value, "get_times_lines") && SelectsDateAndLines(r.value.params, o)
  {
    LinesRequest(o, "get_times_lines")
  }

  /** `get_times_lines`: the current times of the lines; `TypeError` before any request when a date field is
      left out. */
  function GetTimesLines(o: BusOptions, gateway: Request -> Json): (r: Outcome<TimesLinesItem>)
    ensures !DateGiven(o.day, o.month, o.year) ==> r == Raised(TypeError)
    ensures DateGiven(o.day, o.month, o.year) ==>
              StatusContract(gateway(TimesLinesRequest(o).value), "resultDescription", "resultValues", TimesLinesItemFrom, r)
  {
    BusReplyTo(TimesLinesRequest(o), gateway, TimesLinesItemFrom)
  }

  function TimetableLinesRequest(o: BusOptions): (r: Result<Request>)
    ensures r.Err? <==> !DateGiven(o.day, o.month, o.year)
    ensures r.Err? ==> r.error == TypeError
    ensures r.Ok? ==> BusCall(r.value, "get_timetable_lines") && SelectsDateAndLines(r.value.params, o)
  {
    LinesRequest(o, "get_timetable_lines")
  }

  /** `get_timetable_lines`: the timetables of the lines; `TypeError` before any request when a date field is
      left out. */
  function GetTimetableLines(o: BusOptions, gateway: Request -> Json): (r: Outcome<TimetableLinesItem>)
    ensures !DateGiven(o.day, o.month, o.year) ==> r == Raised(TypeError)
    ensures DateGiven(o.day, o.month, o.year) ==>
              StatusContract(gateway(TimetableLinesRequest(o).value), "resultDescription", "resultValues", TimetableLinesItemFrom, r)
  {
    BusReplyTo(TimetableLinesRequest(o), gateway, TimetableLinesItemFrom)
  }

  /** With the date given and no `lines` option, `get_list_lines` asks
      for the empty line list, which the service reads as every line. */
  lemma ListLinesDefaults(o: BusOptions)
    requires DateGiven(o.day, o.month, o.year) && o.lines == None
    ensures ListLinesRequest(o).Ok? && ListLinesRequest(o).value.params["Lines"] == JStr("")
  {
    assert IntsParam(o.lines, IntList([])) == JStr("");
  }

  /** A call with every option left out raises `TypeError` as written,
      before any request; with the intended date it would ask for
      1 January 1970. */
  lemma ListLinesWithoutDate(o: BusOptions, gateway: Request -> Json)
    requires o.day.None? && o.month.None? && o.year.None?
    ensures GetListLines(o, gateway) == Raised(TypeError)
    ensures DateParam(o.day, o.month, o.year) == JStr("01/01/1970")
  {
  }
}

=== FILE: codetables.dfy ===
/** The five static code tables of the client and the `TABLE.get(code,
    default)` lookups made on raw reply values. A lookup never fails for a
    hashable code: an unknown code resolves to the default of that use. */
module CodeTables {
  import opened Wrappers
  import opened Json

  /** Single-letter Spanish weekday codes. */
  const WEEK_DAYS: map<string, string> := map[
    "L" := "Monday", "M" := "Tuesday", "X" := "Wednesday", "J" := "Thursday",
    "V" := "Friday", "S" := "Saturday", "D" := "Sunday"]

  /** Day-type codes, short and verbose. */
  const DAY_TYPES: map<string, string> := map[
    "LA" := "Labour", "V" := "Friday", "SA" := "Saturday", "FE" := "Festive",
    "LABORABLE" := "Labour", "SABADO" := "Saturday", "FESTIVO" := "Festive"]

  /** Route segment (node) kinds. */
  const SEC_DETAILS: map<int, string> := map[
    10 := "forward_stop", 19 := "forward_vertex", 20 := "backward_stop", 29 := "backward_vertex"]

  /** Point-of-interest categories of the geo service. */
  const POI_TYPES: map<int, string> := map[
    1 := "cars", 10 := "shopping", 11 := "tourism", 12 := "metro", 13 := "light rail",
    14 := "interchange", 15 := "transport places I", 16 := "transport places II",
    17 := "RENFE", 2 := "services", 3 := "education", 4 := "leisure",
    5 := "financial entities", 6 := "hospitals", 7 := "parkings",
    8 := "recreation centers", 9 := "restaurants"]

  /** Element kinds of the parking service. */
  const PARKING_POI_TYPES: map<string, string> := map[
    "Zona" := "zone", "Poi" := "poi", "Parking" := "parking"]

  /** `table.get(code, default)` on a text-keyed table: only text can match a
      key; a list or dictionary code is unhashable and raises `TypeError`. */
  function LookupText(table: map<string, string>, code: Json, default: string): (r: Result<string>)
    ensures r.Ok? <==> Hashable(code)
    ensures r.Err? ==> r.error == TypeError
    ensures r.Ok? ==> r.value in table.Values || r.value == default
    ensures code.JStr? && code.s in table ==> r == Ok(table[code.s])
    ensures Hashable(code) && !(code.JStr? && code.s in table) ==> r == Ok(default)
  {
    if !Hashable(code) then Err(TypeError)
    else if code.JStr? && code.s in table then Ok(table[code.s])
    else Ok(default)
  }

  /** `table.get(code, default)` on an integer-keyed table: integers,
      booleans and integral floats can match a key. */
  function LookupNumber(table: map<int, string>, code: Json, default: string): (r: Result<string>)
    ensures r.Ok? <==> Hashable(code)
    ensures r.Err? ==> r.error == TypeError
    ensures r.Ok? ==> r.value in table.Values || r.value == default
    ensures forall n :: n in table && EqualsInt(code, n) ==> r == Ok(table[n])
    ensures Hashable(code) && (forall n :: n in table ==> !EqualsInt(code, n)) ==> r == Ok(default)
  {
    if !Hashable(code) then Err(TypeError)
    else
      match IntKey(code)
      case Some(n) => Ok(if n in table then table[n] else default)
      case None => Ok(default)
  }

  /** `DAY_TYPES.get(code, 'Labour')`. */
  function DayTypeOf(code: Json): (r: Result<string>)
    ensures r.Ok? <==> Hashable(code)
    ensures r.Ok? ==> r.value in {"Labour", "Friday", "Saturday", "Festive"}
    ensures r.Ok? ==> (r.value != "Labour" <==> code in {JStr("V"), JStr("SA"), JStr("FE"), JStr("SABADO"), JStr("FESTIVO")})
  {
    LookupText(DAY_TYPES, code, "Labour")
  }

  /** `WEEK_DAYS.get(code, 'Monday')`. */
  function WeekDayOf(code: Json): (r: Result<string>)
    ensures r.Ok? <==> Hashable(code)
    ensures r.Ok? ==> (r.value != "Monday" <==> code in {JStr("M"), JStr("X"), JStr("J"), JStr("V"), JStr("S"), JStr("D")})
  {
    LookupText(WEEK_DAYS, code, "Monday")
  }

  /** `SEC_DETAILS.get(code, 'forward_stop')`. */
  function NodeTypeOf(code: Json): (r: Result<string>)
    ensures r.Ok? <==> Hashable(code)
    ensures r.Ok? ==> r.value in {"forward_stop", "forward_vertex", "backward_stop", "backward_vertex"}
    ensures r.Ok? ==> (r.value == "forward_stop" <==> !(EqualsInt(code, 19) || EqualsInt(code, 20) || EqualsInt(code, 29)))
  {
    LookupNumber(SEC_DETAILS, code, "forward_stop")
  }

  /** `POI_TYPES.get(code, '')`. */
  function PoiTypeOf(code: Json): (r: Result<string>)
    ensures r.Ok? <==> Hashable(code)
    ensures r.Ok? ==> (r.value == "" <==> forall n :: 1 <= n <= 17 ==> !EqualsInt(code, n))
  {
    LookupNumber(POI_TYPES, code, "")
  }

  /** `PARKING_POI_TYPES.get(code, 'zone')`. */
  function ParkingPoiKindOf(code: Json): (r: Result<string>)
    ensures r.Ok? <==> Hashable(code)
    ensures r.Ok? ==> r.value in {"zone", "poi", "parking"}
    ensures r.Ok? ==> (r.value == "zone" <==> !(code == JStr("Poi") || code == JStr("Parking")))
  {
    LookupText(PARKING_POI_TYPES, code, "zone")
  }

  /** Every lookup of the client is total on hashable codes, and each
      table returns its documented default for a code it does not know. */
  lemma LookupsTotalWithDefaults(code: Json)
    requires Hashable(code)
    ensures DayTypeOf(code).Ok? && WeekDayOf(code).Ok? && NodeTypeOf(code).Ok?
            && PoiTypeOf(code).Ok? && ParkingPoiKindOf(code).Ok?
    ensures !(code.JStr? && code.s in DAY_TYPES) ==> DayTypeOf(code) == Ok("Labour")
    ensures !(code.JStr? && code.s in WEEK_DAYS) ==> WeekDayOf(code) == Ok("Monday")
    ensures (forall n :: n in SEC_DETAILS ==> !EqualsInt(code, n)) ==> NodeTypeOf(code) == Ok("forward_stop")
    ensures (forall n :: n in POI_TYPES ==> !EqualsInt(code, n)) ==> PoiTypeOf(code) == Ok("")
    ensures !(code.JStr? && code.s in PARKING_POI_TYPES) ==> ParkingPoiKindOf(code) == Ok("zone")
  {
  }
}

=== FILE: geo.dfy ===
/** The geo service of OpenBus. Most of its endpoints carry no status code:
    a reply succeeds when it holds the endpoint's result key, and any other
    reply yields `UNKNOWN ERROR`. Values the caller passes through untouched
    (stop numbers, radii, coordinates, street data) are raw JSON values,
    `null` when left out. */
module GeoApi {
  import opened Wrappers
  import opened Json
  import opened Util
  import opened Types
  import opened Pipeline
  import opened Params
  import BusApi

  /** The keyword arguments the geo endpoints read. */
  datatype GeoOptions = GeoOptions(
    day: Option<int>, month: Option<int>, year: Option<int>,
    lines: Option<IntsArg>, types: Option<IntsArg>, direction: Option<string>,
    lang: Option<string>, stopNumber: Json, radius: Json,
    latitude: Json, longitude: Json, streetName: Json, streetNumber: Json, stops: Json)

  /** A geo service request to `endpoint` with the given parameter names,
      its `cultureInfo` (when it has one) set from the caller's language. */
  ghost predicate GeoCall(req: Request, endpoint: string, keys: set<string>, o: GeoOptions) {
    && req.OpenBus? && req.service == "geo" && req.endpoint == endpoint
    && req.params.Keys == keys
    && ("cultureInfo" in keys ==> LanguageFor(req.params["cultureInfo"], o.lang))
  }

  /** The date and line list of the dated endpoints, each reading back as
      given (all lines by default). */
  ghost predicate DatedLines(params: map<string, Json>, dateKey: string, linesKey: string, o: GeoOptions)
    requires dateKey in params && linesKey in params
  {
    && DateGiven(o.day, o.month, o.year)
    && DateReadsBack(params[dateKey], o.day.value, o.month.value, o.year.value)
    && IntsReadBack(params[linesKey], o.lines.GetOr(IntList([])))
  }

  /** A `get_info_line` style request: `'%02d/%02d/%d'` of the date fields
      raises `TypeError` unless all three are given (`DateArg`). */
  function InfoRequest(o: GeoOptions, endpoint: string): (r: Result<Request>)
    ensures r.Err? <==> !DateGiven(o.day, o.month, o.year)
    ensures r.Err? ==> r.error == TypeError
    ensures r.Ok? ==> GeoCall(r.value, endpoint, {"fecha", "line", "cultureInfo"}, o)
                      && DatedLines(r.value.params, "fecha", "line", o)
  {
    var date :- DateArg(o.day, o.month, o.year);
    Ok(OpenBus("geo", endpoint, map[
      "fecha" := date,
      "line" := IntsParam(o.lines, IntList([])),
      "cultureInfo" := LanguageParam(o.lang)]))
  }

  // ---------------------------------------------------------------------
  // get_arrive_stop
  // ---------------------------------------------------------------------

  function ArriveStopRequest(o: GeoOptions): (req: Request)
    ensures GeoCall(req, "get_arrive_stop", {"idStop", "cultureInfo"}, o)
    ensures req.params["idStop"] == o.stopNumber
  {
    OpenBus("geo", "get_arrive_stop", map["idStop" := o.stopNumber, "cultureInfo" := LanguageParam(o.lang)])
  }

  /** `get_arrive_stop`: the buses arriving at a stop, under `arrives`. */
  function GetArriveStop(o: GeoOptions, gateway: Request -> Json): (r: Outcome<Arrival>)
    ensures KeyContract(gateway(ArriveStopRequest(o)), "arrives", ArrivalFrom, r)
  {
    KeyReply(gateway(ArriveStopRequest(o)), "arrives", ArrivalFrom)
  }

  // ---------------------------------------------------------------------
  // get_groups
  // ---------------------------------------------------------------------

  function GroupsRequest(o: GeoOptions): (req: Request)
    ensures GeoCall(req, "get_groups", {"cultureInfo"}, o)
  {
    OpenBus("geo", "get_groups", map["cultureInfo" := LanguageParam(o.lang)])
  }

  /** `get_groups`: line groups, under the status-code convention. */
  function GetGroups(o: GeoOptions, gateway: Request -> Json): (r: Outcome<GeoGroupItem>)
    ensures StatusContract(gateway(GroupsRequest(o)), "resultDescription", "resultValues", GeoGroupItemFrom, r)
  {
    StatusReply(gateway(GroupsRequest(o)), "resultDescription", "resultValues", GeoGroupItemFrom)
  }

  // ---------------------------------------------------------------------
  // get_info_line and get_info_line_extended
  // ---------------------------------------------------------------------

  function InfoLineRequest(o: GeoOptions): (r: Result<Request>)
    ensures r.Err? <==> !DateGiven(o.day, o.month, o.year)
    ensures r.Err? ==> r.error == TypeError
    ensures r.Ok? ==> GeoCall(r.value, "get_info_line", {"fecha", "line", "cultureInfo"}, o)
                      && DatedLines(r.value.params, "fecha", "line", o)
  {
    InfoRequest(o, "get_info_line")
  }

  /** `get_info_line`: line information, under `Line`; `TypeError` before
      any request when a date field is left out. */
  function GetInfoLine(o: GeoOptions, gateway: Request -> Json): (r: Outcome<Line>)
    ensures !DateGiven(o.day, o.month, o.year) ==> r == Raised(TypeError)
    ensures DateGiven(o.day, o.month, o.year) ==> KeyContract(gateway(InfoLineRequest(o).value), "Line", LineFrom, r)
  {
    match InfoLineRequest(o)
    case Err(e) => Raised(e)
    case Ok(req) => KeyReply(gateway(req), "Line", LineFrom)
  }

  function InfoLineExtendedRequest(o: GeoOptions): (r: Result<Request>)
    ensures r.Err? <==> !DateGiven(o.day, o.month, o.year)
    ensures r.Err? ==> r.error == TypeError
    ensures r.Ok? ==> GeoCall(r.value, "get_info_line_extended", {"fecha", "line", "cultureInfo"}, o)
                      && DatedLines(r.value.params, "fecha", "line", o)
  {
    InfoRequest(o, "get_info_line_extended")
  }

  /** `get_info_line_extended`: extended line information, under `Line`;
      `TypeError` before any request when a date field is left out. */
  function GetInfoLineExtended(o: GeoOptions, gateway: Request -> Json): (r: Outcome<Line>)
    ensures !DateGiven(o.day, o.month, o.year) ==> r == Raised(TypeError)
    ensures DateGiven(o.day, o.month, o.year) ==>
              KeyContract(gateway(InfoLineExtendedRequest(o).value), "Line", LineFrom, r)
  {
    match InfoLineExtendedRequest(o)
    case Err(e) => Raised(e)
    case Ok(req) => KeyReply(gateway(req), "Line", LineFrom)
  }

  /** The two line information operations send the same parameters to
      different endpoints and read their replies alike. */
  lemma InfoLineTwins(o: GeoOptions, gateway: Request -> Json)
    ensures InfoLineRequest(o).Ok? <==> InfoLineExtendedRequest(o).Ok?
    ensures InfoLineRequest(o).Ok? ==>
              && InfoLineRequest(o).value.params == InfoLineExtendedRequest(o).value.params
              && InfoLineRequest(o).value.endpoint != InfoLineExtendedRequest(o).value.endpoint
    ensures InfoLineRequest(o).Ok? && gateway(InfoLineRequest(o).value) == gateway(InfoLineExtendedRequest(o).value) ==>
              GetInfoLine(o, gateway) == GetInfoLineExtended(o, gateway)
    ensures InfoLineRequest(o).Err? ==> GetInfoLine(o, gateway) == GetInfoLineExtended(o, gateway)
  {
  }

  // ---------------------------------------------------------------------
  // get_poi and get_poi_types
  // ---------------------------------------------------------------------

  function PoiRequest(o: GeoOptions): (req: Request)
    ensures GeoCall(req, "get_poi", {"coordinateX", "coordinateY", "tipos", "Radius", "cultureInfo"}, o)
    ensures req.params["coordinateX"] == o.longitude && req.params["coordinateY"] == o.latitude
    ensures req.params["Radius"] == o.radius
    ensures IntsReadBack(req.params["tipos"], o.types.GetOr(NoneArg))
  {
    OpenBus("geo", "get_poi", map[
      "coordinateX" := o.longitude,
      "coordinateY" := o.latitude,
      "tipos" := IntsParam(o.types, NoneArg),
      "Radius" := o.radius,
      "cultureInfo" := LanguageParam(o.lang)])
  }

  /** `get_poi`: points of interest around a point, under `poiList`. */
  function GetPoi(o: GeoOptions, gateway: Request -> Json): (r: Outcome<Poi>)
    ensures KeyContract(gateway(PoiRequest(o)), "poiList", PoiFrom, r)
  {
    KeyReply(gateway(PoiRequest(o)), "poiList", PoiFrom)
  }

  function PoiTypesRequest(o: GeoOptions): (req: Request)
    ensures GeoCall(req, "get_poi_types", {"cultureInfo"}, o)
  {
    OpenBus("geo", "get_poi_types", map["cultureInfo" := LanguageParam(o.lang)])
  }

  /** `get_poi_types`: the point of interest types, under `types`, without
      any validation of the reply. */
  function GetPoiTypes(o: GeoOptions, gateway: Request -> Json): (r: Outcome<PoiType>)
    ensures UncheckedContract(gateway(PoiTypesRequest(o)), "types", PoiTypeFrom, r)
  {
    UncheckedReply(gateway(PoiTypesRequest(o)), "types", PoiTypeFrom)
  }

  // ---------------------------------------------------------------------
  // get_route_lines_route
  // ---------------------------------------------------------------------

  function RouteLinesRouteRequest(o: GeoOptions): (r: Result<Request>)
    ensures r.Err? <==> !DateGiven(o.day, o.month, o.year)
    ensures r.Err? ==> r.error == TypeError
    ensures r.Ok? ==> GeoCall(r.value, "get_route_lines_route", {"SelectDate", "Lines"}, o)
                      && DatedLines(r.value.params, "SelectDate", "Lines", o)
  {
    var date :- DateArg(o.day, o.month, o.year);
    Ok(OpenBus("geo", "get_route_lines_route", map[
      "SelectDate" := date,
      "Lines" := IntsParam(o.lines, IntList([]))]))
  }

  /** `get_route_lines_route`: line itineraries, under the status-code
      convention; `TypeError` before any request when a date field is left
      out. */
  function GetRouteLinesRoute(o: GeoOptions, gateway: Request -> Json): (r: Outcome<RouteLinesItem>)
    ensures !DateGiven(o.day, o.month, o.year) ==> r == Raised(TypeError)
    ensures DateGiven(o.day, o.month, o.year) ==>
              StatusContract(gateway(RouteLinesRouteRequest(o).value), "resultDescription", "resultValues", RouteLinesItemFrom, r)
  {
    match RouteLinesRouteRequest(o)
    case Err(e) => Raised(e)
    case Ok(req) => StatusReply(gateway(req), "resultDescription", "resultValues", RouteLinesItemFrom)
  }

  // ---------------------------------------------------------------------
  // get_stops_from_stop, get_stops_from_xy and get_stops_line
  // ---------------------------------------------------------------------

  function StopsFromStopRequest(o: GeoOptions): (req: Request)
    ensures GeoCall(req, "get_stops_from_stop", {"idStop", "Radius", "cultureInfo"}, o)
    ensures req.params["idStop"] == o.stopNumber && req.params["Radius"] == o.radius
  {
    OpenBus("geo", "get_stops_from_stop", map[
      "idStop" := o.stopNumber, "Radius" := o.radius, "cultureInfo" := LanguageParam(o.lang)])
  }

  /** `get_stops_from_stop`: stops around a stop, under `stops`. */
  function GetStopsFromStop(o: GeoOptions, gateway: Request -> Json): (r: Outcome<Stop>)
    ensures KeyContract(gateway(StopsFromStopRequest(o)), "stops", StopFrom, r)
  {
    KeyReply(gateway(StopsFromStopRequest(o)), "stops", StopFrom)
  }

  function StopsFromXyRequest(o: GeoOptions): (req: Request)
    ensures GeoCall(req, "get_stops_from_xy", {"latitude", "longitude", "Radius", "cultureInfo"}, o)
    ensures req.params["latitude"] == o.latitude && req.params["longitude"] == o.longitude
    ensures req.params["Radius"] == o.radius
  {
    OpenBus("geo", "get_stops_from_xy", map[
      "latitude" := o.latitude, "longitude" := o.longitude, "Radius" := o.radius,
      "cultureInfo" := LanguageParam(o.lang)])
  }

  /** `get_stops_from_xy`: stops around a point, under `stop`; a reply
      without stops in the zone has no `stop` and fails. */
  function GetStopsFromXy(o: GeoOptions, gateway: Request -> Json): (r: Outcome<Stop>)
    ensures KeyContract(gateway(StopsFromXyRequest(o)), "stop", StopFrom, r)
  {
    KeyReply(gateway(StopsFromXyRequest(o)), "stop", StopFrom)
  }

  function StopsLineRequest(o: GeoOptions): (req: Request)
    ensures GeoCall(req, "get_stops_line", {"line", "direction", "cultureInfo"}, o)
    ensures IntsReadBack(req.params["line"], o.lines.GetOr(IntList([])))
    ensures req.params["direction"] == JInt(2) <==> o.direction == Some("backward")
    ensures req.params["direction"] in {JInt(1), JInt(2)}
  {
    OpenBus("geo", "get_stops_line", map[
      "line" := IntsParam(o.lines, IntList([])),
      "direction" := JInt(DirectionCode(o.direction.GetOr(""))),
      "cultureInfo" := LanguageParam(o.lang)])
  }

  /** `get_stops_line`: the stops of a line, under `stop`. */
  function GetStopsLine(o: GeoOptions, gateway: Request -> Json): (r: Outcome<Stop>)
    ensures KeyContract(gateway(StopsLineRequest(o)), "stop", StopFrom, r)
  {
    KeyReply(gateway(StopsLineRequest(o)), "stop", StopFrom)
  }

  // ---------------------------------------------------------------------
  // get_street and get_street_from_xy
  // ---------------------------------------------------------------------

  function StreetRequest(o: GeoOptions): (req: Request)
    ensures GeoCall(req, "get_street", {"description", "streetNumber", "Radius", "Stops", "cultureInfo"}, o)
    ensures req.params["description"] == o.streetName && req.params["streetNumber"] == o.streetNumber
    ensures req.params["Radius"] == o.radius && req.params["Stops"] == o.stops
  {
    OpenBus("geo", "get_street", map[
      "description" := o.streetName, "streetNumber" := o.streetNumber,
      "Radius" := o.radius, "Stops" := o.stops, "cultureInfo" := LanguageParam(o.lang)])
  }

  /** `get_street`: sites around an address, under `site`. */
  function GetStreet(o: GeoOptions, gateway: Request -> Json): (r: Outcome<Site>)
    ensures KeyContract(gateway(StreetRequest(o)), "site", SiteFrom, r)
  {
    KeyReply(gateway(StreetRequest(o)), "site", SiteFrom)
  }

  function StreetFromXyRequest(o: GeoOptions): (req: Request)
    ensures GeoCall(req, "get_street_from_xy", {"coordinateX", "coordinateY", "Radius", "cultureInfo"}, o)
    ensures req.params["coordinateX"] == o.longitude && req.params["coordinateY"] == o.latitude
    ensures req.params["Radius"] == o.radius
  {
    OpenBus("geo", "get_street_from_xy", map[
      "coordinateX" := o.longitude, "coordinateY" := o.latitude,
      "Radius" := o.radius, "cultureInfo" := LanguageParam(o.lang)])
  }

  /** `get_street_from_xy`: streets around a point, under `site`. */
  function GetStreetFromXy(o: GeoOptions, gateway: Request -> Json): (r: Outcome<Street>)
    ensures KeyContract(gateway(StreetFromXyRequest(o)), "site", StreetFrom, r)
  {
    KeyReply(gateway(StreetFromXyRequest(o)), "site", StreetFrom)
  }

  /** The geo and bus `get_route_lines_route` send the same parameters
      for the same date and lines, to different services, and read their
      replies alike. */
  lemma RouteLinesRouteMatchesBus(g: GeoOptions, b: BusApi.BusOptions, gateway: Request -> Json)
    requires g.day == b.day && g.month == b.month && g.year == b.year && g.lines == b.lines
    ensures RouteLinesRouteRequest(g).Ok? <==> BusApi.RouteLinesRouteRequest(b).Ok?
    ensures RouteLinesRouteRequest(g).Ok? ==>
              && RouteLinesRouteRequest(g).value.params == BusApi.RouteLinesRouteRequest(b).value.params
              && RouteLinesRouteRequest(g).value.endpoint == BusApi.RouteLinesRouteRequest(b).value.endpoint
              && RouteLinesRouteRequest(g).value.service != BusApi.RouteLinesRouteRequest(b).value.service
    ensures RouteLinesRouteRequest(g).Ok? &&
            gateway(RouteLinesRouteRequest(g).value) == gateway(BusApi.RouteLinesRouteRequest(b).value) ==>
              GetRouteLinesRoute(g, gateway) == BusApi.GetRouteLinesRoute(b, gateway)
    ensures RouteLinesRouteRequest(g).Err? ==> GetRouteLinesRoute(g, gateway) == BusApi.GetRouteLinesRoute(b, gateway)
  {
  }
}

=== FILE: json.dfy ===
/** Decoded JSON replies and the Python operations the client applies to
    them: `dict.get`, truthiness, `==` against an integer, dictionary keys,
    `int(...)`, `float(...)`, iteration and the escape cleaning of text
    fields. */
module Json {
  import opened Wrappers
  import opened Text

  /** A decoded JSON value. Numbers with a fraction or exponent are `JFloat`;
      their rounding is not modelled. */
  datatype Json =
    | JNull
    | JBool(b: bool)
    | JInt(i: int)
    | JFloat(r: real)
    | JStr(s: string)
    | JList(items: seq<Json>)
    | JObj(fields: map<string, Json>)

  /** `m.get(key, default)`. */
  function GetOr(m: map<string, Json>, key: string, default: Json): (v: Json)
    ensures key in m ==> v == m[key]
    ensures key !in m ==> v == default
  {
    if key in m then m[key] else default
  }

  /** `m.get(key)`: an absent key and an explicit `null` both read as `None`. */
  function Get(m: map<string, Json>, key: string): (v: Json)
    ensures v == GetOr(m, key, JNull)
  {
    GetOr(m, key, JNull)
  }

  /** Python truthiness (`if v:`). */
  predicate Truthy(v: Json) {
    match v
    case JNull => false
    case JBool(b) => b
    case JInt(i) => i != 0
    case JFloat(r) => r != 0.0
    case JStr(s) => s != ""
    case JList(items) => items != []
    case JObj(fields) => fields != map[]
  }

  /** Python `v == n` for an integer `n`: booleans and integral floats
      compare equal to the matching integers, nothing else does. */
  predicate EqualsInt(v: Json, n: int) {
    match v
    case JBool(b) => (if b then 1 else 0) == n
    case JInt(i) => i == n
    case JFloat(r) => r == n as real
    case _ => false
  }

  /** Lists and dictionaries cannot be used as dictionary keys. */
  predicate Hashable(v: Json) {
    !v.JList? && !v.JObj?
  }

  /** The integer key a hashable value finds in an integer-keyed dictionary,
      if any: `True` finds `1`, `2.0` finds `2`. */
  function IntKey(v: Json): (k: Option<int>)
    ensures k.Some? ==> EqualsInt(v, k.value)
    ensures forall n :: EqualsInt(v, n) ==> k == Some(n)
  {
    match v
    case JBool(b) => Some(if b then 1 else 0)
    case JInt(i) => Some(i)
    case JFloat(r) => if r == r.Floor as real then Some(r.Floor) else None
    case _ => None
  }

  /** Truncation toward zero, as `int(x)` does for a float. */
  function Truncate(r: real): (n: int)
    ensures 0.0 <= r ==> 0 <= n && (n as real) <= r < (n as real) + 1.0
    ensures r < 0.0 ==> n <= 0 && (n as real) - 1.0 < r <= (n as real)
  {
    if r >= 0.0 then r.Floor else -((-r).Floor)
  }

  /** `int(v)`: booleans, integers, floats (truncated) and decimal text
      convert; `None`, lists and dictionaries raise `TypeError`; other
      text raises `ValueError`. */
  function ToInt(v: Json): (r: Result<int>)
    ensures r.Ok? <==> (v.JBool? || v.JInt? || v.JFloat? || (v.JStr? && ParseInt(v.s).Some?))
    ensures r.Err? ==> (r.error == ValueError <==> v.JStr?)
    ensures v.JInt? ==> r == Ok(v.i)
    ensures v.JBool? ==> r == Ok(if v.b then 1 else 0)
    ensures v.JFloat? ==> r == Ok(Truncate(v.r))
    ensures forall n :: v == JStr(IntToString(n)) ==> r == Ok(n)
  {
    match v
    case JBool(b) => Ok(if b then 1 else 0)
    case JInt(i) => Ok(i)
    case JFloat(x) => Ok(Truncate(x))
    case JStr(s) => (match ParseInt(s) case Some(n) => Ok(n) case None => Err(ValueError))
    case _ => Err(TypeError)
  }

  /** `int(m.get(key, default))` for a textual integer default. */
  function IntOr(m: map<string, Json>, key: string, default: int): (r: Result<int>)
    ensures key !in m ==> r == Ok(default)
    ensures key in m ==> r == ToInt(m[key])
  {
    if key in m then ToInt(m[key])
    else
      assert ToInt(JStr(IntToString(default))) == Ok(default);
      Ok(default)
  }

  /** A Python float, kept opaque: the value it was converted from. */
  datatype PyFloat = FloatOf(source: Json)

  /** `float(v)`: numbers and text convert (the parsing of text is not
      modelled); `None`, lists and dictionaries raise `TypeError`. */
  function ToFloat(v: Json): (r: Result<PyFloat>)
    ensures r.Ok? <==> !(v.JNull? || v.JList? || v.JObj?)
    ensures r.Ok? ==> r.value.source == v
    ensures r.Err? ==> r.error == TypeError
  {
    if v.JNull? || v.JList? || v.JObj? then Err(TypeError) else Ok(FloatOf(v))
  }

  /** `float(m.get(key, '0.0'))`, the coordinate coercion. */
  function CoordinateOf(m: map<string, Json>, key: string): (r: Result<PyFloat>)
    ensures key !in m ==> r == Ok(FloatOf(JStr("0.0")))
    ensures key in m ==> r == ToFloat(m[key])
  {
    ToFloat(GetOr(m, key, JStr("0.0")))
  }

  /** `v.replace('\\', '').strip()`: only text has these methods; anything
      else (including `None`) raises `AttributeError`. */
  function CleanText(v: Json): (r: Result<string>)
    ensures r.Ok? <==> v.JStr?
    ensures r.Ok? ==> r.value == Clean(v.s)
    ensures r.Err? ==> r.error == AttributeError
  {
    match v
    case JStr(s) => Ok(Clean(s))
    case _ => Err(AttributeError)
  }

  /** `m.get(key, '').replace('\\', '').strip()`. */
  function CleanOr(m: map<string, Json>, key: string): (r: Result<string>)
    ensures key !in m ==> r == Ok("")
    ensures key in m ==> r == CleanText(m[key])
  {
    if key in m then CleanText(m[key])
    else
      assert CleanText(JStr("")) == Ok("") by {
        assert RemoveAll("", '\\') == "";
      }
      Ok("")
  }

  /** `v.strip()` without the backslash removal. */
  function StripText(v: Json): (r: Result<string>)
    ensures r.Ok? <==> v.JStr?
    ensures r.Ok? ==> r.value == Strip(v.s)
  {
    match v
    case JStr(s) => Ok(Strip(s))
    case _ => Err(AttributeError)
  }

  /** `m.get(key, {})` followed by `.get` on the result: a missing key gives
      the empty dictionary, a dictionary is itself, anything else (an
      explicit `null` included) has no `get` and raises `AttributeError`. */
  function SubObject(m: map<string, Json>, key: string): (r: Result<map<string, Json>>)
    ensures key !in m ==> r == Ok(map[])
    ensures key in m ==> (r.Ok? <==> m[key].JObj?)
    ensures key in m && m[key].JObj? ==> r == Ok(m[key].fields)
  {
    match GetOr(m, key, JObj(map[]))
    case JObj(fields) => Ok(fields)
    case _ => Err(AttributeError)
  }

  /** `f(**v)`: keyword unpacking needs a dictionary. */
  function Unpack<T>(v: Json, f: map<string, Json> -> Result<T>): (r: Result<T>)
    ensures v.JObj? ==> r == f(v.fields)
    ensures !v.JObj? ==> r == Err(TypeError)
  {
    match v
    case JObj(fields) => f(fields)
    case _ => Err(TypeError)
  }
}

=== FILE: params.dfy ===
/** The request parameters the endpoint operations build from caller
    options: dates, date-times, integer lists and the language code, each
    with the default the operations apply when the option is left out. */
module Params {
  import opened Wrappers
  import opened Text
  import opened Json
  import opened Util

  /** A `DD/MM/YYYY` parameter that reads back, field by field, as the given
      day, month and year. */
  ghost predicate DateReadsBack(v: Json, day: int, month: int, year: int) {
    && v.JStr?
    && var parts := Split(v.s, '/');
       && |parts| == 3
       && ParseInt(parts[0]) == Some(day)
       && ParseInt(parts[1]) == Some(month)
       && ParseInt(parts[2]) == Some(year)
  }

  /** Every field of a `DD/MM/YYYY` date was given by the caller. */
  predicate DateGiven(day: Option<int>, month: Option<int>, year: Option<int>) {
    day.Some? && month.Some? && year.Some?
  }

  /** The date the bus and geo operations build, as written:
      `'%02d/%02d/%d'` applied to `kwargs.get('day', '01')`,
      `kwargs.get('month', '01')` and `kwargs.get('year', '1970')`. The
      defaults are texts, and `%d` of a text raises `TypeError`, so the date
      exists only when the caller gives all three fields; it is then the
      intended `DateParam`. */
  function DateArg(day: Option<int>, month: Option<int>, year: Option<int>): (r: Result<Json>)
    ensures r.Err? <==> !DateGiven(day, month, year)
    ensures r.Err? ==> r.error == TypeError
    ensures r.Ok? ==> DateReadsBack(r.value, day.value, month.value, year.value)
  {
    if DateGiven(day, month, year) then Ok(DateParam(day, month, year))
    else Err(TypeError)
  }

  /** The date the operations evidently mean to build: `date_string(day,
      month, year)` with the integer defaults 1, 1 and 1970, so that a date
      left out is 1 January 1970. */
  function DateParam(day: Option<int>, month: Option<int>, year: Option<int>): (v: Json)
    ensures DateReadsBack(v, day.GetOr(1), month.GetOr(1), year.GetOr(1970))
    ensures day.None? && month.None? && year.None? ==> v == JStr("01/01/1970")
  {
    DateStringRoundTrip(day.GetOr(1), month.GetOr(1), year.GetOr(1970));
    DefaultDate();
    JStr(DateString(day.GetOr(1), month.GetOr(1), year.GetOr(1970)))
  }

  /** A date left out: as written the date raises `TypeError`, where the
      intended date is 1 January 1970. */
  lemma DateDefaultsRaise(day: Option<int>, month: Option<int>, year: Option<int>)
    requires day.None? && month.None? && year.None?
    ensures DateArg(day, month, year) == Err(TypeError)
    ensures DateParam(day, month, year) == JStr("01/01/1970")
  {
  }

  /** A `YYYY-MM-DDThh:mm:00` parameter for the given fields, with the hour
      and minute clamped as `datetime_string` does. */
  ghost predicate DatetimeReadsBack(v: Json, day: int, month: int, year: int, hour: int, minute: int) {
    v.JStr? && DatetimeShape(v.s, day, month, year, hour, minute)
  }

  /** A step for DefaultDate and DefaultDatetime: the rendering of the
      default year, evaluated on its own so that the solver does not unfold
      the literals inside larger proofs. */
  lemma DefaultYear()
    ensures IntToString(1970) == "1970"
  {
  }

  /** A step for DefaultDate and DefaultDatetime: the padded day, month
      and midnight fields, evaluated on its own. */
  lemma DefaultPads()
    ensures Pad2(1) == "01" && Pad2(0) == "00"
  {
  }

  /** A step for DefaultDatetime: the renderings the default date-time is
      made of. */
  lemma DefaultTexts()
    ensures IntToString(1970) == "1970" && Pad2(1) == "01" && TimeTail(0, 0) == "T00:00:00"
  {
    DefaultYear();
    DefaultPads();
  }

  /** The intended default date, 1 January 1970. */
  lemma DefaultDate()
    ensures DateString(1, 1, 1970) == "01/01/1970"
  {
    DefaultYear();
    DefaultPads();
  }

  /** `datetime_string(...)` over options defaulting to 1 January 1970,
      00:00; what it reads back as is `DatetimeParamReadsBack`. */
  function DatetimeParam(day: Option<int>, month: Option<int>, year: Option<int>,
                         hour: Option<int>, minute: Option<int>): Json
  {
    JStr(DatetimeString(day.GetOr(1), month.GetOr(1), year.GetOr(1970), hour.GetOr(0), minute.GetOr(0)))
  }

  /** A date-time parameter reads back as the caller's fields, with the
      defaults in place of those left out. */
  lemma DatetimeParamReadsBack(day: Option<int>, month: Option<int>, year: Option<int>,
                               hour: Option<int>, minute: Option<int>)
    ensures DatetimeReadsBack(DatetimeParam(day, month, year, hour, minute),
                              day.GetOr(1), month.GetOr(1), year.GetOr(1970), hour.GetOr(0), minute.GetOr(0))
  {
    DatetimeStringShape(day.GetOr(1), month.GetOr(1), year.GetOr(1970), hour.GetOr(0), minute.GetOr(0));
  }

  /** A step for DefaultDatetime: the date part of the default date-time. */
  lemma DefaultDatePart(day: int, month: int, year: int)
    requires day == 1 && month == 1 && year == 1970
    ensures IntToString(year) + "-" + Pad2(month) + "-" + Pad2(day) == "1970-01-01"
  {
    DefaultYear();
    DefaultPads();
  }

  /** A step for DefaultDatetime: the literal date and time parts joined,
      evaluated on its own. */
  lemma DefaultJoin()
    ensures "1970-01-01" + "T00:00:00" == "1970-01-01T00:00:00"
  {
  }

  /** The default fields format as midnight, 1 January 1970. */
  lemma DefaultDatetime(day: int, month: int, year: int, hour: int, minute: int)
    requires day == 1 && month == 1 && year == 1970 && hour == 0 && minute == 0
    ensures DatetimeString(day, month, year, hour, minute) == "1970-01-01T00:00:00"
  {
    DefaultDatePart(day, month, year);
    DefaultTexts();
    DefaultJoin();
    assert DatetimeString(day, month, year, hour, minute)
        == (IntToString(year) + "-" + Pad2(month) + "-" + Pad2(day)) + TimeTail(ClampHour(hour), ClampMinute(minute));
  }

  /** With every field left out the date-time is midnight, 1 January 1970. */
  lemma DatetimeParamDefault()
    ensures DatetimeParam(None, None, None, None, None) == JStr("1970-01-01T00:00:00")
  {
    DefaultDatetime(1, 1, 1970, 0, 0);
  }

  /** An integer-list parameter that reads back as the caller's value: a
      list through its `|`-separated pieces (the empty list as the empty
      text), a single integer directly, `None` as the text `None`. */
  ghost predicate IntsReadBack(v: Json, ints: IntsArg) {
    && v.JStr?
    && match ints
       case IntList(xs) =>
         if xs == [] then v.s == ""
         else var parts := Split(v.s, '|');
              && |parts| == |xs|
              && forall i :: 0 <= i < |xs| ==> ParseInt(parts[i]) == Some(xs[i])
       case SingleInt(n) => ParseInt(v.s) == Some(n)
       case NoneArg => v.s == "None"
  }

  /** `ints_to_string(kwargs.get(name, default))`. */
  function IntsParam(ints: Option<IntsArg>, default: IntsArg): (v: Json)
    ensures IntsReadBack(v, ints.GetOr(default))
  {
    var arg := ints.GetOr(default);
    assert IntsReadBack(JStr(IntsToString(arg)), arg) by {
      if arg.IntList? && arg.values != [] {
        IntsToStringRoundTrip(arg.values);
      }
    }
    JStr(IntsToString(arg))
  }

  /** A language parameter for the caller's `lang`: `ES` for a missing or
      empty code and for `es`, `EN` for anything else. */
  ghost predicate LanguageFor(v: Json, lang: Option<string>) {
    && (v == JStr("ES") || v == JStr("EN"))
    && (v == JStr("ES") <==> lang in {None, Some(""), Some("es")})
  }

  /** `language_code(kwargs.get('lang'))`. */
  function LanguageParam(lang: Option<string>): (v: Json)
    ensures LanguageFor(v, lang)
  {
    JStr(LanguageCode(lang))
  }
}

=== FILE: parking.dfy ===
/** The parking service. Its endpoints are reached through `make_request(
    endpoint, url_args, **params)`; every reply follows the status-code
    convention, with the message in `message` and the items in `Data`. */
module ParkingApi {
  import opened Wrappers
  import opened Text
  import opened Json
  import opened Util
  import opened Types
  import opened Pipeline
  import opened Params

  /** The keyword arguments the parking endpoints read. Pass-through values
      are raw JSON (`null` when left out); `latitude` and `longitude` are the
      texts `str` gives for the caller's coordinates. */
  datatype ParkingOptions = ParkingOptions(
    lang: Option<string>,
    day: Option<int>, month: Option<int>, year: Option<int>, hour: Option<int>, minute: Option<int>,
    parking: Json, family: Json, id: Json,
    poiInfo: seq<seq<Json>>, fieldCodes: seq<seq<Json>>,
    latitude: Option<string>, longitude: Option<string>, minFree: Option<Json>,
    radius: Option<int>, address: Option<Json>)

  /** A parking request to `endpoint`. */
  ghost predicate ParkingCallTo(req: Request, endpoint: string) {
    req.ParkingCall? && req.endpoint == endpoint
  }

  /** The status-code pipeline of the parking service. */
  function ParkingReply<T>(reply: Json, mapper: Fields -> Result<T>): (r: Outcome<T>)
    ensures StatusContract(reply, "message", "Data", mapper, r)
  {
    StatusReply(reply, "message", "Data", mapper)
  }

  // ---------------------------------------------------------------------
  // detail_parking
  // ---------------------------------------------------------------------

  function DetailParkingRequest(o: ParkingOptions): (req: Request)
    ensures ParkingCallTo(req, "detail_parking") && req.urlArgs == map[]
    ensures req.params.Keys == {"language", "publicData", "date", "id", "family"}
    ensures LanguageFor(req.params["language"], o.lang)
    ensures req.params["publicData"] == JBool(true)
    ensures req.params["id"] == o.parking && req.params["family"] == o.family
  {
    DetailParkingWith(o, DatetimeParam(o.day, o.month, o.year, o.hour, o.minute))
  }

  /** The `detail_parking` request around its date. */
  function DetailParkingWith(o: ParkingOptions, date: Json): (req: Request)
    ensures ParkingCallTo(req, "detail_parking") && req.urlArgs == map[]
    ensures req.params.Keys == {"language", "publicData", "date", "id", "family"}
    ensures LanguageFor(req.params["language"], o.lang)
    ensures req.params["publicData"] == JBool(true) && req.params["date"] == date
    ensures req.params["id"] == o.parking && req.params["family"] == o.family
  {
    ParkingCall("detail_parking", map[], map[
      "language" := LanguageParam(o.lang),
      "publicData" := JBool(true),
      "date" := date,
      "id" := o.parking,
      "family" := o.family])
  }

  /** The `detail_parking` date reads back as the caller's date and time,
      1 January 1970 at midnight by default. */
  lemma DetailParkingDate(o: ParkingOptions)
    ensures DatetimeReadsBack(DetailParkingRequest(o).params["date"], o.day.GetOr(1), o.month.GetOr(1),
                              o.year.GetOr(1970), o.hour.GetOr(0), o.minute.GetOr(0))
    ensures o.day == o.month == o.year == o.hour == o.minute == None ==>
              DetailParkingRequest(o).params["date"] == JStr("1970-01-01T00:00:00")
  {
    assert DetailParkingRequest(o).params["date"] == DatetimeParam(o.day, o.month, o.year, o.hour, o.minute);
    DatetimeParamReadsBack(o.day, o.month, o.year, o.hour, o.minute);
    if o.day == o.month == o.year == o.hour == o.minute == None {
      DatetimeParamDefault();
    }
  }

  /** `detail_parking`: the details of one parking. */
  function DetailParking(o: ParkingOptions, gateway: Request -> Json): (r: Outcome<ParkingDetails>)
    ensures StatusContract(gateway(DetailParkingRequest(o)), "message", "Data", ParkingDetailsFrom, r)
  {
    ParkingReply(gateway(DetailParkingRequest(o)), ParkingDetailsFrom)
  }

  // ---------------------------------------------------------------------
  // detail_poi
  // ---------------------------------------------------------------------

  /** The `detail_poi` request: the point of interest `id` is sent only when
      it is truthy, so a missing, zero or empty id asks for every point. */
  function DetailPoiRequest(o: ParkingOptions): (req: Request)
    ensures ParkingCallTo(req, "detail_poi") && req.urlArgs == map[]
    ensures req.params.Keys == {"language", "family"} + (if Truthy(o.id) then {"id"} else {})
    ensures "id" in req.params <==> Truthy(o.id)
    ensures "id" in req.params ==> req.params["id"] == o.id
    ensures LanguageFor(req.params["language"], o.lang) && req.params["family"] == o.family
  {
    var params := map["language" := LanguageParam(o.lang), "family" := o.family];
    ParkingCall("detail_poi", map[], if Truthy(o.id) then params["id" := o.id] else params)
  }

  /** The `detail_poi` parameters built as the client builds them: a fixed
      dictionary, then the id inserted when it is truthy. */
  method BuildDetailPoiRequest(o: ParkingOptions) returns (req: Request)
    ensures req == DetailPoiRequest(o)
  {
    var params := map["language" := LanguageParam(o.lang), "family" := o.family];
    if Truthy(o.id) {
      params := params["id" := o.id];
    }
    req := ParkingCall("detail_poi", map[], params);
  }

  /** `detail_poi`: the details of one point of interest, or of all. */
  function DetailPoi(o: ParkingOptions, gateway: Request -> Json): (r: Outcome<PoiDetails>)
    ensures StatusContract(gateway(DetailPoiRequest(o)), "message", "Data", PoiDetailsFrom, r)
  {
    ParkingReply(gateway(DetailPoiRequest(o)), PoiDetailsFrom)
  }

  // ---------------------------------------------------------------------
  // icon_description and list_features
  // ---------------------------------------------------------------------

  function IconDescriptionRequest(o: ParkingOptions): (req: Request)
    ensures ParkingCallTo(req, "icon_description") && req.urlArgs == map[]
    ensures req.params.Keys == {"language"} && LanguageFor(req.params["language"], o.lang)
  {
    ParkingCall("icon_description", map[], map["language" := LanguageParam(o.lang)])
  }

  /** `icon_description`: the elements that have an icon. */
  function IconDescriptions(o: ParkingOptions, gateway: Request -> Json): (r: Outcome<IconDescription>)
    ensures StatusContract(gateway(IconDescriptionRequest(o)), "message", "Data", IconDescriptionFrom, r)
  {
    ParkingReply(gateway(IconDescriptionRequest(o)), IconDescriptionFrom)
  }

  function ListFeaturesRequest(o: ParkingOptions): (req: Request)
    ensures ParkingCallTo(req, "list_features") && req.urlArgs == map[]
    ensures req.params.Keys == {"language", "publicData"}
    ensures LanguageFor(req.params["language"], o.lang) && req.params["publicData"] == JBool(true)
  {
    ParkingCall("list_features", map[], map["language" := LanguageParam(o.lang), "publicData" := JBool(true)])
  }

  /** `list_features`: the features a parking may have. */
  function ListFeatures(o: ParkingOptions, gateway: Request -> Json): (r: Outcome<ParkingFeature>)
    ensures StatusContract(gateway(ListFeaturesRequest(o)), "message", "Data", ParkingFeatureFrom, r)
  {
    ParkingReply(gateway(ListFeaturesRequest(o)), ParkingFeatureFrom)
  }

  // ---------------------------------------------------------------------
  // info_parking_poi
  // ---------------------------------------------------------------------

  /** One `poi_info` tuple `(categories, family, type)` as a request entry;
      a tuple shorter than three raises `IndexError`. */
  function FamilyCategory(element: seq<Json>): (r: Result<Json>)
    ensures r.Ok? <==> |element| >= 3
    ensures r.Err? ==> r.error == IndexError
    ensures r.Ok? ==> && r.value.JObj?
                      && r.value.fields.Keys == {"poiCategory", "poiFamily", "poiType"}
                      && r.value.fields["poiCategory"] == JObj(map["lstCategoryTypes" := element[0]])
                      && r.value.fields["poiFamily"] == element[1]
                      && r.value.fields["poiType"] == element[2]
  {
    if |element| < 3 then Err(IndexError)
    else Ok(JObj(map[
      "poiCategory" := JObj(map["lstCategoryTypes" := element[0]]),
      "poiFamily" := element[1],
      "poiType" := element[2]]))
  }

  /** One `field_codes` tuple `(codes, name)` as a request entry; a tuple
      shorter than two raises `IndexError`. */
  function FieldCode(element: seq<Json>): (r: Result<Json>)
    ensures r.Ok? <==> |element| >= 2
    ensures r.Err? ==> r.error == IndexError
    ensures r.Ok? ==> && r.value.JObj?
                      && r.value.fields.Keys == {"codes", "nameField"}
                      && r.value.fields["codes"] == JObj(map["lstCodes" := element[0]])
                      && r.value.fields["nameField"] == element[1]
  {
    if |element| < 2 then Err(IndexError)
    else Ok(JObj(map["codes" := JObj(map["lstCodes" := element[0]]), "nameField" := element[1]]))
  }

  /** `v` is an object whose single `key` lists the entries `f` makes of
      `xs`, one per element and in order. */
  ghost predicate ListsEach<A>(v: Json, key: string, xs: seq<A>, f: A -> Result<Json>) {
    && v.JObj? && v.fields.Keys == {key} && v.fields[key].JList?
    && |v.fields[key].items| == |xs|
    && forall i :: 0 <= i < |xs| ==> f(xs[i]) == Ok(v.fields[key].items[i])
  }

  /** A successful map, listed under a key. */
  lemma MapAllListed<A>(xs: seq<A>, f: A -> Result<Json>, entries: seq<Json>, key: string)
    requires MapAll(xs, f) == Ok(entries)
    ensures ListsEach(JObj(map[key := JList(entries)]), key, xs, f)
  {
  }

  /** What the `info_parking_poi` request carries. */
  ghost predicate InfoParkingPoiCall(req: Request, o: ParkingOptions) {
    && InfoParkingPoiNamed(req)
    && InfoParkingPoiLists(req, o)
    && InfoParkingPoiScalars(req, o)
  }

  /** The endpoint and the parameter names. */
  ghost predicate InfoParkingPoiNamed(req: Request) {
    && ParkingCallTo(req, "info_parking_poi") && req.urlArgs == map[]
    && req.params.Keys == {"TFamilyTTypeTCategory", "coordinate", "dateTimeUse", "language",
                           "minimumPlacesAvailable", "nameFieldCodes", "radius"}
  }

  /** The two lists of entries. */
  ghost predicate InfoParkingPoiLists(req: Request, o: ParkingOptions)
    requires InfoParkingPoiNamed(req)
  {
    && ListsEach(req.params["TFamilyTTypeTCategory"], "lstFamilyTypeCategory", o.poiInfo, FamilyCategory)
    && ListsEach(req.params["nameFieldCodes"], "lstNameFieldCodes", o.fieldCodes, FieldCode)
  }

  /** The scalar parameters: coordinates (`0.0` by default), date and time,
      language, minimum free places (an empty list by default) and radius
      (0 by default). */
  ghost predicate InfoParkingPoiScalars(req: Request, o: ParkingOptions)
    requires InfoParkingPoiNamed(req)
  {
    && req.params["coordinate"] ==
         JObj(map["latitude" := JStr(o.latitude.GetOr("0.0")), "longitude" := JStr(o.longitude.GetOr("0.0"))])
    && DatetimeReadsBack(req.params["dateTimeUse"], o.day.GetOr(1), o.month.GetOr(1), o.year.GetOr(1970),
                         o.hour.GetOr(0), o.minute.GetOr(0))
    && LanguageFor(req.params["language"], o.lang)
    && req.params["minimumPlacesAvailable"] == JObj(map["lstminimumPlacesAvailable" := o.minFree.GetOr(JList([]))])
    && req.params["radius"].JStr? && ParseInt(req.params["radius"].s) == Some(o.radius.GetOr(0))
  }

  /** The `info_parking_poi` request: built only when every `poi_info` tuple
      has three members and every `field_codes` tuple two; otherwise the
      building raises `IndexError`. */
  function InfoParkingPoiRequest(o: ParkingOptions): (r: Result<Request>)
    ensures r.Ok? <==> (forall i :: 0 <= i < |o.poiInfo| ==> |o.poiInfo[i]| >= 3)
                       && (forall i :: 0 <= i < |o.fieldCodes| ==> |o.fieldCodes[i]| >= 2)
    ensures r.Err? ==> r.error == IndexError
    ensures r.Ok? ==> InfoParkingPoiCall(r.value, o)
  {
    TuplesLongEnough(o);
    var categories :- MapAll(o.poiInfo, FamilyCategory);
    var codes :- MapAll(o.fieldCodes, FieldCode);
    var date := DatetimeParam(o.day, o.month, o.year, o.hour, o.minute);
    InfoParkingPoiWithCarries(o, categories, codes);
    Ok(InfoParkingPoiWith(o, categories, codes, date))
  }

  /** Both lists of entries can be built exactly when every tuple is long
      enough, and otherwise the building raises `IndexError`. */
  lemma TuplesLongEnough(o: ParkingOptions)
    ensures MapAll(o.poiInfo, FamilyCategory).Ok? <==> forall i :: 0 <= i < |o.poiInfo| ==> |o.poiInfo[i]| >= 3
    ensures MapAll(o.fieldCodes, FieldCode).Ok? <==> forall i :: 0 <= i < |o.fieldCodes| ==> |o.fieldCodes[i]| >= 2
    ensures MapAll(o.poiInfo, FamilyCategory).Err? ==> MapAll(o.poiInfo, FamilyCategory).error == IndexError
    ensures MapAll(o.fieldCodes, FieldCode).Err? ==> MapAll(o.fieldCodes, FieldCode).error == IndexError
  {
  }

  /** The request around the two lists of entries built from the options
      and the options' date carries what the options ask for. */
  lemma InfoParkingPoiWithCarries(o: ParkingOptions, categories: seq<Json>, codes: seq<Json>)
    requires MapAll(o.poiInfo, FamilyCategory) == Ok(categories)
    requires MapAll(o.fieldCodes, FieldCode) == Ok(codes)
    ensures InfoParkingPoiCall(InfoParkingPoiWith(o, categories, codes,
                                                  DatetimeParam(o.day, o.month, o.year, o.hour, o.minute)), o)
  {
    var date := DatetimeParam(o.day, o.month, o.year, o.hour, o.minute);
    MapAllListed(o.poiInfo, FamilyCategory, categories, "lstFamilyTypeCategory");
    MapAllListed(o.fieldCodes, FieldCode, codes, "lstNameFieldCodes");
    InfoParkingPoiWithLists(o, categories, codes, date);
    DatetimeParamReadsBack(o.day, o.month, o.year, o.hour, o.minute);
    InfoParkingPoiWithScalars(o, categories, codes, date);
  }

  lemma InfoParkingPoiWithLists(o: ParkingOptions, categories: seq<Json>, codes: seq<Json>, date: Json)
    requires ListsEach(JObj(map["lstFamilyTypeCategory" := JList(categories)]), "lstFamilyTypeCategory",
                       o.poiInfo, FamilyCategory)
    requires ListsEach(JObj(map["lstNameFieldCodes" := JList(codes)]), "lstNameFieldCodes", o.fieldCodes, FieldCode)
    ensures InfoParkingPoiLists(InfoParkingPoiWith(o, categories, codes, date), o)
  {
  }

  lemma InfoParkingPoiWithScalars(o: ParkingOptions, categories: seq<Json>, codes: seq<Json>, date: Json)
    requires DatetimeReadsBack(date, o.day.GetOr(1), o.month.GetOr(1), o.year.GetOr(1970), o.hour.GetOr(0), o.minute.GetOr(0))
    ensures InfoParkingPoiScalars(InfoParkingPoiWith(o, categories, codes, date), o)
  {
  }

  /** The `info_parking_poi` request around the two lists of entries and
      the date. */
  function InfoParkingPoiWith(o: ParkingOptions, categories: seq<Json>, codes: seq<Json>, date: Json): (req: Request)
    ensures InfoParkingPoiNamed(req)
    ensures req.params["TFamilyTTypeTCategory"] == JObj(map["lstFamilyTypeCategory" := JList(categories)])
    ensures req.params["nameFieldCodes"] == JObj(map["lstNameFieldCodes" := JList(codes)])
    ensures req.params["coordinate"] ==
              JObj(map["latitude" := JStr(o.latitude.GetOr("0.0")), "longitude" := JStr(o.longitude.GetOr("0.0"))])
    ensures req.params["dateTimeUse"] == date
    ensures req.params["language"] == LanguageParam(o.lang)
    ensures req.params["minimumPlacesAvailable"] == JObj(map["lstminimumPlacesAvailable" := o.minFree.GetOr(JList([]))])
    ensures req.params["radius"] == JStr(IntToString(o.radius.GetOr(0)))
  {
    ParkingCall("info_parking_poi", map[], map[
      "TFamilyTTypeTCategory" := JObj(map["lstFamilyTypeCategory" := JList(categories)]),
      "coordinate" := JObj(map["latitude" := JStr(o.latitude.GetOr("0.0")),
                               "longitude" := JStr(o.longitude.GetOr("0.0"))]),
      "dateTimeUse" := date,
      "language" := LanguageParam(o.lang),
      "minimumPlacesAvailable" := JObj(map["lstminimumPlacesAvailable" := o.minFree.GetOr(JList([]))]),
      "nameFieldCodes" := JObj(map["lstNameFieldCodes" := JList(codes)]),
      "radius" := JStr(IntToString(o.radius.GetOr(0)))])
  }

  /** The `poi_info` loop of the client: one entry appended per tuple,
      stopping at the first tuple that is too short. */
  method CollectFamilyCategories(poiInfo: seq<seq<Json>>) returns (r: Result<seq<Json>>)
    ensures r == MapAll(poiInfo, FamilyCategory)
  {
    var categories: seq<Json> := [];
    var i := 0;
    while i < |poiInfo|
      invariant 0 <= i <= |poiInfo|
      invariant MapAll(poiInfo[..i], FamilyCategory) == Ok(categories)
    {
      var element := poiInfo[i];
      if |element| < 3 {
        MapAllStops(poiInfo, FamilyCategory, i);
        return Err(IndexError);
      }
      MapAllExtend(poiInfo, FamilyCategory, i, categories);
      categories := categories + [JObj(map[
        "poiCategory" := JObj(map["lstCategoryTypes" := element[0]]),
        "poiFamily" := element[1],
        "poiType" := element[2]])];
      i := i + 1;
    }
    assert poiInfo[..i] == poiInfo;
    r := Ok(categories);
  }

  /** The `field_codes` loop of the client, likewise. */
  method CollectFieldCodes(fieldCodes: seq<seq<Json>>) returns (r: Result<seq<Json>>)
    ensures r == MapAll(fieldCodes, FieldCode)
  {
    var codes: seq<Json> := [];
    var j := 0;
    while j < |fieldCodes|
      invariant 0 <= j <= |fieldCodes|
      invariant MapAll(fieldCodes[..j], FieldCode) == Ok(codes)
    {
      var element := fieldCodes[j];
      if |element| < 2 {
        MapAllStops(fieldCodes, FieldCode, j);
        return Err(IndexError);
      }
      MapAllExtend(fieldCodes, FieldCode, j, codes);
      codes := codes + [JObj(map["codes" := JObj(map["lstCodes" := element[0]]), "nameField" := element[1]])];
      j := j + 1;
    }
    assert fieldCodes[..j] == fieldCodes;
    r := Ok(codes);
  }

  /** The `info_parking_poi` request built as the client builds it: the
      date, then the two loops, then the parameters. */
  method BuildInfoParkingPoiRequest(o: ParkingOptions) returns (r: Result<Request>)
    ensures r == InfoParkingPoiRequest(o)
  {
    var date := DatetimeParam(o.day, o.month, o.year, o.hour, o.minute);
    var categories := CollectFamilyCategories(o.poiInfo);
    if categories.Err? {
      return Err(categories.error);
    }
    var codes := CollectFieldCodes(o.fieldCodes);
    if codes.Err? {
      return Err(codes.error);
    }
    r := Ok(InfoParkingPoiWith(o, categories.value, codes.value, date));
  }

  /** `info_parking_poi`: the points of interest and parkings around a
      point; a malformed tuple raises before any request is made. */
  function InfoParkingPois(o: ParkingOptions, gateway: Request -> Json): (r: Outcome<Types.InfoParkingPoi>)
    ensures InfoParkingPoiRequest(o).Err? ==> r == Raised(IndexError)
    ensures InfoParkingPoiRequest(o).Ok? ==>
              StatusContract(gateway(InfoParkingPoiRequest(o).value), "message", "Data", InfoParkingPoiFrom, r)
  {
    match InfoParkingPoiRequest(o)
    case Err(e) => Raised(e)
    case Ok(req) => ParkingReply(gateway(req), InfoParkingPoiFrom)
  }

  // ---------------------------------------------------------------------
  // list_parking, list_street_poi_parking and list_types_poi
  // ---------------------------------------------------------------------

  /** The `list_parking` request: the language goes in the URL arguments
      under `lang` (the other URL-argument endpoints say `language`), and
      there are no parameters. */
  function ListParkingRequest(o: ParkingOptions): (req: Request)
    ensures ParkingCallTo(req, "list_parking") && req.params == map[]
    ensures req.urlArgs.Keys == {"lang"} && LanguageFor(req.urlArgs["lang"], o.lang)
  {
    ParkingCall("list_parking", map["lang" := LanguageParam(o.lang)], map[])
  }

  /** `list_parking`: every parking. */
  function ListParking(o: ParkingOptions, gateway: Request -> Json): (r: Outcome<Parking>)
    ensures StatusContract(gateway(ListParkingRequest(o)), "message", "Data", ParkingFrom, r)
  {
    ParkingReply(gateway(ListParkingRequest(o)), ParkingFrom)
  }

  function ListStreetPoiParkingRequest(o: ParkingOptions): (req: Request)
    ensures ParkingCallTo(req, "list_street_poi_parking") && req.params == map[]
    ensures req.urlArgs.Keys == {"language", "address"} && LanguageFor(req.urlArgs["language"], o.lang)
    ensures req.urlArgs["address"] == o.address.GetOr(JStr(""))
  {
    ParkingCall("list_street_poi_parking",
                map["language" := LanguageParam(o.lang), "address" := o.address.GetOr(JStr(""))], map[])
  }

  /** `list_street_poi_parking`: addresses and points of interest matching
      an address. */
  function ListStreetPoiParking(o: ParkingOptions, gateway: Request -> Json): (r: Outcome<ParkingPoi>)
    ensures StatusContract(gateway(ListStreetPoiParkingRequest(o)), "message", "Data", ParkingPoiFrom, r)
  {
    ParkingReply(gateway(ListStreetPoiParkingRequest(o)), ParkingPoiFrom)
  }

  /** The `list_types_poi` request, sent to the `list_poi_types` endpoint. */
  function ListTypesPoiRequest(o: ParkingOptions): (req: Request)
    ensures ParkingCallTo(req, "list_poi_types") && req.params == map[]
    ensures req.urlArgs.Keys == {"language"} && LanguageFor(req.urlArgs["language"], o.lang)
  {
    ParkingCall("list_poi_types", map["language" := LanguageParam(o.lang)], map[])
  }

  /** `list_types_poi`: the families, types and categories of points of
      interest. */
  function ListTypesPoi(o: ParkingOptions, gateway: Request -> Json): (r: Outcome<ParkingPoiType>)
    ensures StatusContract(gateway(ListTypesPoiRequest(o)), "message", "Data", ParkingPoiTypeFrom, r)
  {
    ParkingReply(gateway(ListTypesPoiRequest(o)), ParkingPoiTypeFrom)
  }
}

=== FILE: pipeline.dfy ===
/** The three reply pipelines the endpoint operations share. Each takes the
    reply the gateway returned (`make_request`'s result, an arbitrary JSON
    value here), validates it under one convention, normalises the result
    field to a list and maps every item with an entity mapper. */
module Pipeline {
  import opened Wrappers
  import opened Json
  import opened Util
  import opened Types

  /** What an operation ends with: `(True, entities)`, `(False, message)`,
      or an exception raised on the way. */
  datatype Outcome<+T> = Success(entities: seq<T>) | Failure(message: Json) | Raised(error: PyError)

  /** A gateway call: an OpenBus service and endpoint with its parameters,
      or a parking endpoint with its URL arguments and parameters. */
  datatype Request =
    | OpenBus(service: string, endpoint: string, params: map<string, Json>)
    | ParkingCall(endpoint: string, urlArgs: map<string, Json>, params: map<string, Json>)

  /** `items` were mapped in order into `r`: success exactly when every item
      maps, with one entity per item in the same order; otherwise the error
      of the first item that does not map. */
  ghost predicate MappedInOrder<T>(items: seq<Json>, mapper: Fields -> Result<T>, r: Outcome<T>) {
    && (r.Success? <==> forall i :: 0 <= i < |items| ==> Unpack(items[i], mapper).Ok?)
    && (r.Success? ==> |r.entities| == |items|
                       && forall i :: 0 <= i < |items| ==> Unpack(items[i], mapper) == Ok(r.entities[i]))
    && (!r.Success? ==> exists k :: 0 <= k < |items| && Unpack(items[k], mapper).Err?
                                    && r == Raised(Unpack(items[k], mapper).error)
                                    && forall j :: 0 <= j < k ==> Unpack(items[j], mapper).Ok?)
  }

  /** The status-code convention (`resultCode`, or `code` in its absence):
      a reply that fails the check yields its message field or `UNKNOWN
      ERROR` (a reply that is not an object has no `get` and raises); a reply
      that passes without the result field raises `TypeError`, since
      `response_list` gives `None`; otherwise the normalised list is mapped in
      order. */
  ghost predicate StatusContract<T>(reply: Json, messageKey: string, resultKey: string,
                                    mapper: Fields -> Result<T>, r: Outcome<T>) {
    && (!reply.JObj? ==> r == Raised(AttributeError))
    && (reply.JObj? && !CheckResult(reply, "") ==>
          r == Failure(GetOr(reply.fields, messageKey, JStr("UNKNOWN ERROR"))))
    && (CheckResult(reply, "") && resultKey !in reply.fields ==> r == Raised(TypeError))
    && (CheckResult(reply, "") && resultKey in reply.fields ==>
          MappedInOrder(ListOf(reply.fields[resultKey]), mapper, r))
  }

  /** The key-presence convention: without the key (or without an object)
      the message is always `UNKNOWN ERROR`; with it, the normalised list is
      mapped in order. */
  ghost predicate KeyContract<T>(reply: Json, key: string, mapper: Fields -> Result<T>, r: Outcome<T>) {
    && (!(reply.JObj? && key in reply.fields) ==> r == Failure(JStr("UNKNOWN ERROR")))
    && (reply.JObj? && key in reply.fields ==> MappedInOrder(ListOf(reply.fields[key]), mapper, r))
  }

  /** No validation: the value under `key` (default the empty list) is
      iterated as it is, without normalisation; the result is never a
      failure message. */
  ghost predicate UncheckedContract<T>(reply: Json, key: string, mapper: Fields -> Result<T>, r: Outcome<T>) {
    && !r.Failure?
    && (!reply.JObj? ==> r == Raised(AttributeError))
    && (reply.JObj? && key !in reply.fields ==> r == Success([]))
    && (reply.JObj? && key in reply.fields && reply.fields[key].JList? ==>
          MappedInOrder(reply.fields[key].items, mapper, r))
    && (reply.JObj? && key in reply.fields && !reply.fields[key].JList? ==>
          r == (if reply.fields[key] in {JStr(""), JObj(map[])} then Success([]) else Raised(TypeError)))
  }

  /** A mapping result as an outcome. */
  function Finish<T>(mapped: Result<seq<T>>): (r: Outcome<T>)
    ensures mapped.Ok? ==> r == Success(mapped.value)
    ensures mapped.Err? ==> r == Raised(mapped.error)
  {
    match mapped
    case Ok(entities) => Success(entities)
    case Err(e) => Raised(e)
  }

  /** Mapping a list with `MapItems` and finishing it maps it in order. */
  lemma FinishMapsInOrder<T>(items: seq<Json>, mapper: Fields -> Result<T>)
    ensures MappedInOrder(items, mapper, Finish(MapItems(items, mapper)))
  {
    var mapped := MapItems(items, mapper);
    if mapped.Err? {
      var k :| 0 <= k < |items| && Unpack(items[k], mapper) == Err(mapped.error)
               && forall j :: 0 <= j < k ==> Unpack(items[j], mapper).Ok?;
      assert Unpack(items[k], mapper).Err?;
    }
  }

  /** The status-code pipeline of the OpenBus and parking operations. */
  function StatusReply<T>(reply: Json, messageKey: string, resultKey: string, mapper: Fields -> Result<T>): (r: Outcome<T>)
    ensures StatusContract(reply, messageKey, resultKey, mapper, r)
  {
    if !CheckResult(reply, "") then
      if reply.JObj? then Failure(GetOr(reply.fields, messageKey, JStr("UNKNOWN ERROR")))
      else Raised(AttributeError)
    else
      match ResponseList(reply.fields, resultKey)
      case None => Raised(TypeError)
      case Some(values) =>
        FinishMapsInOrder(values, mapper);
        Finish(MapItems(values, mapper))
  }

  /** The key-presence pipeline of the geo operations; it fails exactly
      when `check_result(reply, key)` does. */
  function KeyReply<T>(reply: Json, key: string, mapper: Fields -> Result<T>): (r: Outcome<T>)
    requires key != ""
    ensures KeyContract(reply, key, mapper, r)
    ensures r.Failure? <==> !CheckResult(reply, key)
  {
    if !CheckResult(reply, key) then Failure(JStr("UNKNOWN ERROR"))
    else
      var values := ResponseList(reply.fields, key).value;
      FinishMapsInOrder(values, mapper);
      Finish(MapItems(values, mapper))
  }

  /** The pipeline without validation of `get_poi_types`. */
  function UncheckedReply<T>(reply: Json, key: string, mapper: Fields -> Result<T>): (r: Outcome<T>)
    ensures UncheckedContract(reply, key, mapper, r)
  {
    match reply
    case JObj(fields) =>
      var values := GetOr(fields, key, JList([]));
      if values.JList? then FinishMapsInOrder(values.items, mapper); Finish(MapIterable(values, mapper))
      else Finish(MapIterable(values, mapper))
    case _ => Raised(AttributeError)
  }

  /** With the status-code convention a reply fails exactly when the check
      fails, and a present `resultCode` decides alone: a non-zero one fails
      the reply even next to `code: 0`. */
  lemma StatusFailsIffCheckFails<T>(reply: Json, messageKey: string, resultKey: string, mapper: Fields -> Result<T>)
    requires reply.JObj?
    ensures StatusReply(reply, messageKey, resultKey, mapper).Failure? <==> !CheckResult(reply, "")
    ensures "resultCode" in reply.fields && !EqualsInt(reply.fields["resultCode"], 0) ==>
              StatusReply(JObj(reply.fields["code" := JInt(0)]), messageKey, resultKey, mapper).Failure?
  {
    var r := StatusReply(reply, messageKey, resultKey, mapper);
    if CheckResult(reply, "") && resultKey in reply.fields {
      assert MappedInOrder(ListOf(reply.fields[resultKey]), mapper, r);
      assert !r.Failure?;
    }
    if "resultCode" in reply.fields && !EqualsInt(reply.fields["resultCode"], 0) {
      ResultCodeTakesPrecedence(reply.fields);
    }
  }
}

=== FILE: text.dfy ===
/** The string operations the client relies on: `str.strip()`,
    `str.replace('\\', '')`, `str.split(sep)`, `sep.join(...)`, `str(int)`
    and `int(str)`, written out over `seq<char>`. */
module Text {
  import opened Wrappers

  /** The characters for which Python's `str.isspace()` holds. */
  predicate IsSpace(c: char) {
    || ('\t' <= c <= '\r')
    || ('\U{1C}' <= c <= ' ')
    || c == '\U{85}' || c == '\U{A0}' || c == '\U{1680}'
    || ('\U{2000}' <= c <= '\U{200A}')
    || c == '\U{2028}' || c == '\U{2029}' || c == '\U{202F}' || c == '\U{205F}' || c == '\U{3000}'
  }

  /** `s.lstrip()`: drops the leading whitespace and nothing else. */
  function StripLeft(s: string): (r: string)
    ensures |r| <= |s| && r == s[|s| - |r|..]
    ensures r == [] || !IsSpace(r[0])
    ensures forall i :: 0 <= i < |s| - |r| ==> IsSpace(s[i])
  {
    if |s| > 0 && IsSpace(s[0]) then StripLeft(s[1..]) else s
  }

  /** `s.rstrip()`: drops the trailing whitespace and nothing else. */
  function StripRight(s: string): (r: string)
    ensures |r| <= |s| && r == s[..|r|]
    ensures r == [] || !IsSpace(r[|r| - 1])
    ensures forall i :: |r| <= i < |s| ==> IsSpace(s[i])
  {
    if |s| > 0 && IsSpace(s[|s| - 1]) then StripRight(s[..|s| - 1]) else s
  }

  /** `s.strip()`: what remains once whitespace is dropped at both ends
      neither starts nor ends with whitespace (StripSlice and
      StripCutsSpaces say it is the middle slice of `s`). */
  function Strip(s: string): (r: string)
    ensures |r| <= |s|
    ensures r == [] || (!IsSpace(r[0]) && !IsSpace(r[|r| - 1]))
  {
    StripRight(StripLeft(s))
  }

  /** A prefix of a suffix of `s` is a middle slice of `s`. */
  lemma PrefixOfSuffix(s: string, k: nat, t: string, r: string)
    requires k <= |s| && t == s[k..] && |r| <= |t| && r == t[..|r|]
    ensures k + |r| <= |s| && r == s[k..k + |r|]
    ensures forall i :: k + |r| <= i < |s| ==> s[i] == t[i - k]
  {
  }

  /** `Strip(s)` is the slice of `s` that starts after the leading
      whitespace. */
  lemma StripSlice(s: string)
    ensures var k := |s| - |StripLeft(s)|;
            var r := Strip(s);
            k + |r| <= |s| && r == s[k..k + |r|]
  {
    var t := StripLeft(s);
    PrefixOfSuffix(s, |s| - |t|, t, StripRight(t));
  }

  /** Everything `Strip(s)` cuts off on either side is whitespace. */
  lemma StripCutsSpaces(s: string)
    ensures var k := |s| - |StripLeft(s)|;
            && (forall i :: 0 <= i < k ==> IsSpace(s[i]))
            && (forall i :: k + |Strip(s)| <= i < |s| ==> IsSpace(s[i]))
  {
    var t := StripLeft(s);
    var r := StripRight(t);
    var k := |s| - |t|;
    PrefixOfSuffix(s, k, t, r);
    forall i | k + |r| <= i < |s|
      ensures IsSpace(s[i])
    {
      assert s[i] == t[i - k];
    }
  }

  /** Stripping what is already stripped changes nothing. */
  lemma StripIdempotent(s: string)
    ensures Strip(Strip(s)) == Strip(s)
  {
    var r := Strip(s);
    assert StripLeft(r) == r;
    assert StripRight(r) == r;
  }

  /** `s.replace(c, '')`: every occurrence of `c` is dropped and every other
      character is kept, as often as it occurs in `s`. */
  function RemoveAll(s: string, c: char): (r: string)
    ensures c !in r
    ensures forall x :: x != c ==> multiset(r)[x] == multiset(s)[x]
  {
    if |s| == 0 then []
    else
      var rest := RemoveAll(s[1..], c);
      assert s == [s[0]] + s[1..];
      if s[0] == c then rest else [s[0]] + rest
  }

  /** Removing a character that does not occur is the identity. */
  lemma {:induction false} RemoveAllAbsent(s: string, c: char)
    requires c !in s
    ensures RemoveAll(s, c) == s
  {
    if |s| > 0 {
      RemoveAllAbsent(s[1..], c);
    }
  }

  /** `s.replace('\\', '').strip()`: the escape cleaning applied to several
      backend fields. */
  function Clean(s: string): (r: string)
    ensures '\\' !in r
    ensures r == [] || (!IsSpace(r[0]) && !IsSpace(r[|r| - 1]))
  {
    var t := RemoveAll(s, '\\');
    StripKeepsAbsent(t, '\\');
    Strip(t)
  }

  /** Stripping never brings in a character the text did not hold. */
  lemma StripKeepsAbsent(s: string, c: char)
    requires c !in s
    ensures c !in Strip(s)
  {
    var t := StripLeft(s);
    assert t == s[|s| - |t|..];
    assert forall x :: x in t ==> x in s;
    var r := StripRight(t);
    assert r == t[..|r|];
    assert forall x :: x in r ==> x in t;
  }

  /** Cleaning an already cleaned string changes nothing. */
  lemma CleanIdempotent(s: string)
    ensures Clean(Clean(s)) == Clean(s)
  {
    var r := Clean(s);
    RemoveAllAbsent(r, '\\');
    StripIdempotent(RemoveAll(s, '\\'));
  }

  // ---------------------------------------------------------------------
  // Decimal integers: str(n) and int(s)
  // ---------------------------------------------------------------------

  predicate IsDigit(c: char) {
    '0' <= c <= '9'
  }

  function DigitValue(c: char): (d: nat)
    requires IsDigit(c)
    ensures d < 10
  {
    c as int - '0' as int
  }

  function DigitChar(d: nat): (c: char)
    requires d < 10
    ensures IsDigit(c) && DigitValue(c) == d
  {
    ('0' as int + d) as char
  }

  /** A non-empty run of decimal digits. */
  predicate IsNumeral(s: string) {
    |s| > 0 && forall i :: 0 <= i < |s| ==> IsDigit(s[i])
  }

  /** The shortest decimal rendering of a natural number. */
  function NatToString(n: nat): (r: string)
    ensures IsNumeral(r)
    ensures n < 10 <==> |r| == 1
  {
    if n < 10 then [DigitChar(n)] else NatToString(n / 10) + [DigitChar(n % 10)]
  }

  /** The value of a run of decimal digits; leading zeros are allowed. */
  function ParseNat(s: string): nat
    requires IsNumeral(s)
  {
    if |s| == 1 then DigitValue(s[0])
    else 10 * ParseNat(s[..|s| - 1]) + DigitValue(s[|s| - 1])
  }

  lemma {:induction false} ParseNatToString(n: nat)
    ensures ParseNat(NatToString(n)) == n
  {
    if n >= 10 {
      var prefix := NatToString(n / 10);
      var s := prefix + [DigitChar(n % 10)];
      assert s[..|s| - 1] == prefix;
      ParseNatToString(n / 10);
    }
  }

  /** `int(s)` on text: an optional sign followed by decimal digits;
      anything else is a `ValueError`, modelled here as `None`. */
  function ParseInt(s: string): Option<int> {
    if |s| > 0 && (s[0] == '-' || s[0] == '+') then
      if IsNumeral(s[1..]) then
        Some(if s[0] == '-' then -(ParseNat(s[1..]) as int) else ParseNat(s[1..]))
      else None
    else if IsNumeral(s) then Some(ParseNat(s))
    else None
  }

  /** `str(n)` / `'%d' % n`: a minus sign for negative numbers, then the
      digits; parsing the rendering gives `n` back. */
  function IntToString(n: int): (r: string)
    ensures ParseInt(r) == Some(n)
    ensures |r| > 0
    ensures forall c :: c in r ==> IsDigit(c) || c == '-'
  {
    if n < 0 then
      var digits := NatToString(-n);
      ParseNatToString(-n);
      assert ("-" + digits)[1..] == digits;
      "-" + digits
    else
      ParseNatToString(n);
      NatToString(n)
  }

  // ---------------------------------------------------------------------
  // str.split(sep) and sep.join(parts)
  // ---------------------------------------------------------------------

  /** `s.split(sep)` for a single-character separator: the pieces between
      separators, including empty ones, so there is always at least one. */
  function Split(s: string, sep: char): (r: seq<string>)
    ensures |r| >= 1
    ensures forall i :: 0 <= i < |r| ==> sep !in r[i]
  {
    if |s| == 0 then [""]
    else
      var rest := Split(s[1..], sep);
      if s[0] == sep then [""] + rest else [[s[0]] + rest[0]] + rest[1..]
  }

  /** `sep.join(parts)`: the parts with one separator between neighbours. */
  function Join(parts: seq<string>, sep: char): string {
    if |parts| == 0 then ""
    else if |parts| == 1 then parts[0]
    else parts[0] + [sep] + Join(parts[1..], sep)
  }

  /** A separator-free prefix glues onto the first piece of what follows. */
  lemma {:induction false} SplitPrefix(p: string, t: string, sep: char)
    requires sep !in p
    ensures Split(p + t, sep) == [p + Split(t, sep)[0]] + Split(t, sep)[1..]
  {
    if |p| > 0 {
      assert (p + t)[1..] == p[1..] + t;
      SplitPrefix(p[1..], t, sep);
      assert [p[0]] + (p[1..] + Split(t, sep)[0]) == p + Split(t, sep)[0];
    } else {
      assert p + t == t;
      var pieces := Split(t, sep);
      assert p + pieces[0] == pieces[0];
      assert pieces == [pieces[0]] + pieces[1..];
    }
  }

  /** Splitting a join of separator-free parts gives the parts back. */
  lemma {:induction false} SplitJoin(parts: seq<string>, sep: char)
    requires |parts| >= 1
    requires forall i :: 0 <= i < |parts| ==> sep !in parts[i]
    ensures Split(Join(parts, sep), sep) == parts
  {
    if |parts| == 1 {
      SplitPrefix(parts[0], "", sep);
      assert Split("", sep) == [""];
      assert parts[0] + "" == parts[0];
      assert Join(parts, sep) == parts[0];
      assert [parts[0] + ""] + [""][1..] == parts;
    } else {
      var tail := Join(parts[1..], sep);
      SplitJoin(parts[1..], sep);
      assert parts[0] + [sep] + tail == parts[0] + ([sep] + tail);
      SplitPrefix(parts[0], [sep] + tail, sep);
      assert ([sep] + tail)[1..] == tail;
      assert Split([sep] + tail, sep) == [""] + Split(tail, sep);
      assert parts[0] + "" == parts[0];
      assert parts == [parts[0]] + parts[1..];
    }
  }

  /** Joining the pieces of a split gives the original text back. */
  lemma {:induction false} JoinSplit(s: string, sep: char)
    ensures Join(Split(s, sep), sep) == s
  {
    if |s| > 0 {
      var rest := Split(s[1..], sep);
      JoinSplit(s[1..], sep);
      if s[0] == sep {
        assert Join([""] + rest, sep) == "" + [sep] + Join(rest, sep);
        assert s == [sep] + s[1..];
      } else {
        var parts := [[s[0]] + rest[0]] + rest[1..];
        if |rest| == 1 {
          assert Join(rest, sep) == rest[0];
        } else {
          assert rest == [rest[0]] + rest[1..];
          assert Join(rest, sep) == rest[0] + [sep] + Join(rest[1..], sep);
          assert parts[1..] == rest[1..];
        }
        assert s == [s[0]] + s[1..];
      }
    }
  }
}

=== FILE: types.dfy ===
/** The typed entities of the client and the mappers that build them from
    one raw JSON object each (`Entity(**item)` in the client). Every entity
    keeps the raw object it was built from in `json`. A mapper that raises
    in the client returns `Err` here, with the exception of the first
    statement that raises. Attributes the client leaves unset are `None`. */
module Types {
  import opened Wrappers
  import opened Text
  import opened Json
  import opened CodeTables

  type Fields = map<string, Json>

  // ---------------------------------------------------------------------
  // Comprehensions over raw items
  // ---------------------------------------------------------------------

  /** `[f(**a) for a in items]`: every item mapped in order; the first item
      that is not an object, or that `f` rejects, raises. */
  function MapItems<T>(items: seq<Json>, f: Fields -> Result<T>): (r: Result<seq<T>>)
    ensures r.Ok? <==> forall i :: 0 <= i < |items| ==> Unpack(items[i], f).Ok?
    ensures r.Ok? ==> |r.value| == |items|
    ensures r.Ok? ==> forall i :: 0 <= i < |items| ==> r.value[i] == Unpack(items[i], f).value
    ensures r.Err? ==> exists k :: 0 <= k < |items| && Unpack(items[k], f) == Err(r.error)
                                   && forall j :: 0 <= j < k ==> Unpack(items[j], f).Ok?
  {
    MapAll(items, item => Unpack(item, f))
  }

  /** `[f(**a) for a in v]` for a value of any shape: a list is mapped item
      by item; an empty text or object yields nothing; a non-empty text or
      object yields text items that cannot be unpacked, and anything else is
      not iterable, so both raise `TypeError`. */
  function MapIterable<T>(v: Json, f: Fields -> Result<T>): (r: Result<seq<T>>)
    ensures v.JList? ==> r == MapItems(v.items, f)
    ensures v == JStr("") || v == JObj(map[]) ==> r == Ok([])
    ensures !v.JList? && v != JStr("") && v != JObj(map[]) ==> r == Err(TypeError)
  {
    match v
    case JList(items) => MapItems(items, f)
    case JStr(s) => if s == "" then Ok([]) else Err(TypeError)
    case JObj(fields) => if fields == map[] then Ok([]) else Err(TypeError)
    case _ => Err(TypeError)
  }

  // ---------------------------------------------------------------------
  // Bus service entities
  // ---------------------------------------------------------------------

  /** A bus about to arrive at a stop. */
  datatype Arrival = Arrival(
    stopId: Json, lineId: Json, isHead: bool, destination: Json, busId: int,
    timeLeft: Json, distance: Json, longitude: Json, latitude: Json,
    positionType: Option<string>, json: Fields)

  /** `Arrival(**m)`: only the `busId` coercion can raise. `isHead` is
      false exactly for the text `False` (so an absent marker means true);
      the position type is set only for 0 and 1. */
  function ArrivalFrom(m: Fields): (r: Result<Arrival>)
    ensures r.Ok? <==> IntOr(m, "busId", -1).Ok?
    ensures "busId" !in m ==> r.Ok? && r.value.busId == -1
    ensures r.Ok? ==> r.value.busId == IntOr(m, "busId", -1).value
    ensures r.Ok? ==> (!r.value.isHead <==> Get(m, "isHead") == JStr("False"))
    ensures r.Ok? ==> (r.value.positionType == Some("real") <==> EqualsInt(Get(m, "busPositionType"), 0))
    ensures r.Ok? ==> (r.value.positionType == Some("estimate") <==> EqualsInt(Get(m, "busPositionType"), 1))
    ensures r.Ok? ==> (r.value.positionType.None? <==>
                        !EqualsInt(Get(m, "busPositionType"), 0) && !EqualsInt(Get(m, "busPositionType"), 1))
    ensures r.Ok? ==> r.value.json == m
  {
    var busId :- IntOr(m, "busId", -1);
    var pos := Get(m, "busPositionType");
    var positionType :=
      if EqualsInt(pos, 0) then Some("real")
      else if EqualsInt(pos, 1) then Some("estimate")
      else None;
    Ok(Arrival(Get(m, "stopId"), Get(m, "lineId"), Get(m, "isHead") != JStr("False"),
               Get(m, "destination"), busId, Get(m, "busTimeLeft"), Get(m, "busDistance"),
               Get(m, "longitude"), Get(m, "latitude"), positionType, m))
  }

  /** A group of bus lines. */
  datatype BusGroupItem = BusGroupItem(id: int, description: string, json: Fields)

  /** `BusGroupItem(**m)`: `groupId` must be present and convertible and the
      description must be text, or it raises. */
  function BusGroupItemFrom(m: Fields): (r: Result<BusGroupItem>)
    ensures r.Ok? <==> ToInt(Get(m, "groupId")).Ok? && Get(m, "groupDescription").JStr?
    ensures "groupId" !in m ==> r == Err(TypeError)
    ensures r.Ok? ==> r.value.id == ToInt(m["groupId"]).value
    ensures r.Ok? ==> r.value.description == Strip(m["groupDescription"].s)
  {
    var id :- ToInt(Get(m, "groupId"));
    var description :- StripText(Get(m, "groupDescription"));
    Ok(BusGroupItem(id, description, m))
  }

  /** One day of the EMT calendar. */
  datatype CalendarItem = CalendarItem(
    date: string, week: Json, month: Json, trimester: Json, quarter: Json,
    semester: Json, year: Json, dayType: string, strike: Option<bool>,
    dayOfWeek: string, json: Fields)

  /** `CalendarItem(**m)`: the strike marker defaults to `N`, so an absent
      marker means no strike; a marker other than `Y` or `N` leaves `strike`
      unset. */
  function CalendarItemFrom(m: Fields): (r: Result<CalendarItem>)
    ensures r.Ok? <==> CleanOr(m, "date").Ok? && Hashable(Get(m, "typeDay")) && Hashable(Get(m, "dayOfWeek"))
    ensures r.Ok? ==> r.value.date == CleanOr(m, "date").value && '\\' !in r.value.date
    ensures r.Ok? && "date" !in m ==> r.value.date == ""
    ensures r.Ok? ==> (r.value.strike == Some(true) <==> "strike" in m && m["strike"] == JStr("Y"))
    ensures r.Ok? ==> (r.value.strike == Some(false) <==> "strike" !in m || m["strike"] == JStr("N"))
    ensures r.Ok? ==> r.value.dayType == DayTypeOf(Get(m, "typeDay")).value
    ensures r.Ok? ==> r.value.dayOfWeek == WeekDayOf(Get(m, "dayOfWeek")).value
  {
    var date :- CleanOr(m, "date");
    var dayType :- DayTypeOf(Get(m, "typeDay"));
    var onStrike := GetOr(m, "strike", JStr("N"));
    var strike :=
      if onStrike == JStr("Y") then Some(true)
      else if onStrike == JStr("N") then Some(false)
      else None;
    var dayOfWeek :- WeekDayOf(Get(m, "dayOfWeek"));
    Ok(CalendarItem(date, Get(m, "week"), Get(m, "month"), Get(m, "trimester"),
                    Get(m, "quarter"), Get(m, "semester"), Get(m, "year"),
                    dayType, strike, dayOfWeek, m))
  }

  /** The service of a line in one direction. */
  datatype Direction = Direction(
    startTime: Json, endTime: Json, minimumFrequency: Json, maximumFrequency: Json,
    frequencyDescription: string, json: Fields)

  /** `Direction(**m)`: only a non-text frequency description raises. */
  function DirectionFrom(m: Fields): (r: Result<Direction>)
    ensures r.Ok? <==> "frequencyDescription" !in m || m["frequencyDescription"].JStr?
    ensures "frequencyDescription" !in m ==> r.Ok? && r.value.frequencyDescription == ""
    ensures r.Ok? ==> r.value.frequencyDescription == CleanOr(m, "frequencyDescription").value
                      && '\\' !in r.value.frequencyDescription
  {
    var description :- CleanOr(m, "frequencyDescription");
    Ok(Direction(Get(m, "startTime"), Get(m, "endTime"), Get(m, "minimumFrequency"),
                 Get(m, "maximumFrequency"), description, m))
  }

  /** A day type of a line with the service in both directions. */
  datatype DayType = DayType(dayType: string, dirForward: Direction, dirBackward: Direction, json: Fields)

  /** `DayType(**m)`: both `direction1` and `direction2` must be objects that
      map to directions. */
  function DayTypeFrom(m: Fields): (r: Result<DayType>)
    ensures r.Ok? <==> Hashable(Get(m, "dayTypeId"))
                       && Unpack(Get(m, "direction1"), DirectionFrom).Ok?
                       && Unpack(Get(m, "direction2"), DirectionFrom).Ok?
    ensures "direction1" !in m && Hashable(Get(m, "dayTypeId")) ==> r == Err(TypeError)
    ensures r.Ok? ==> r.value.dayType == DayTypeOf(Get(m, "dayTypeId")).value
    ensures r.Ok? ==> r.value.dirForward == Unpack(Get(m, "direction1"), DirectionFrom).value
    ensures r.Ok? ==> r.value.dirBackward == Unpack(Get(m, "direction2"), DirectionFrom).value
    ensures r.Ok? ==> r.value.dirForward.json == m["direction1"].fields
    ensures r.Ok? ==> r.value.dirBackward.json == m["direction2"].fields
  {
    var dayType :- DayTypeOf(Get(m, "dayTypeId"));
    var forward :- Unpack(Get(m, "direction1"), DirectionFrom);
    var backward :- Unpack(Get(m, "direction2"), DirectionFrom);
    Ok(DayType(dayType, forward, backward, m))
  }

  /** How the date of a line is reported: a millisecond timestamp in the
      extended reply (the conversion to local time is not modelled) or a
      formatted text in the basic one. */
  datatype LineDate = Timestamp(millis: Json) | DateText(text: string)

  /** A bus line. */
  datatype Line = Line(
    id: Json, lineLabel: Json, headerA: Json, headerB: Json, incidents: Json,
    date: Option<LineDate>, dayTypes: seq<DayType>, json: Fields)

  /** `Line(**m)`: `date` wins over `string` when both are present; with
      neither the date stays unset. The day types default to none. */
  function LineFrom(m: Fields): (r: Result<Line>)
    ensures r.Ok? <==> && (if "date" in m then m["date"].JInt? || m["date"].JFloat? || m["date"].JBool?
                           else "string" in m ==> m["string"].JStr?)
                       && MapIterable(GetOr(m, "dayType", JList([])), DayTypeFrom).Ok?
    ensures "date" !in m && "string" in m && !m["string"].JStr? ==> r == Err(AttributeError)
    ensures "date" in m && r.Ok? ==> r.value.date == Some(Timestamp(m["date"]))
    ensures "date" in m && !(m["date"].JInt? || m["date"].JFloat? || m["date"].JBool?) ==> r == Err(TypeError)
    ensures "date" !in m && "string" in m && r.Ok? ==>
              m["string"].JStr? && r.value.date == Some(DateText(Clean(m["string"].s)))
    ensures "date" !in m && "string" !in m && r.Ok? ==> r.value.date == None
    ensures "dayType" !in m && r.Ok? ==> r.value.dayTypes == []
    ensures r.Ok? && "dayType" in m && m["dayType"].JList? ==>
              MapItems(m["dayType"].items, DayTypeFrom) == Ok(r.value.dayTypes)
  {
    var date :-
      if "date" in m then
        var millis := m["date"];
        if millis.JInt? || millis.JFloat? || millis.JBool? then Ok(Some(Timestamp(millis))) else Err(TypeError)
      else if "string" in m then
        var text :- CleanText(m["string"]);
        Ok(Some(DateText(text)))
      else Ok(None);
    var dayTypes :- MapIterable(GetOr(m, "dayType", JList([])), DayTypeFrom);
    Ok(Line(Get(m, "lineId"), Get(m, "label"), Get(m, "headerA"), Get(m, "headerB"),
            Get(m, "incidents"), date, dayTypes, m))
  }

  /** A line serving a stop. */
  datatype LineInfo = LineInfo(
    line: int, lineLabel: Json, headerA: Json, headerB: Json, startTime: Json, endTime: Json,
    minimumFrequency: int, maximumFrequency: int, dayType: string,
    direction: Option<string>, json: Fields)

  /** `LineInfo(**m)`: the line number `name` is required; the frequencies
      default to -1; direction `A` (also when absent) is forward, `B` is
      backward, anything else leaves it unset. */
  function LineInfoFrom(m: Fields): (r: Result<LineInfo>)
    ensures "name" !in m ==> r == Err(TypeError)
    ensures r.Ok? <==> ToInt(Get(m, "name")).Ok? && IntOr(m, "minimumFrequency", -1).Ok?
                       && IntOr(m, "maximumFrequency", -1).Ok? && Hashable(Get(m, "typeDay"))
    ensures r.Ok? ==> r.value.line == ToInt(m["name"]).value
    ensures r.Ok? ==> r.value.dayType == DayTypeOf(Get(m, "typeDay")).value
    ensures r.Ok? ==> r.value.minimumFrequency == IntOr(m, "minimumFrequency", -1).value
                      && r.value.maximumFrequency == IntOr(m, "maximumFrequency", -1).value
    ensures r.Ok? && "minimumFrequency" !in m ==> r.value.minimumFrequency == -1
    ensures r.Ok? && "maximumFrequency" !in m ==> r.value.maximumFrequency == -1
    ensures r.Ok? ==> (r.value.direction == Some("forward") <==> "direction" !in m || m["direction"] == JStr("A"))
    ensures r.Ok? ==> (r.value.direction == Some("backward") <==> "direction" in m && m["direction"] == JStr("B"))
    ensures r.Ok? ==> (r.value.direction.None? <==> "direction" in m && m["direction"] !in {JStr("A"), JStr("B")})
  {
    var line :- ToInt(Get(m, "name"));
    var minimumFrequency :- IntOr(m, "minimumFrequency", -1);
    var maximumFrequency :- IntOr(m, "maximumFrequency", -1);
    var dayType :- DayTypeOf(Get(m, "typeDay"));
    var direction := GetOr(m, "direction", JStr("A"));
    Ok(LineInfo(line, Get(m, "label"), Get(m, "headerA"), Get(m, "headerB"),
                Get(m, "startTime"), Get(m, "stopTime"), minimumFrequency, maximumFrequency,
                dayType,
                if direction == JStr("A") then Some("forward")
                else if direction == JStr("B") then Some("backward")
                else None,
                m))
  }

  /** A line in the list of lines. */
  datatype ListLineInfo = ListLineInfo(
    group: int, startDate: string, endDate: string, line: int,
    lineLabel: Json, headerA: Json, headerB: Json, json: Fields)

  /** `ListLineInfo(**m)`: group and line numbers default to 0, the dates
      to the empty text. */
  function ListLineInfoFrom(m: Fields): (r: Result<ListLineInfo>)
    ensures r.Ok? <==> IntOr(m, "groupNumber", 0).Ok? && CleanOr(m, "dateFirst").Ok?
                       && CleanOr(m, "dateEnd").Ok? && IntOr(m, "line", 0).Ok?
    ensures r.Ok? && "groupNumber" !in m ==> r.value.group == 0
    ensures r.Ok? && "line" !in m ==> r.value.line == 0
    ensures r.Ok? ==> r.value.group == IntOr(m, "groupNumber", 0).value && r.value.line == IntOr(m, "line", 0).value
    ensures r.Ok? && "dateFirst" !in m ==> r.value.startDate == ""
    ensures r.Ok? && "dateEnd" !in m ==> r.value.endDate == ""
    ensures r.Ok? ==> r.value.startDate == CleanOr(m, "dateFirst").value && r.value.endDate == CleanOr(m, "dateEnd").value
    ensures r.Ok? ==> '\\' !in r.value.startDate && '\\' !in r.value.endDate
  {
    var group :- IntOr(m, "groupNumber", 0);
    var startDate :- CleanOr(m, "dateFirst");
    var endDate :- CleanOr(m, "dateEnd");
    var line :- IntOr(m, "line", 0);
    Ok(ListLineInfo(group, startDate, endDate, line, Get(m, "label"), Get(m, "nameA"), Get(m, "nameB"), m))
  }

  // ---------------------------------------------------------------------
  // NodeLinesItem: the one mapper built by a loop
  // ---------------------------------------------------------------------

  /** A line through a node: its number and `forward` or `backward`. */
  type NodeLine = (int, string)

  /** The loop body of `NodeLinesItem` for one entry: a falsy entry is
      skipped (`None`); otherwise the cleaned text `"<id>/<d>"` gives the
      line number and `forward` for digit `1`, `backward` for anything
      else. Non-text raises `AttributeError`, a missing `/` `IndexError`, a
      bad number `ValueError`. */
  function NodeLineEntry(entry: Json): (r: Result<Option<NodeLine>>)
    ensures !Truthy(entry) ==> r == Ok(None)
    ensures Truthy(entry) && r.Ok? ==> r.value.Some?
    ensures Truthy(entry) && !entry.JStr? ==> r == Err(AttributeError)
    ensures Truthy(entry) && entry.JStr? ==>
              var parts := Split(Clean(entry.s), '/');
              && (|parts| < 2 ==> r == Err(IndexError))
              && (|parts| >= 2 && ParseInt(parts[0]).None? ==> r == Err(ValueError))
              && (|parts| >= 2 && ParseInt(parts[0]).Some? ==> r.Ok?)
    ensures r.Ok? && r.value.Some? ==>
              var parts := Split(Clean(entry.s), '/');
              && |parts| >= 2
              && ParseInt(parts[0]) == Some(r.value.value.0)
              && (r.value.value.1 == "forward" <==> parts[1] == "1")
              && (r.value.value.1 == "backward" <==> parts[1] != "1")
  {
    if !Truthy(entry) then Ok(None)
    else
      var text :- CleanText(entry);
      var elements := Split(text, '/');
      if |elements| < 2 then Err(IndexError)
      else
        var direction := if elements[1] == "1" then "forward" else "backward";
        match ParseInt(elements[0])
        case Some(id) => Ok(Some((id, direction)))
        case None => Err(ValueError)
  }

  /** What one visited entry contributes: nothing when it is skipped. */
  function Found<T>(x: Option<T>): seq<T> {
    if x.Some? then [x.value] else []
  }

  /** A walk over entries that maps each one with `step`, keeps what it
      finds in order, and stops at the first entry that raises. */
  function Walk<T>(entries: seq<Json>, step: Json -> Result<Option<T>>): Result<seq<T>> {
    if |entries| == 0 then Ok([])
    else
      var first :- step(entries[0]);
      var rest :- Walk(entries[1..], step);
      Ok(Found(first) + rest)
  }

  /** An entry that raises after entries that do not decides the error of
      the whole walk. */
  lemma {:induction false} WalkFirstError<T>(entries: seq<Json>, step: Json -> Result<Option<T>>, i: nat)
    requires i < |entries|
    requires Walk(entries[..i], step).Ok? && step(entries[i]).Err?
    ensures Walk(entries, step) == Err(step(entries[i]).error)
  {
    if i > 0 {
      assert entries[..i][0] == entries[0];
      assert entries[..i][1..] == entries[1..][..i - 1];
      WalkFirstError(entries[1..], step, i - 1);
    }
  }

  /** An entry that does not raise, added at the end, adds what it finds at
      the end. */
  lemma {:induction false} WalkAppend<T>(entries: seq<Json>, last: Json, step: Json -> Result<Option<T>>)
    requires Walk(entries, step).Ok? && step(last).Ok?
    ensures Walk(entries + [last], step) == Ok(Walk(entries, step).value + Found(step(last).value))
  {
    var whole := entries + [last];
    if |entries| == 0 {
      assert whole == [last];
      assert Walk(whole[1..], step) == Ok([]);
      var x := Found(step(last).value);
      assert Walk(whole, step) == Ok(x + []);
      assert x + [] == [] + x;
    } else {
      assert whole[0] == entries[0];
      assert whole[1..] == entries[1..] + [last];
      var first := Found(step(entries[0]).value);
      var middle := Walk(entries[1..], step).value;
      var x := Found(step(last).value);
      WalkAppend(entries[1..], last, step);
      assert first + (middle + x) == (first + middle) + x;
    }
  }

  /** When `step` skips exactly the falsy entries and no entry raises, the
      walk finds one item per truthy entry, in entry order. */
  lemma {:induction false} WalkOrder<T>(entries: seq<Json>, step: Json -> Result<Option<T>>)
    requires forall e :: !Truthy(e) ==> step(e) == Ok(None)
    requires forall e :: Truthy(e) && step(e).Ok? ==> step(e).value.Some?
    requires Walk(entries, step).Ok?
    ensures var found := Walk(entries, step).value;
            var kept := TruthyEntries(entries);
            && |found| == |kept|
            && forall i :: 0 <= i < |kept| ==> step(kept[i]) == Ok(Some(found[i]))
  {
    if |entries| > 0 {
      WalkOrder(entries[1..], step);
      var e := entries[0];
      var rest := Walk(entries[1..], step).value;
      assert Walk(entries, step).value == Found(step(e).value) + rest;
      if Truthy(e) {
        assert TruthyEntries(entries) == [e] + TruthyEntries(entries[1..]);
        assert Found(step(e).value) == [step(e).value.value];
      } else {
        assert TruthyEntries(entries) == TruthyEntries(entries[1..]);
        assert Found(step(e).value) == [];
      }
    }
  }

  /** The entries that are not skipped. */
  function TruthyEntries(entries: seq<Json>): (r: seq<Json>)
    ensures |r| <= |entries|
    ensures forall e :: e in r ==> e in entries && Truthy(e)
    ensures forall e :: e in entries && Truthy(e) ==> e in r
    ensures (forall e :: e in entries ==> Truthy(e)) ==> r == entries
  {
    if |entries| == 0 then []
    else if Truthy(entries[0]) then [entries[0]] + TruthyEntries(entries[1..])
    else TruthyEntries(entries[1..])
  }

  /** Skipping works entry by entry: a new last entry is kept exactly when
      it is truthy. */
  lemma {:induction false} TruthyEntriesAppend(entries: seq<Json>, last: Json)
    ensures TruthyEntries(entries + [last]) == TruthyEntries(entries) + (if Truthy(last) then [last] else [])
    decreases |entries|
  {
    if |entries| == 0 {
      assert entries + [last] == [last];
    } else {
      assert (entries + [last])[1..] == entries[1..] + [last];
      TruthyEntriesAppend(entries[1..], last);
    }
  }

  /** The lines of a node from its entries. */
  function NodeLines(entries: seq<Json>): Result<seq<NodeLine>> {
    Walk(entries, NodeLineEntry)
  }

  /** When no entry raises, there is exactly one line per non-empty entry,
      in the order of the entries. */
  lemma NodeLinesOrder(entries: seq<Json>)
    requires NodeLines(entries).Ok?
    ensures var lines := NodeLines(entries).value;
            var kept := TruthyEntries(entries);
            && |lines| == |kept|
            && forall i :: 0 <= i < |kept| ==> NodeLineEntry(kept[i]) == Ok(Some(lines[i]))
  {
    WalkOrder(entries, NodeLineEntry);
  }

  /** The loop of `NodeLinesItem.__init__`: walks the entries, skips the
      falsy ones and appends one line per other entry; the first entry that
      raises ends the walk. */
  method CollectNodeLines(entries: seq<Json>) returns (r: Result<seq<NodeLine>>)
    ensures r == NodeLines(entries)
  {
    var lines: seq<NodeLine> := [];
    var i := 0;
    while i < |entries|
      invariant 0 <= i <= |entries|
      invariant Walk(entries[..i], NodeLineEntry) == Ok(lines)
    {
      var line := entries[i];
      var item := NodeLineEntry(line);
      if item.Err? {
        WalkFirstError(entries, NodeLineEntry, i);
        return Err(item.error);
      }
      WalkAppend(entries[..i], line, NodeLineEntry);
      assert entries[..i] + [line] == entries[..i + 1];
      if Truthy(line) {
        assert Found(item.value) == [item.value.value];
        lines := lines + [item.value.value];
      } else {
        assert lines + Found(item.value) == lines;
      }
      i := i + 1;
    }
    assert entries[..i] == entries;
    return Ok(lines);
  }

  /** A node with the lines that stop at it. */
  datatype NodeLinesItem = NodeLinesItem(
    id: Json, name: Json, latitude: Json, longitude: Json, lines: seq<NodeLine>, json: Fields)

  /** The entries a `for` loop visits: the items of a list, the characters
      of a text; an empty object has none, the keys of a non-empty one come
      in an order the model does not know; anything else is not iterable. */
  function LoopEntries(v: Json): (r: Result<seq<Json>>)
    ensures v.JList? ==> r == Ok(v.items)
    ensures v.JStr? ==> r.Ok? && |r.value| == |v.s| && forall i :: 0 <= i < |v.s| ==> r.value[i] == JStr([v.s[i]])
    ensures v == JObj(map[]) ==> r == Ok([])
    ensures v.JNull? || v.JBool? || v.JInt? || v.JFloat? ==> r == Err(TypeError)
  {
    match v
    case JList(items) => Ok(items)
    case JStr(s) => Ok(seq(|s|, i requires 0 <= i < |s| => JStr([s[i]])))
    case JObj(fields) => if fields == map[] then Ok([]) else Err(Unmodelled)
    case _ => Err(TypeError)
  }

  /** `NodeLinesItem(**m)`: the `lines` entries through the loop above. */
  function NodeLinesItemFrom(m: Fields): (r: Result<NodeLinesItem>)
    ensures "lines" !in m ==> r == Err(TypeError)
    ensures "lines" in m && m["lines"].JList? ==>
              (r.Ok? <==> NodeLines(m["lines"].items).Ok?)
    ensures r.Ok? && "lines" in m && m["lines"].JList? ==>
              var kept := TruthyEntries(m["lines"].items);
              && |r.value.lines| == |kept|
              && forall i :: 0 <= i < |kept| ==> NodeLineEntry(kept[i]) == Ok(Some(r.value.lines[i]))
  {
    var entries :- LoopEntries(Get(m, "lines"));
    var lines :- NodeLines(entries);
    NodeLinesOrder(entries);
    Ok(NodeLinesItem(Get(m, "node"), Get(m, "name"), Get(m, "latitude"), Get(m, "longitude"), lines, m))
  }

  /** One point of a line itinerary. */
  datatype RouteLinesItem = RouteLinesItem(
    id: Json, line: Json, distanceOrig: Json, distancePrev: Json, name: Json,
    latitude: Json, longitude: Json, nodeType: string, json: Fields)

  /** `RouteLinesItem(**m)`: the node type defaults to `forward_stop`. */
  function RouteLinesItemFrom(m: Fields): (r: Result<RouteLinesItem>)
    ensures r.Ok? <==> Hashable(Get(m, "secDetail"))
    ensures r.Ok? ==> r.value.nodeType == NodeTypeOf(Get(m, "secDetail")).value
    ensures "secDetail" !in m ==> r.Ok? && r.value.nodeType == "forward_stop"
  {
    var nodeType :- NodeTypeOf(Get(m, "secDetail"));
    Ok(RouteLinesItem(Get(m, "node"), Get(m, "line"), Get(m, "distance"),
                      Get(m, "distancePreviousStop"), Get(m, "name"),
                      Get(m, "latitude"), Get(m, "longitude"), nodeType, m))
  }

  /** First and last buses of a line. */
  datatype TimesLinesItem = TimesLinesItem(
    startDate: string, endDate: string, line: int, firstForward: string,
    firstBackward: string, lastForward: string, lastBackward: string,
    dayType: string, json: Fields)

  /** `TimesLinesItem(**m)`: the dates default to empty, the line to 0; the
      four times have no default and raise when absent. */
  function TimesLinesItemFrom(m: Fields): (r: Result<TimesLinesItem>)
    ensures r.Ok? ==> "timeFirstA" in m && "timeFirstB" in m && "timeEndA" in m && "timeEndB" in m
    ensures r.Ok? <==> CleanOr(m, "dateFirst").Ok? && CleanOr(m, "dateEnd").Ok? && IntOr(m, "line", 0).Ok?
                       && Get(m, "timeFirstA").JStr? && Get(m, "timeFirstB").JStr?
                       && Get(m, "timeEndA").JStr? && Get(m, "timeEndB").JStr?
                       && Hashable(Get(m, "typeId"))
    ensures r.Ok? ==> r.value.firstForward == Clean(m["timeFirstA"].s)
                      && r.value.firstBackward == Clean(m["timeFirstB"].s)
    ensures r.Ok? ==> r.value.lastForward == Clean(m["timeEndA"].s)
                      && r.value.lastBackward == Clean(m["timeEndB"].s)
    ensures r.Ok? ==> r.value.startDate == CleanOr(m, "dateFirst").value && r.value.endDate == CleanOr(m, "dateEnd").value
    ensures r.Ok? && "dateFirst" !in m ==> r.value.startDate == ""
    ensures r.Ok? && "dateEnd" !in m ==> r.value.endDate == ""
    ensures r.Ok? ==> r.value.line == IntOr(m, "line", 0).value
    ensures r.Ok? && "line" !in m ==> r.value.line == 0
    ensures r.Ok? ==> r.value.dayType == DayTypeOf(Get(m, "typeId")).value
  {
    var startDate :- CleanOr(m, "dateFirst");
    var endDate :- CleanOr(m, "dateEnd");
    var line :- IntOr(m, "line", 0);
    var firstForward :- CleanText(Get(m, "timeFirstA"));
    var firstBackward :- CleanText(Get(m, "timeFirstB"));
    var lastForward :- CleanText(Get(m, "timeEndA"));
    var lastBackward :- CleanText(Get(m, "timeEndB"));
    var dayType :- DayTypeOf(Get(m, "typeId"));
    Ok(TimesLinesItem(startDate, endDate, line, firstForward, firstBackward,
                      lastForward, lastBackward, dayType, m))
  }

  /** One trip of a line timetable. */
  datatype TimetableLinesItem = TimetableLinesItem(
    date: string, line: int, startTime: string, endTime: string,
    dayType: string, direction: Option<string>, json: Fields)

  /** `TimetableLinesItem(**m)`: the direction code is required; 1 is
      forward, 2 backward, anything else leaves the direction unset. */
  function TimetableLinesItemFrom(m: Fields): (r: Result<TimetableLinesItem>)
    ensures "direction" !in m && r.Err? ==> r.error in {AttributeError, TypeError, ValueError}
    ensures r.Ok? <==> CleanOr(m, "date").Ok? && IntOr(m, "line", 0).Ok? && CleanOr(m, "timeFirst").Ok?
                       && CleanOr(m, "timeEnd").Ok? && Hashable(Get(m, "typeDay")) && ToInt(Get(m, "direction")).Ok?
    ensures r.Ok? ==> "direction" in m
    ensures r.Ok? ==> (r.value.direction == Some("forward") <==> ToInt(m["direction"]) == Ok(1))
    ensures r.Ok? ==> (r.value.direction == Some("backward") <==> ToInt(m["direction"]) == Ok(2))
    ensures r.Ok? ==> ToInt(m["direction"]).Ok? && (r.value.direction.None? <==> ToInt(m["direction"]).value !in {1, 2})
    ensures r.Ok? && "line" !in m ==> r.value.line == 0
    ensures r.Ok? ==> r.value.line == IntOr(m, "line", 0).value
    ensures r.Ok? ==> r.value.date == CleanOr(m, "date").value
    ensures r.Ok? ==> r.value.startTime == CleanOr(m, "timeFirst").value && r.value.endTime == CleanOr(m, "timeEnd").value
    ensures r.Ok? ==> r.value.dayType == DayTypeOf(Get(m, "typeDay")).value
  {
    var date :- CleanOr(m, "date");
    var line :- IntOr(m, "line", 0);
    var startTime :- CleanOr(m, "timeFirst");
    var endTime :- CleanOr(m, "timeEnd");
    var dayType :- DayTypeOf(Get(m, "typeDay"));
    var direction :- ToInt(Get(m, "direction"));
    Ok(TimetableLinesItem(date, line, startTime, endTime, dayType,
                          if direction == 1 then Some("forward")
                          else if direction == 2 then Some("backward")
                          else None,
                          m))
  }

  // ---------------------------------------------------------------------
  // Geo service entities
  // ---------------------------------------------------------------------

  /** A group of the geo service. */
  datatype GeoGroupItem = GeoGroupItem(
    id: Json, subgroup: Json, startDate: Json, endDate: Json, description: Json, json: Fields)

  /** `GeoGroupItem(**m)`: field copies, never raises. */
  function GeoGroupItemFrom(m: Fields): (r: Result<GeoGroupItem>)
    ensures r.Ok? && r.value.json == m
  {
    Ok(GeoGroupItem(Get(m, "groupId"), Get(m, "subGroupId"), Get(m, "startDate"),
                    Get(m, "endDate"), Get(m, "description"), m))
  }

  /** A point of interest found around a location. */
  datatype Poi = Poi(
    id: Json, poiType: string, name: Json, address: Json, streetNumber: Json,
    phoneNumber: Json, latitude: Json, longitude: Json, json: Fields)

  /** `Poi(**m)`: every attribute is read from the `attributes` object
      (empty when absent); the type label defaults to the empty text. */
  function PoiFrom(m: Fields): (r: Result<Poi>)
    ensures r.Ok? <==> SubObject(m, "attributes").Ok?
                       && Hashable(GetOr(SubObject(m, "attributes").value, "poiType", JInt(-1)))
    ensures "attributes" !in m ==> r.Ok? && r.value.poiType == "" && r.value.id == JNull
    ensures r.Ok? ==> r.value.poiType == PoiTypeOf(GetOr(SubObject(m, "attributes").value, "poiType", JInt(-1))).value
  {
    var attrs :- SubObject(m, "attributes");
    var poiType :- PoiTypeOf(GetOr(attrs, "poiType", JInt(-1)));
    Ok(Poi(Get(attrs, "poiId"), poiType, Get(attrs, "name"), Get(attrs, "address"),
           Get(attrs, "streetNumber"), Get(attrs, "phoneNumber"),
           Get(attrs, "latitude"), Get(attrs, "longitude"), m))
  }

  /** A category of points of interest. */
  datatype PoiType = PoiType(id: Json, name: Json, json: Fields)

  /** `PoiType(**m)`: read from the `attributes` object. */
  function PoiTypeFrom(m: Fields): (r: Result<PoiType>)
    ensures r.Ok? <==> SubObject(m, "attributes").Ok?
    ensures r.Ok? ==> r.value.id == Get(SubObject(m, "attributes").value, "type")
  {
    var attrs :- SubObject(m, "attributes");
    Ok(PoiType(Get(attrs, "type"), Get(attrs, "name"), m))
  }

  /** The code -1 that stands in for a missing point of interest type is
      not a known type. */
  lemma UnknownPoiType()
    ensures PoiTypeOf(JInt(-1)) == Ok("")
  {
    assert forall n :: 1 <= n <= 17 ==> !EqualsInt(JInt(-1), n);
  }

  /** A street or a point of interest matching a search. */
  datatype Site = Site(
    id: int, name: Json, longitude: Json, latitude: Json, siteType: Option<string>,
    streetType: Json, numberType: Json, streetNumber: int, zipCode: int,
    poiType: string, poiAddress: Json, poiStreetNumber: int, poiDirection: Json,
    poiPhoneNumber: Json, json: Fields)

  /** `Site(**m)`: `C` is a street, `P` a point of interest, anything else
      leaves the type unset; both groups of attributes are filled in either
      case, the numbers defaulting to -1 (0 for the id). */
  function SiteFrom(m: Fields): (r: Result<Site>)
    ensures r.Ok? <==> IntOr(m, "siteId", 0).Ok? && IntOr(m, "streetNumber", -1).Ok?
                       && IntOr(m, "zipCode", -1).Ok? && IntOr(m, "poiType", -1).Ok?
                       && IntOr(m, "poiStreetNumber", -1).Ok?
    ensures r.Ok? && "siteId" !in m ==> r.value.id == 0
    ensures r.Ok? ==> r.value.id == IntOr(m, "siteId", 0).value
    ensures r.Ok? ==> r.value.streetNumber == IntOr(m, "streetNumber", -1).value
    ensures r.Ok? ==> r.value.zipCode == IntOr(m, "zipCode", -1).value
    ensures r.Ok? ==> r.value.poiStreetNumber == IntOr(m, "poiStreetNumber", -1).value
    ensures r.Ok? && "streetNumber" !in m ==> r.value.streetNumber == -1
    ensures r.Ok? && "zipCode" !in m ==> r.value.zipCode == -1
    ensures r.Ok? && "poiStreetNumber" !in m ==> r.value.poiStreetNumber == -1
    ensures r.Ok? && "poiType" !in m ==> r.value.poiType == ""
    ensures r.Ok? ==> r.value.poiType == PoiTypeOf(JInt(IntOr(m, "poiType", -1).value)).value
    ensures r.Ok? ==> (r.value.siteType == Some("street") <==> "site_type" in m && m["site_type"] == JStr("C"))
    ensures r.Ok? ==> (r.value.siteType == Some("poi") <==> "site_type" in m && m["site_type"] == JStr("P"))
    ensures r.Ok? ==> (r.value.siteType.None? <==> "site_type" !in m || m["site_type"] !in {JStr("C"), JStr("P")})
  {
    var id :- IntOr(m, "siteId", 0);
    var siteCode := GetOr(m, "site_type", JStr(""));
    var siteType :=
      if siteCode == JStr("C") then Some("street")
      else if siteCode == JStr("P") then Some("poi")
      else None;
    var streetNumber :- IntOr(m, "streetNumber", -1);
    var zipCode :- IntOr(m, "zipCode", -1);
    var poiCode :- IntOr(m, "poiType", -1);
    var poiType := PoiTypeOf(JInt(poiCode)).value;
    UnknownPoiType();
    var poiStreetNumber :- IntOr(m, "poiStreetNumber", -1);
    Ok(Site(id, Get(m, "description"), Get(m, "longitude"), Get(m, "latitude"), siteType,
            Get(m, "streetType"), Get(m, "numberType"), streetNumber, zipCode,
            poiType, Get(m, "poiAddress"), poiStreetNumber, Get(m, "poiDirection"),
            Get(m, "poiPhoneNumber"), m))
  }

  /** A bus stop. */
  datatype Stop = Stop(
    id: int, name: Json, address: Json, longitude: Json, latitude: Json,
    lines: Option<seq<LineInfo>>, json: Fields)

  /** `Stop(**m)`: `stopId` is required. A `line` list gives one line per
      item in order, a single object a one-line list; without `line` the
      lines stay unset. */
  function StopFrom(m: Fields): (r: Result<Stop>)
    ensures r.Ok? <==> && ToInt(Get(m, "stopId")).Ok?
                       && ("line" in m ==>
                             if m["line"].JList? then MapItems(m["line"].items, LineInfoFrom).Ok?
                             else Unpack(m["line"], LineInfoFrom).Ok?)
    ensures "stopId" !in m ==> r == Err(TypeError)
    ensures r.Ok? ==> ToInt(m["stopId"]) == Ok(r.value.id)
    ensures r.Ok? ==> (r.value.lines.None? <==> "line" !in m)
    ensures r.Ok? && "line" in m && m["line"].JList? ==>
              && r.value.lines.Some?
              && |r.value.lines.value| == |m["line"].items|
              && forall i :: 0 <= i < |m["line"].items| ==>
                   Unpack(m["line"].items[i], LineInfoFrom) == Ok(r.value.lines.value[i])
    ensures r.Ok? && "line" in m && !m["line"].JList? ==>
              m["line"].JObj? && LineInfoFrom(m["line"].fields).Ok?
              && r.value.lines == Some([LineInfoFrom(m["line"].fields).value])
  {
    var id :- ToInt(Get(m, "stopId"));
    var lines :-
      if "line" in m then
        if m["line"].JList? then
          var several :- MapItems(m["line"].items, LineInfoFrom);
          Ok(Some(several))
        else
          var single :- Unpack(m["line"], LineInfoFrom);
          Ok(Some([single]))
      else Ok(None);
    Ok(Stop(id, Get(m, "name"), Get(m, "postalAddress"), Get(m, "longitude"), Get(m, "latitude"), lines, m))
  }

  /** A street near a location. */
  datatype Street = Street(
    name: Json, streetType: Json, streetNumber: int, latitude: Json, longitude: Json, json: Fields)

  /** `Street(**m)`: read from the `attributes` object; the number defaults
      to -1. */
  function StreetFrom(m: Fields): (r: Result<Street>)
    ensures r.Ok? <==> SubObject(m, "attributes").Ok? && IntOr(SubObject(m, "attributes").value, "number", -1).Ok?
    ensures "attributes" !in m ==> r.Ok? && r.value.streetNumber == -1
    ensures r.Ok? ==> r.value.streetNumber == IntOr(SubObject(m, "attributes").value, "number", -1).value
    ensures r.Ok? && "number" !in SubObject(m, "attributes").value ==> r.value.streetNumber == -1
  {
    var attrs :- SubObject(m, "attributes");
    var streetNumber :- IntOr(attrs, "number", -1);
    Ok(Street(Get(attrs, "streetName"), Get(attrs, "streetType"), streetNumber,
              Get(attrs, "latitude"), Get(attrs, "longitude"), m))
  }

  // ---------------------------------------------------------------------
  // Parking service entities
  // ---------------------------------------------------------------------

  /** An element with an icon. */
  datatype IconDescription = IconDescription(
    classification: Json, classificationSpanish: Json, description: Json,
    iconName: Json, urlIcon: Json, json: Fields)

  /** `IconDescription(**m)`: field copies, never raises. */
  function IconDescriptionFrom(m: Fields): (r: Result<IconDescription>)
    ensures r.Ok? && r.value.json == m
  {
    Ok(IconDescription(Get(m, "classificationTranslated"), Get(m, "classification"),
                       Get(m, "description"), Get(m, "iconName"), Get(m, "urlIcon"), m))
  }

  /** A parking or point of interest around a location. */
  datatype InfoParkingPoi = InfoParkingPoi(
    id: Json, name: Json, address: Json, poiType: Json, typeCode: Json,
    administrativeArea: Json, areaCode: int, category: Json, categoryCode: Json,
    country: Json, email: Json, family: Json, familyCode: Json, fax: Json,
    urlIcon: Json, state: Json, telephone: Json, town: Json,
    latitude: PyFloat, longitude: PyFloat, json: Fields)

  /** `InfoParkingPoi(**m)`: the postal code defaults to -1, the
      coordinates to `0.0`. */
  function InfoParkingPoiFrom(m: Fields): (r: Result<InfoParkingPoi>)
    ensures r.Ok? <==> IntOr(m, "areaCode", -1).Ok? && CoordinateOf(m, "latitude").Ok? && CoordinateOf(m, "longitude").Ok?
    ensures r.Ok? && "areaCode" !in m ==> r.value.areaCode == -1
    ensures r.Ok? && "latitude" !in m ==> r.value.latitude == FloatOf(JStr("0.0"))
    ensures r.Ok? && "longitude" !in m ==> r.value.longitude == FloatOf(JStr("0.0"))
    ensures r.Ok? ==> r.value.areaCode == IntOr(m, "areaCode", -1).value
    ensures r.Ok? ==> r.value.latitude == CoordinateOf(m, "latitude").value
    ensures r.Ok? ==> r.value.longitude == CoordinateOf(m, "longitude").value
  {
    var areaCode :- IntOr(m, "areaCode", -1);
    var latitude :- CoordinateOf(m, "latitude");
    var longitude :- CoordinateOf(m, "longitude");
    Ok(InfoParkingPoi(Get(m, "id"), Get(m, "name"), Get(m, "address"), Get(m, "type"),
                      Get(m, "typeCode"), Get(m, "administrativeArea"), areaCode,
                      Get(m, "category"), Get(m, "categoryCode"), Get(m, "country"),
                      Get(m, "email"), Get(m, "familyName"), Get(m, "family"), Get(m, "fax"),
                      Get(m, "icon"), Get(m, "state"), Get(m, "telephone"), Get(m, "town"),
                      latitude, longitude, m))
  }

  /** A parking of the parking list. */
  datatype Parking = Parking(
    id: Json, name: Json, address: Json, parkingType: Json, administrativeArea: Json,
    areaCode: int, category: Json, country: Json, family: Json, familyCode: Json,
    nickname: Json, state: Json, town: Json, latitude: PyFloat, longitude: PyFloat, json: Fields)

  /** `Parking(**m)`: the postal code defaults to -1, the coordinates to
      `0.0`. */
  function ParkingFrom(m: Fields): (r: Result<Parking>)
    ensures r.Ok? <==> IntOr(m, "areaCode", -1).Ok? && CoordinateOf(m, "latitude").Ok? && CoordinateOf(m, "longitude").Ok?
    ensures r.Ok? && "areaCode" !in m ==> r.value.areaCode == -1
    ensures r.Ok? && "latitude" !in m ==> r.value.latitude == FloatOf(JStr("0.0"))
    ensures r.Ok? && "longitude" !in m ==> r.value.longitude == FloatOf(JStr("0.0"))
    ensures r.Ok? ==> r.value.areaCode == IntOr(m, "areaCode", -1).value
    ensures r.Ok? ==> r.value.latitude == CoordinateOf(m, "latitude").value
    ensures r.Ok? ==> r.value.longitude == CoordinateOf(m, "longitude").value
  {
    var areaCode :- IntOr(m, "areaCode", -1);
    var latitude :- CoordinateOf(m, "latitude");
    var longitude :- CoordinateOf(m, "longitude");
    Ok(Parking(Get(m, "id"), Get(m, "name"), Get(m, "address"), Get(m, "type"),
               Get(m, "administrativeArea"), areaCode, Get(m, "category"), Get(m, "country"),
               Get(m, "family"), Get(m, "familyCode"), Get(m, "nickName"), Get(m, "state"),
               Get(m, "town"), latitude, longitude, m))
  }

  /** An access to a parking. */
  datatype ParkingAccess = ParkingAccess(
    name: Json, address: Json, code: Json, urlIcon: Json,
    latitude: PyFloat, longitude: PyFloat, json: Fields)

  /** `ParkingAccess(**m)`: only the coordinate coercions can raise. */
  function ParkingAccessFrom(m: Fields): (r: Result<ParkingAccess>)
    ensures r.Ok? <==> CoordinateOf(m, "latitude").Ok? && CoordinateOf(m, "longitude").Ok?
    ensures r.Ok? ==> r.value.latitude == CoordinateOf(m, "latitude").value
    ensures r.Ok? ==> r.value.longitude == CoordinateOf(m, "longitude").value
  {
    var latitude :- CoordinateOf(m, "latitude");
    var longitude :- CoordinateOf(m, "longitude");
    Ok(ParkingAccess(Get(m, "name"), Get(m, "address"), Get(m, "code"), Get(m, "url_icon"),
                     latitude, longitude, m))
  }

  /** A feature of a parking. */
  datatype ParkingFeature = ParkingFeature(
    name: Json, code: Json, description: Json, field: Json, fieldSpanish: Json,
    urlIcon: Json, json: Fields)

  /** `ParkingFeature(**m)`: field copies, never raises. */
  function ParkingFeatureFrom(m: Fields): (r: Result<ParkingFeature>)
    ensures r.Ok? && r.value.json == m
  {
    Ok(ParkingFeature(Get(m, "name"), Get(m, "nameCode"), Get(m, "description"),
                      Get(m, "nameFieldTranslated"), Get(m, "nameField"), Get(m, "urlIcon"), m))
  }

  /** Occupation of one kind of slot. */
  datatype ParkingOccupation = ParkingOccupation(
    slotType: Json, code: Json, free: Json, moment: Json, renewalIndex: Json, json: Fields)

  /** `ParkingOccupation(**m)`: field copies, never raises. */
  function ParkingOccupationFrom(m: Fields): (r: Result<ParkingOccupation>)
    ensures r.Ok? && r.value.json == m
  {
    Ok(ParkingOccupation(Get(m, "name"), Get(m, "code"), Get(m, "free"), Get(m, "moment"),
                         Get(m, "renewal_index"), m))
  }

  /** A rate of a parking. */
  datatype ParkingRate = ParkingRate(
    description: Json, startMinutes: Json, endMinutes: Json, rateType: Json,
    rate: Json, scheduleStart: Json, scheduleEnd: Json, json: Fields)

  /** `ParkingRate(**m)`: field copies, never raises. */
  function ParkingRateFrom(m: Fields): (r: Result<ParkingRate>)
    ensures r.Ok? && r.value.json == m
  {
    Ok(ParkingRate(Get(m, "description"), Get(m, "minutesStayInitiation"), Get(m, "minutesStayEnd"),
                   Get(m, "periodPricing"), Get(m, "rate"), Get(m, "scheduleInitial"),
                   Get(m, "scheduleEnd"), m))
  }

  /** The details of a parking: identifiers at the top level, general
      attributes under `general`, and four lists of nested records. */
  datatype ParkingDetails = ParkingDetails(
    id: Json, name: Json, schedule: Json, address: Json, administrativeArea: Json,
    areaCode: Json, category: Json, categoryCode: Json, parkingType: Json, typeCode: Json,
    country: Json, family: Json, familyCode: Json, nickname: Json, state: Json, town: Json,
    latitude: PyFloat, longitude: PyFloat,
    accesses: seq<ParkingAccess>, features: seq<ParkingFeature>,
    occupation: seq<ParkingOccupation>, rates: seq<ParkingRate>, json: Fields)

  /** `ParkingDetails(**m)`: `general` defaults to the empty object and the
      four `lst*` lists to empty lists; each list is mapped item by item. */
  function ParkingDetailsFrom(m: Fields): (r: Result<ParkingDetails>)
    ensures r.Ok? <==> && SubObject(m, "general").Ok?
                       && CoordinateOf(SubObject(m, "general").value, "latitude").Ok?
                       && CoordinateOf(SubObject(m, "general").value, "longitude").Ok?
                       && MapIterable(GetOr(m, "lstAccess", JList([])), ParkingAccessFrom).Ok?
                       && MapIterable(GetOr(m, "lstFeatures", JList([])), ParkingFeatureFrom).Ok?
                       && MapIterable(GetOr(m, "lstOccupation", JList([])), ParkingOccupationFrom).Ok?
                       && MapIterable(GetOr(m, "lstRates", JList([])), ParkingRateFrom).Ok?
    ensures r.Ok? ==> r.value.address == Get(SubObject(m, "general").value, "address")
                      && r.value.id == Get(m, "id")
    ensures r.Ok? ==> r.value.latitude == CoordinateOf(SubObject(m, "general").value, "latitude").value
                      && r.value.longitude == CoordinateOf(SubObject(m, "general").value, "longitude").value
    ensures "general" !in m && r.Ok? ==> r.value.address == JNull && r.value.latitude == FloatOf(JStr("0.0"))
                                         && r.value.longitude == FloatOf(JStr("0.0"))
    ensures r.Ok? && "lstAccess" !in m ==> r.value.accesses == []
    ensures r.Ok? && "lstFeatures" !in m ==> r.value.features == []
    ensures r.Ok? && "lstOccupation" !in m ==> r.value.occupation == []
    ensures r.Ok? && "lstRates" !in m ==> r.value.rates == []
    ensures r.Ok? && "lstAccess" in m && m["lstAccess"].JList? ==>
              MapItems(m["lstAccess"].items, ParkingAccessFrom) == Ok(r.value.accesses)
    ensures r.Ok? && "lstFeatures" in m && m["lstFeatures"].JList? ==>
              MapItems(m["lstFeatures"].items, ParkingFeatureFrom) == Ok(r.value.features)
    ensures r.Ok? && "lstOccupation" in m && m["lstOccupation"].JList? ==>
              MapItems(m["lstOccupation"].items, ParkingOccupationFrom) == Ok(r.value.occupation)
    ensures r.Ok? && "lstRates" in m && m["lstRates"].JList? ==>
              MapItems(m["lstRates"].items, ParkingRateFrom) == Ok(r.value.rates)
  {
    var general :- SubObject(m, "general");
    var latitude :- CoordinateOf(general, "latitude");
    var longitude :- CoordinateOf(general, "longitude");
    var accesses :- MapIterable(GetOr(m, "lstAccess", JList([])), ParkingAccessFrom);
    var features :- MapIterable(GetOr(m, "lstFeatures", JList([])), ParkingFeatureFrom);
    var occupation :- MapIterable(GetOr(m, "lstOccupation", JList([])), ParkingOccupationFrom);
    var rates :- MapIterable(GetOr(m, "lstRates", JList([])), ParkingRateFrom);
    Ok(ParkingDetails(Get(m, "id"), Get(m, "name"), Get(m, "schedule"), Get(general, "address"),
                      Get(general, "administrativeArea"), Get(general, "areaCode"),
                      Get(general, "category"), Get(general, "categoryCode"), Get(general, "type"),
                      Get(general, "typeCode"), Get(general, "country"), Get(m, "family"),
                      Get(m, "familyCode"), Get(general, "nickName"), Get(general, "state"),
                      Get(general, "town"), latitude, longitude,
                      accesses, features, occupation, rates, m))
  }

  /** An address, point of interest or parking matching a search. */
  datatype ParkingPoi = ParkingPoi(
    id: Json, name: Json, address: Json, addressNumber: Json, kind: string,
    administrativeArea: Json, areaCode: int, category: Json, country: Json,
    email: Json, family: Json, familyCode: Json, fax: Json, urlIcon: Json,
    nickname: Json, state: Json, telephone: Json, town: Json,
    latitude: PyFloat, longitude: PyFloat, json: Fields)

  /** `ParkingPoi(**m)`: the kind defaults to `zone`, the postal code to -1. */
  function ParkingPoiFrom(m: Fields): (r: Result<ParkingPoi>)
    ensures r.Ok? <==> Hashable(Get(m, "type")) && IntOr(m, "areaCode", -1).Ok?
                       && CoordinateOf(m, "latitude").Ok? && CoordinateOf(m, "longitude").Ok?
    ensures r.Ok? ==> r.value.kind == ParkingPoiKindOf(GetOr(m, "type", JStr(""))).value
    ensures r.Ok? ==> r.value.kind in {"zone", "poi", "parking"}
    ensures r.Ok? && "type" !in m ==> r.value.kind == "zone"
    ensures r.Ok? && "areaCode" !in m ==> r.value.areaCode == -1
    ensures r.Ok? ==> r.value.areaCode == IntOr(m, "areaCode", -1).value
    ensures r.Ok? ==> r.value.latitude == CoordinateOf(m, "latitude").value
    ensures r.Ok? ==> r.value.longitude == CoordinateOf(m, "longitude").value
  {
    var kind :- ParkingPoiKindOf(GetOr(m, "type", JStr("")));
    var areaCode :- IntOr(m, "areaCode", -1);
    var latitude :- CoordinateOf(m, "latitude");
    var longitude :- CoordinateOf(m, "longitude");
    Ok(ParkingPoi(Get(m, "id"), Get(m, "name"), Get(m, "address"), Get(m, "addressNumber"), kind,
                  Get(m, "administrativeArea"), areaCode, Get(m, "category"), Get(m, "country"),
                  Get(m, "email"), Get(m, "family"), Get(m, "familyCode"), Get(m, "fax"),
                  Get(m, "neutralIcon"), Get(m, "nickName"), Get(m, "state"), Get(m, "telephone"),
                  Get(m, "town"), latitude, longitude, m))
  }

  /** A family, category and type of point of interest. */
  datatype ParkingPoiType = ParkingPoiType(
    name: Json, code: Json, category: Json, categoryCode: Json, family: Json,
    familyCode: Json, urlIcon: Json, json: Fields)

  /** `ParkingPoiType(**m)`: field copies, never raises. */
  function ParkingPoiTypeFrom(m: Fields): (r: Result<ParkingPoiType>)
    ensures r.Ok? && r.value.json == m
  {
    Ok(ParkingPoiType(Get(m, "type"), Get(m, "typeCode"), Get(m, "category"),
                      Get(m, "categoryCode"), Get(m, "family"), Get(m, "familyCode"),
                      Get(m, "neutralIcon"), m))
  }

  /** An image of a point of interest. */
  datatype PoiImage = PoiImage(description: Json, url: Json, json: Fields)

  /** `PoiImage(**m)`: field copies, never raises. */
  function PoiImageFrom(m: Fields): (r: Result<PoiImage>)
    ensures r.Ok? && r.value.json == m
  {
    Ok(PoiImage(Get(m, "description"), Get(m, "urlImage"), m))
  }

  /** The details of a point of interest: descriptive attributes under
      `poiDetailInfo`, the rest at the top level, plus its images. */
  datatype PoiDetails = PoiDetails(
    id: Json, name: Json, nameSpanish: Json, description: Json, schedule: Json,
    address: Json, administrativeArea: Json, areaCode: Json, category: Json,
    categoryCode: Json, poiType: Json, typeCode: Json, country: Json, email: Json,
    telephone: Json, fax: Json, urlIcon: Json, state: Json, town: Json,
    servicesPayment: Json, web: Json, latitude: Json, longitude: Json,
    images: seq<PoiImage>, json: Fields)

  /** `PoiDetails(**m)`: `poiDetailInfo` defaults to the empty object, the
      images to none; each image item is mapped in order. */
  function PoiDetailsFrom(m: Fields): (r: Result<PoiDetails>)
    ensures r.Ok? <==> SubObject(m, "poiDetailInfo").Ok?
                       && MapIterable(GetOr(m, "poiDetailImages", JList([])), PoiImageFrom).Ok?
    ensures r.Ok? ==> r.value.name == Get(SubObject(m, "poiDetailInfo").value, "nameTranslated")
                      && r.value.nameSpanish == Get(m, "name")
    ensures r.Ok? && "poiDetailImages" !in m ==> r.value.images == []
    ensures r.Ok? && "poiDetailImages" in m && m["poiDetailImages"].JList? ==>
              |r.value.images| == |m["poiDetailImages"].items|
              && forall i :: 0 <= i < |r.value.images| ==>
                   r.value.images[i].json == m["poiDetailImages"].items[i].fields
  {
    var info :- SubObject(m, "poiDetailInfo");
    var images :- MapIterable(GetOr(m, "poiDetailImages", JList([])), PoiImageFrom);
    Ok(PoiDetails(Get(m, "id"), Get(info, "nameTranslated"), Get(m, "name"),
                  Get(info, "description"), Get(info, "schedule"), Get(m, "address"),
                  Get(m, "administrativeArea"), Get(m, "areaCode"), Get(m, "category"),
                  Get(m, "categoryCode"), Get(m, "type"), Get(m, "typeCode"), Get(m, "country"),
                  Get(m, "email"), Get(m, "telephone"), Get(m, "fax"), Get(m, "icon"),
                  Get(m, "state"), Get(m, "town"), Get(info, "servicesPayment"), Get(info, "web"),
                  Get(m, "latitude"), Get(m, "longitude"), images, m))
  }
}

=== FILE: util.dfy ===
/** The reply helpers of the client: success detection under the three
    backend conventions, list normalisation of result fields, the date and
    date-time parameter formats, the `|`-joined integer lists and the small
    language and direction codes. */
module Util {
  import opened Wrappers
  import opened Text
  import opened Json

  // ---------------------------------------------------------------------
  // check_result
  // ---------------------------------------------------------------------

  /** `check_result(data, key)`. A non-empty `key` selects the key-presence
      convention; otherwise `resultCode` (OpenBus) is consulted first, and
      only in its absence `code` (parking). Anything that is not a JSON
      object fails. */
  function CheckResult(data: Json, key: string): (ok: bool)
    ensures ok ==> data.JObj?
    ensures data.JObj? && key != "" ==> (ok <==> key in data.fields)
    ensures data.JObj? && key == "" && "resultCode" in data.fields ==>
              (ok <==> EqualsInt(data.fields["resultCode"], 0))
    ensures data.JObj? && key == "" && "resultCode" !in data.fields && "code" in data.fields ==>
              (ok <==> EqualsInt(data.fields["code"], 0))
    ensures data.JObj? && key == "" && "resultCode" !in data.fields && "code" !in data.fields ==> !ok
  {
    if !data.JObj? then false
    else if key != "" then key in data.fields
    else if "resultCode" in data.fields then EqualsInt(GetOr(data.fields, "resultCode", JInt(-1)), 0)
    else if "code" in data.fields then EqualsInt(GetOr(data.fields, "code", JInt(-1)), 0)
    else false
  }

  /** A `resultCode` that is present and not zero makes the reply fail even
      when a `code` of zero is present as well: the two status fields are
      not alternatives, `resultCode` takes precedence. */
  lemma ResultCodeTakesPrecedence(fields: map<string, Json>)
    requires "resultCode" in fields && !EqualsInt(fields["resultCode"], 0)
    ensures !CheckResult(JObj(fields), "")
    ensures !CheckResult(JObj(fields["code" := JInt(0)]), "")
  {
    var withCode := fields["code" := JInt(0)];
    assert withCode["resultCode"] == fields["resultCode"];
  }

  // ---------------------------------------------------------------------
  // response_list
  // ---------------------------------------------------------------------

  /** The items of a value that the backend sends either as a list or, when
      there is exactly one, as the bare item. */
  function ListOf(v: Json): (r: seq<Json>)
    ensures v.JList? ==> r == v.items
    ensures !v.JList? ==> r == [v]
  {
    match v
    case JList(items) => items
    case _ => [v]
  }

  /** `response_list(data, key)`: `None` when the key is absent, otherwise
      the value as a list. */
  function ResponseList(data: map<string, Json>, key: string): (r: Option<seq<Json>>)
    ensures r.None? <==> key !in data
    ensures key in data && data[key].JList? ==> r == Some(data[key].items)
    ensures key in data && !data[key].JList? ==> r == Some([data[key]])
  {
    if key !in data then None else Some(ListOf(data[key]))
  }

  /** Normalising a field that already holds the normalised list changes
      nothing. */
  lemma ResponseListIdempotent(data: map<string, Json>, key: string)
    requires key in data
    ensures var items := ResponseList(data, key).value;
            ResponseList(data[key := JList(items)], key) == Some(items)
  {
  }

  // ---------------------------------------------------------------------
  // date_string and datetime_string
  // ---------------------------------------------------------------------

  /** `'%02d' % n`: at least two characters, zero-padded on the left, never
      truncated; parsing it gives `n` back. */
  function Pad2(n: int): (r: string)
    ensures |r| >= 2
    ensures 0 <= n < 100 ==> |r| == 2
    ensures ParseInt(r) == Some(n)
    ensures forall c :: c in r ==> IsDigit(c) || c == '-'
  {
    if 0 <= n < 10 then
      var r := "0" + NatToString(n);
      assert NatToString(n) == [DigitChar(n)];
      assert r == ['0', DigitChar(n)];
      assert IsNumeral(r) && r[..1] == "0";
      assert ParseNat(r) == 10 * ParseNat("0") + n;
      r
    else
      var r := IntToString(n);
      assert n >= 10 ==> r == NatToString(n);
      assert n < 0 ==> r == "-" + NatToString(-n);
      r
  }

  /** `date_string(day, month, year)`: `DD/MM/YYYY`. */
  function DateString(day: int, month: int, year: int): (r: string)
    ensures Split(r, '/') == [Pad2(day), Pad2(month), IntToString(year)]
  {
    var parts := [Pad2(day), Pad2(month), IntToString(year)];
    var r := Pad2(day) + "/" + Pad2(month) + "/" + IntToString(year);
    assert Join(parts, '/') == r by {
      assert Join(parts[2..], '/') == IntToString(year);
      assert Join(parts[1..], '/') == Pad2(month) + "/" + IntToString(year);
    }
    SplitJoin(parts, '/');
    r
  }

  /** Reading a formatted date back field by field gives the three numbers
      it was built from. */
  lemma DateStringRoundTrip(day: int, month: int, year: int)
    ensures var parts := Split(DateString(day, month, year), '/');
            && |parts| == 3
            && ParseInt(parts[0]) == Some(day)
            && ParseInt(parts[1]) == Some(month)
            && ParseInt(parts[2]) == Some(year)
  {
  }

  /** The clamped hour of `datetime_string`. */
  function ClampHour(hour: int): (h: int)
    ensures 0 <= h <= 23
    ensures 0 <= hour <= 23 ==> h == hour
    ensures !(0 <= hour <= 23) ==> h == 0
  {
    if hour < 0 || hour > 23 then 0 else hour
  }

  /** The clamped minute of `datetime_string`; 60 is let through. */
  function ClampMinute(minute: int): (m: int)
    ensures 0 <= m <= 60
    ensures 0 <= minute <= 60 ==> m == minute
    ensures !(0 <= minute <= 60) ==> m == 0
  {
    if minute < 0 || minute > 60 then 0 else minute
  }

  /** The `Thh:mm:00` tail of a date-time for an hour and minute that
      already fit in two digits: `T`, the padded hour, `:`, the padded
      minute and `:00`. */
  function TimeTail(hour: int, minute: int): (t: string)
    requires 0 <= hour < 100 && 0 <= minute < 100
    ensures |t| == 9 && t[0] == 'T' && t[3] == ':' && t[6..] == ":00"
    ensures t[1..3] == Pad2(hour) && t[4..6] == Pad2(minute)
  {
    var t := "T" + Pad2(hour) + ":" + Pad2(minute) + ":00";
    assert t[1..3] == Pad2(hour) && t[4..6] == Pad2(minute);
    t
  }

  /** A `YYYY-MM-DDThh:mm:00` text for the given fields: the year, padded
      month and padded day joined by `-`, then `T`, an hour and a minute
      field that parse back as the clamped hour and minute, and `:00`. */
  ghost predicate DatetimeShape(r: string, day: int, month: int, year: int, hour: int, minute: int) {
    && |r| >= 9
    && r[..|r| - 9] == IntToString(year) + "-" + Pad2(month) + "-" + Pad2(day)
    && r[|r| - 9] == 'T' && r[|r| - 6] == ':' && r[|r| - 3..] == ":00"
    && ParseInt(r[|r| - 8..|r| - 6]) == Some(ClampHour(hour))
    && ParseInt(r[|r| - 5..|r| - 3]) == Some(ClampMinute(minute))
  }

  /** `datetime_string(day, month, year, hour, minute)`:
      `YYYY-MM-DDThh:mm:00`, with the hour and minute clamped to 0 when out of
      range and the day and month left as they are; `DatetimeStringShape`
      reads it back. */
  function DatetimeString(day: int, month: int, year: int, hour: int, minute: int): (r: string)
    ensures |r| >= 9
    ensures r[..|r| - 9] == IntToString(year) + "-" + Pad2(month) + "-" + Pad2(day)
    ensures r[|r| - 9] == 'T' && r[|r| - 6] == ':' && r[|r| - 3..] == ":00"
    ensures r[|r| - 8..|r| - 6] == Pad2(ClampHour(hour)) && r[|r| - 5..|r| - 3] == Pad2(ClampMinute(minute))
  {
    var date := IntToString(year) + "-" + Pad2(month) + "-" + Pad2(day);
    var time := TimeTail(ClampHour(hour), ClampMinute(minute));
    AppendTail(date, time);
    date + time
  }

  /** A formatted date-time has the shape of its fields: its hour and
      minute fields parse back as the clamped hour and minute. */
  lemma DatetimeStringShape(day: int, month: int, year: int, hour: int, minute: int)
    ensures DatetimeShape(DatetimeString(day, month, year, hour, minute), day, month, year, hour, minute)
  {
    var r := DatetimeString(day, month, year, hour, minute);
    assert ParseInt(Pad2(ClampHour(hour))) == Some(ClampHour(hour));
    assert ParseInt(Pad2(ClampMinute(minute))) == Some(ClampMinute(minute));
  }

  /** Where the pieces of a nine-character tail sit in `head + tail`. */
  lemma AppendTail(head: string, tail: string)
    requires |tail| == 9
    ensures var r := head + tail;
            && r[..|r| - 9] == head && r[|r| - 9] == tail[0] && r[|r| - 6] == tail[3]
            && r[|r| - 8..|r| - 6] == tail[1..3] && r[|r| - 5..|r| - 3] == tail[4..6]
            && r[|r| - 3..] == tail[6..]
  {
  }

  /** For a date with non-negative fields the date part of a formatted
      date-time reads back, in year, month, day order. */
  lemma DatetimeDateRoundTrip(day: nat, month: nat, year: nat, hour: int, minute: int)
    ensures var r := DatetimeString(day, month, year, hour, minute);
            var parts := Split(r[..|r| - 9], '-');
            && |parts| == 3
            && ParseInt(parts[0]) == Some(year)
            && ParseInt(parts[1]) == Some(month)
            && ParseInt(parts[2]) == Some(day)
  {
    var parts := [IntToString(year), Pad2(month), Pad2(day)];
    assert forall i :: 0 <= i < 3 ==> '-' !in parts[i];
    assert Join(parts, '-') == IntToString(year) + "-" + Pad2(month) + "-" + Pad2(day) by {
      assert Join(parts[2..], '-') == Pad2(day);
      assert Join(parts[1..], '-') == Pad2(month) + "-" + Pad2(day);
    }
    SplitJoin(parts, '-');
  }

  // ---------------------------------------------------------------------
  // ints_to_string, language_code, direction_code
  // ---------------------------------------------------------------------

  /** What callers pass where the client expects `list[int] | int`; `NoneArg`
      is an option left out where the client supplies no default. */
  datatype IntsArg = IntList(values: seq<int>) | SingleInt(value: int) | NoneArg

  /** The decimal rendering of each element, in order. */
  function Renderings(xs: seq<int>): (r: seq<string>)
    ensures |r| == |xs|
    ensures forall i :: 0 <= i < |xs| ==> r[i] == IntToString(xs[i])
  {
    seq(|xs|, i requires 0 <= i < |xs| => IntToString(xs[i]))
  }

  /** `ints_to_string(ints)`: a list becomes its renderings joined by `|`,
      anything else is rendered by `str` (`None` as the text `None`). */
  function IntsToString(ints: IntsArg): (r: string)
    ensures ints == IntList([]) ==> r == ""
    ensures ints.SingleInt? ==> ParseInt(r) == Some(ints.value)
  {
    match ints
    case IntList(xs) => Join(Renderings(xs), '|')
    case SingleInt(n) => IntToString(n)
    case NoneArg => "None"
  }

  /** Splitting a non-empty joined list on `|` and parsing each piece gives
      the list back. */
  lemma IntsToStringRoundTrip(xs: seq<int>)
    requires |xs| >= 1
    ensures var parts := Split(IntsToString(IntList(xs)), '|');
            && |parts| == |xs|
            && forall i :: 0 <= i < |xs| ==> ParseInt(parts[i]) == Some(xs[i])
  {
    var parts := Renderings(xs);
    assert forall i :: 0 <= i < |parts| ==> '|' !in parts[i];
    SplitJoin(parts, '|');
  }

  /** `language_code(code)`: `ES` for a missing or empty code and for `es`,
      `EN` for anything else. */
  function LanguageCode(code: Option<string>): (r: string)
    ensures r == "ES" || r == "EN"
    ensures r == "ES" <==> (code == None || code == Some("") || code == Some("es"))
  {
    if code.None? || code.value == "" || code.value == "es" then "ES" else "EN"
  }

  /** `direction_code(direction)`: 2 for `backward` only, 1 otherwise. */
  function DirectionCode(direction: string): (r: int)
    ensures r == 1 || r == 2
    ensures r == 2 <==> direction == "backward"
  {
    if direction == "backward" then 2 else 1
  }
}

=== FILE: wrappers.dfy ===
/** Option and exception-carrying result types shared by every module.

    Python code in the client signals failure by raising; the model returns
    `Err` with the class of the exception instead, and `:-` propagates it in
    the same order as the statements of the source. */
module Wrappers {

  datatype Option<+T> = None | Some(value: T) {
    function GetOr(default: T): T {
      match this
      case Some(v) => v
      case None => default
    }
  }

  /** The Python exception classes the modelled code can raise.
      `Unmodelled` stands for an outcome that depends on the iteration order
      of a JSON object, which a `map` does not record. */
  datatype PyError = TypeError | ValueError | AttributeError | IndexError | Unmodelled

  datatype Result<+T> = Ok(value: T) | Err(error: PyError) {
    predicate IsFailure() {
      Err?
    }

    function PropagateFailure<U>(): Result<U>
      requires Err?
    {
      Err(error)
    }

    function Extract(): T
      requires Ok?
    {
      value
    }
  }

  /** `f` applied to every element in order: success exactly when every
      application succeeds, with one result per element; otherwise the
      error of the first element that fails, as a loop that stops at the
      first exception gives it. */
  function MapAll<A, B>(xs: seq<A>, f: A -> Result<B>): (r: Result<seq<B>>)
    ensures r.Ok? <==> forall i :: 0 <= i < |xs| ==> f(xs[i]).Ok?
    ensures r.Ok? ==> |r.value| == |xs|
    ensures r.Ok? ==> forall i :: 0 <= i < |xs| ==> f(xs[i]) == Ok(r.value[i])
    ensures r.Err? ==> exists k :: 0 <= k < |xs| && f(xs[k]) == Err(r.error)
                                   && forall j :: 0 <= j < k ==> f(xs[j]).Ok?
  {
    if |xs| == 0 then Ok([])
    else
      var first :- f(xs[0]);
      var rest :- MapAll(xs[1..], f);
      assert forall i :: 1 <= i < |xs| ==> xs[i] == xs[1..][i - 1];
      Ok([first] + rest)
  }

  /** One more successful element extends a successful prefix. */
  lemma MapAllExtend<A, B>(xs: seq<A>, f: A -> Result<B>, i: nat, done: seq<B>)
    requires i < |xs| && MapAll(xs[..i], f) == Ok(done) && f(xs[i]).Ok?
    ensures MapAll(xs[..i + 1], f) == Ok(done + [f(xs[i]).value])
  {
    var r := MapAll(xs[..i + 1], f);
    assert forall j :: 0 <= j < i ==> xs[..i + 1][j] == xs[..i][j];
    assert r.Ok?;
    assert r.value == done + [f(xs[i]).value];
  }

  /** A failing element after a successful prefix decides the whole map. */
  lemma MapAllStops<A, B>(xs: seq<A>, f: A -> Result<B>, i: nat)
    requires i < |xs| && MapAll(xs[..i], f).Ok? && f(xs[i]).Err?
    ensures MapAll(xs, f) == Err(f(xs[i]).error)
  {
    assert forall j :: 0 <= j < i ==> xs[..i][j] == xs[j];
    var r := MapAll(xs, f);
    var k :| 0 <= k < |xs| && f(xs[k]) == Err(r.error) && forall j :: 0 <= j < k ==> f(xs[j]).Ok?;
    assert k == i;
  }
}
